=== FILE: README.md ===
# Mylang syntax front end in Dafny

This project models the tree-sitter grammar of Mylang (`grammar.js`) as
two executable Dafny parts.

- **Tokenizer.** It turns a character sequence into lexemes:
  - identifiers, with some reclassified as `primitive_type`;
  - the reserved keywords;
  - punctuation, read by longest match;
  - char, string, boolean, integer and float literals, following their regexes;
  - `//` line comments, which carry a doc payload after `///` or `//!`.
- **Parser.** A precedence-climbing parser over the token list. Its binding
  powers and associativities come from the `PREC` table and the
  `prec`/`prec.left`/`prec.right` wrappers of each rule.
  - Every rule of `_expr` is a constructor of `Ast.Expr`, with the grammar's
    fields as parameters.
  - Lists are built by one pair of functions, `ParseSep`/`ParseSep1`. These are
    the `sep`/`sep1` helpers.

`FrontEnd.ParseText` puts the two together. It lexes the text, drops the
comments as extras, keeps their documentation, and parses the rest as a
`source_file`.

Most properties are stated as "print, then read back" round trips. Each
form has a printer (`Print`, `DeclTokens`, `ListTokens`, `FnTokens`, …) that
produces the tokens of a tree. The read-back is proved in two layers:

- For the operator fragment, the parser returns exactly the printed tree,
  grouping and associativity included. The fragment is names, literals,
  parentheses, preops, binary operators and assignments (`ParserProps.ParsesPrinted`).
- Every other form has a read-back lemma of its own, one level deep. The form
  is read back with its fields and list contents, provided its children are
  operator-fragment trees. Postfix chains also allow suffixes of suffixes
  (`a.b(x)[i]?`).

No lemma reads back an arbitrary nesting of forms. `fn -> { … }`,
`{ x := 1; x }`, `struct { f: *u8 }` and `f(g(x))` are examples. "## Left out"
names the limit of each lemma. Concrete token lists pin down the
disambiguations the grammar makes.

Modules, one per file:

| file | module | contents |
|---|---|---|
| wrappers.dfy | Wrappers | `Option`, `Result` |
| tokens.dfy | Tokens | token kinds, spellings, the primitive-type and keyword classes |
| lexer.dfy | Lexer | `NextToken`, `LexFrom`, `Significant`, `DocComments` |
| ast.dfy | Ast | the syntax tree |
| precedence.dfy | Precedence | the `PREC` table and the infix operators |
| parser.dfy | Parser | the parser |
| parser_props.dfy | ParserProps | binary operators and assignment: grouping and associativity |
| form_props.dfy | FormProps | `source_file` |
| decl_props.dfy | DeclProps | `var_decl` |
| list_props.dfy | ListProps | `sep`/`sep1` |
| container_props.dfy | ContainerProps | blocks, struct/union/enum, initializers, calls |
| control_props.dfy | ControlProps | `if`, `while`, the keyword forms, `extern_decl` |
| fn_props.dfy | FnProps | `fn` |
| operand_props.dfy | OperandProps | ranges, signed literals, postfix chains |
| type_props.dfy | TypeProps | type prefixes, `nil`, `match`/`for` |
| lexer_props.dfy | LexerProps | tokenizer round trip, comments, literal shapes |
| front_end.dfy | FrontEnd | text to tree |

Where the code and the prose description of the language disagree, the
model follows `grammar.js`:

- **A file made only of `;` is rejected.** `source_file` is
  `sep(repeat(";"), _expr)`, and `sep1` needs a first expression
  (`FormProps.OnlySemicolonsRejected`). An empty file is accepted.
- **`a .. b .. c` is accepted and groups to the left.** `range` is
  `prec.left` (`OperandProps.RangeChainsLeft`). It is not an error.
- **Few words are keywords.** `and`, `or`, `static`, `in` and `then` are
  not keywords of the grammar, so they read as identifiers.
- **`break` and `continue` need an operand.** They are `seq("break", $._expr)`.
- **Parameter lists are separated by `,` only.** `_var_decl_list1` is
  `sep1(",", var_decl)`; `;` does not separate parameters.
- **Numbers have no radix prefixes or underscores.** The literal regexes are
  `-?\d+` and `-?\d+\.\d+`.
- **Floats follow the regex.** `float_literal` is also listed among the
  external tokens, but its regex rule is the one the grammar defines. The model
  lexes by that regex, and `0..10` is still two integers around `..`
  (`LexerProps.IntegerRange`).

Choices the model makes where the generated parser would rely on lexer
states or conflict resolution:

- **The lexer is context-free maximal munch.** `-` directly before a digit
  starts a signed literal. When such a literal follows a complete operand,
  the parser reads it as subtraction of its magnitude
  (`OperandProps.SignedLiteralSubtracts`).
- **Keywords are reserved words** (the grammar's `word` token). `true` and
  `false` are boolean literals.
- **`(` can start two forms.** It starts a `fn` parameter list when a
  declaration list and `)` follow. `_var_decl_list1` has `prec(3)`, above a
  declaration used as an expression, so such a list must then be followed
  by `->`: `(x : T)` alone is rejected (`FnProps.ParamListNeedsArrow`).
  Otherwise `(` starts a `parenthesis`.
- **In `fn`, two expressions mean a return type.** When a second expression
  follows the first after `->`, the first is `ret_ty`.
- **A bare type in `x : T : v` nests.** `_decl_ty` is parsed at `prec(4)`,
  so a bare name `T` followed by `:` is itself read as a declaration, giving
  `x : (T : v)` (`DeclProps.ConstDeclOfBareName`). A type whose last
  token is not a name keeps the constant form; a parenthesised type is one
  such (`DeclProps.ConstDeclOfParenType`).
- **Operators continue greedily.** A token that can continue the current
  expression always does. Juxtaposition applies only where no operator
  continues: the zero-length `;` run at top level, and `ret_ty` followed by
  the body.

## Model

| member | source | states |
|---|---|---|
| Lexer.KeywordOf | grammar.js:65 | a word is found as a keyword exactly when it is the text of one, and then it is that keyword |
| Lexer.ClassifyWord | grammar.js:113-125 | a word keeps its spelling; it is a `primitive_type` iff it is void/never/bool/f32/f64 or `u`/`i` plus digits, a keyword iff it is a keyword's text, a boolean iff true/false, and an `ident` otherwise |
| Lexer.PrimitiveTypeNameNotKeyword | grammar.js:113-122 | no primitive type name is a keyword |
| Lexer.ScanPunct | grammar.js:141-246 | a symbol read is 1 to 3 characters long and spells exactly the characters it consumed |
| Lexer.ScanWord | grammar.js:125 | a word is read to the first non-word character and its token spells it |
| Lexer.DigitRunEnd | grammar.js:138-139 | the digit run ends at the first non-digit |
| Lexer.ScanNumber | grammar.js:138-139 | a number is an integer or a float that spells its prefix; it is never followed by a digit, and an integer is never followed by `.` and a digit |
| Lexer.ScanChar | grammar.js:134 | a char literal is read iff a non-newline character and a closing quote follow the quote |
| Lexer.ScanString | grammar.js:135 | a string literal is read iff a closing quote follows, and it spells the characters consumed |
| Lexer.ScanLineComment | grammar.js:304-311 | a line comment runs exactly to the end of its line |
| Lexer.NextToken | grammar.js:36-40 | every token read is valid and spells exactly the characters it consumed |
| Lexer.LexFailsAt | grammar.js:36-40 | lexing fails only at a non-blank offset where no token starts |
| Lexer.Significant | grammar.js:36-40 | the parser's tokens contain no comment |
| Precedence.BinOpPower | grammar.js:10-23 | every binary operator binds between `binop_or` and `binop_mul` |
| Parser.ParseModifiers | grammar.js:251 | the modifiers read are exactly the run of `pub`/`mut`/`rec` words, and the run is maximal |
| Parser.SkipSemis | grammar.js:69 | a `repeat(";")` run is skipped whole |
| Parser.ParseSep1 | grammar.js:342-344 | `sep1` yields at least one element, each of the list's kind |
| Parser.ParseTopLevel | grammar.js:69 | a non-empty source file yields at least one expression |
| ParserProps.PowerFacts | grammar.js:10-31 | only the assignments are right-associative, at `assign`; the binary operators lie between `binop_or` and `binop_mul` |
| ParserProps.ParsesPrinted | grammar.js:225-246 | a well-bracketed operator tree is read back exactly, and the read ends right after its tokens |
| ParserProps.PrefixOperandReads | grammar.js:217-220 | a preop directly under a preop (`!-a`, `&!x`) is read whole as the outer preop's operand |
| ParserProps.InfixSteps | grammar.js:225-246 | the operator loop folds a left spine of operators and operands into the tree they build |
| ParserProps.SourceReadsPrinted | grammar.js:69 | a well-bracketed expression alone is the one top-level item |
| ParserProps.Grouping | grammar.js:10-31 | in `x o1 y o2 z` the first operator groups first iff it binds tighter, or equally tight and not right-associative |
| ParserProps.MulInsideAdd | grammar.js:226-227 | `a + b * c` is `a + (b * c)` |
| ParserProps.SubGroupsLeft | grammar.js:227 | `a - b - c` is `(a - b) - c` |
| ParserProps.AssignGroupsRight | grammar.js:241-243 | `a = b = c` is `a = (b = c)` |
| ParserProps.AndInsideOr | grammar.js:233-234 | `a && b \|\| c` is `(a && b) \|\| c` |
| ParserProps.CompoundTakesWholeRhs | grammar.js:244-246 | `a += b * c` is `a += (b * c)` |
| FormProps.SourceReadsAll | grammar.js:69 | expressions separated by runs of `;`, with an optional trailing run, read back as exactly those expressions; a run may be empty where the next expression cannot continue the previous one |
| FormProps.OnlySemicolonsRejected | grammar.js:342-348 | a file of one or more `;` and nothing else is rejected at its first token |
| FormProps.JuxtaposedNames | grammar.js:69 | two names in a row are two top-level expressions |
| DeclProps.ReadsDecl | grammar.js:250-258 | a `var_decl` of any modifiers and any of the five shapes is read back with its modifiers, name, shape, type and default; for `: ty : e` the type must not end with a name, and a bare `: ty` must not be followed by `:` |
| DeclProps.DeclStatement | grammar.js:250-259 | a declaration of any of the five shapes, alone in a file, is read back as that declaration (for `: ty : e`, when the type does not end with a name) |
| DeclProps.ConstTypeReads | grammar.js:255-259 | in `: ty : e`, a type that does not end with a name is read whole at `decl_ty` and stops at the second `:` |
| DeclProps.ConstDeclOfParenType | grammar.js:255 | `x : (T) : v` is a constant declaration of type `(T)` with default `v` |
| DeclProps.ConstDeclOfBareName | grammar.js:255-259 | `x : t : v` is `x` typed by the declaration `t : v` |
| DeclProps.TypedVarThenAssign | grammar.js:255 | in `x : t = a = b` the default stops at `a`, and the declaration is assigned `b` |
| DeclProps.InferredTakesAssign | grammar.js:256 | in `x := a = b` the default is the whole assignment `a = b` |
| ListProps.ParsesItem | grammar.js:212-215 | each list element is read back as an expression, argument, declaration or variant of its list |
| ListProps.ParsesSep1 | grammar.js:342-344 | a non-empty list with or without a trailing separator is read back as exactly its elements, up to its closing token |
| ListProps.ParsesSep | grammar.js:346-348 | `sep` also reads the empty list |
| ListProps.DoubledSeparatorRejected | grammar.js:342-344 | an element followed by two separators is rejected |
| ContainerProps.BlockReadsBack | grammar.js:158 | `{ e1; …; en }` with or without a trailing `;` is a block of exactly those expressions |
| ContainerProps.FieldsReadBack | grammar.js:160-171 | `struct { … }` and `union { … }` hold exactly the declarations written |
| ContainerProps.VariantsReadBack | grammar.js:172-180 | `enum { … }` holds exactly the variants written, each with its optional type |
| ContainerProps.EmptyListsAccepted | grammar.js:158-165 | `{}` is the empty block and `struct {}` the empty struct |
| ContainerProps.AnonymousInitializersReadBack | grammar.js:182-199 | `.( … )`, `.{ … }` and `.[ … ]` without a type hold exactly the elements written |
| ContainerProps.TypedInitializerReadsBack | grammar.js:182-199 | a name before an initializer opener is the initializer's type |
| ContainerProps.NamedInitializerReadsBack | grammar.js:188-193 | `T.{ … }` is a named initializer of type `T` with exactly the fields written |
| ContainerProps.CallReadsBack | grammar.js:204-211 | `f( … )` is a call of `f` with exactly the arguments written, positional or named |
| ControlProps.IfReadsBack | grammar.js:268-274 | `if c do? b (else e)?` is read back with its condition, branch and optional else |
| ControlProps.ElseIfNests | grammar.js:268-274 | in `if a b else if c d else e` the second `if` is the first one's whole else branch |
| ControlProps.DanglingElse | grammar.js:268 | an `else` belongs to the nearest `if` |
| ControlProps.WhileReadsBack | grammar.js:284-289 | `while c do? b` is read back with its condition and body |
| ControlProps.KeywordFormReadsBack | grammar.js:294-298 | `defer`, `return`, `break`, `continue` and `unsafe` take the whole following expression |
| ControlProps.ReturnTakesAssignment | grammar.js:295 | `return a = b` returns the assignment |
| ControlProps.ExternReadsBack | grammar.js:261-266 | `extern x : T` is read back with its name and type |
| FnProps.FnReadsBack | grammar.js:146-155 | a `fn` with no, one bare, or a list of parameters, an optional return type and a body is read back exactly |
| FnProps.ParamListNeedsArrow | grammar.js:146-157 | `(` followed by a declaration list and its `)` is rejected right after the `)` unless `->` comes next; it is never read as a parenthesis |
| FnProps.ReturnTypeThenBody | grammar.js:152-154 | in `-> a b` the first expression is the return type and the second the body |
| OperandProps.RangeReadsBack | grammar.js:236-240 | a range with optional start, `..` or `..=`, and optional end is read back exactly |
| OperandProps.RangeChainsLeft | grammar.js:236 | `a .. b .. c` is `(a .. b) .. c` |
| OperandProps.SignedLiteralSubtracts | grammar.js:138 | a signed literal after a complete operand is subtraction of its magnitude, taking the operators of the additive level and above |
| OperandProps.NameMinusOne | grammar.js:227 | `a -1` is `a - 1` |
| OperandProps.SuffixesReadBack | grammar.js:202-224 | a name, literal or parenthesis followed by any chain of `.name`, `[i]`, calls `(args)` and postops, then by any run of binary operators and assignments, is read back with the suffixes applied left to right and the whole chain as the leftmost operand |
| OperandProps.MethodCallThenAdd | grammar.js:202-227 | `a.b(x) + c` is `(a.b)(x) + c`: the call applies to the field, and the sum to the call |
| OperandProps.PrefixOverSuffixes | grammar.js:11-12 | a preop applies to the whole postfix chain after it |
| OperandProps.NegOfField | grammar.js:217-220 | `-a.b` is `-(a.b)` |
| OperandProps.NotOfTry | grammar.js:221-224 | `!a?` is `!(a?)` |
| OperandProps.NestedPreops | grammar.js:217-220 | `!-a` is `!(-a)` and `- -a` is `-(-a)` |
| TypeProps.PtrTyReadsBack | grammar.js:141 | `*T` and `*mut T` are pointer types to `T`, mutable exactly when `mut` is written |
| TypeProps.SliceTyReadsBack | grammar.js:142 | `[]T` and `[]mut T` are slice types of `T` |
| TypeProps.ArrayTyReadsBack | grammar.js:143 | `[n]T` is an array type of count `n` and element `T` |
| TypeProps.OptionTyReadsBack | grammar.js:144 | `?T` in operand position is an option type |
| TypeProps.NilReadsBack | grammar.js:110 | `nil` is the nil expression |
| TypeProps.PlaceholdersRejected | grammar.js:275-283 | a file starting with `match` or `for` is rejected at its first token |
| LexerProps.ReadsWord | grammar.js:125 | a whole word is read as one token and classified |
| LexerProps.KeywordSpelling | grammar.js:65 | each keyword's text is a word that is classified as that keyword |
| LexerProps.NameSpelling | grammar.js:113-125 | each valid name's text is read back as that name, `ident` or `primitive_type` |
| LexerProps.PunctReadsBack | grammar.js:217-246 | each symbol's text is found as that symbol |
| LexerProps.ReadsSym | grammar.js:217-246 | each symbol followed by a newline is read as that symbol, as the longest match |
| LexerProps.ReadsChar | grammar.js:134 | `'c'` is the char literal of `c` |
| LexerProps.ReadsString | grammar.js:135 | a quoted run without `"` is the string literal of that run |
| LexerProps.ReadsComment | grammar.js:304-311 | `//` and the rest of the line is one comment |
| LexerProps.ReadsInt | grammar.js:138 | an optional `-` and a digit run not followed by a digit, or by `.` and a digit, is one integer literal |
| LexerProps.ReadsFloat | grammar.js:139 | `-?\d+\.\d+` not followed by a digit is one float literal |
| LexerProps.ReadsSpelling | grammar.js:127-139 | every valid token followed by a newline is read back as itself |
| LexerProps.LexUnlex | grammar.js:36-40 | valid tokens written one per line are lexed back as exactly those tokens |
| LexerProps.SignificantDropsComments | grammar.js:36-40 | the parser sees exactly the non-comment tokens in order, and the docs are the doc payloads of the comments in order |
| LexerProps.DocMarkers | grammar.js:304-311 | `//!x` and `///x` carry the doc `x`, `////x` and other comments carry none |
| LexerProps.IntegerRange | grammar.js:138-139 | `0..10`-like text is an integer, `..` and an integer, never a float |
| LexerProps.FloatWhole | grammar.js:139 | a digit run, `.` and a digit run is one float literal |
| FrontEnd.ParseText | grammar.js:33-40 | a lexical error names a non-blank offset where no token starts; a parse error names a token within the significant tokens; success carries the comments' docs |
| FrontEnd.TextOfTokens | grammar.js:36-40 | a text made of valid tokens parses exactly when its non-comment tokens do, to the same items, with the comments' docs |
| FrontEnd.CommentsAreExtras | grammar.js:36-40 | inserting a line comment changes neither success nor the items, and adds only its own doc |
| FrontEnd.PrintHasNoComments | grammar.js:71-111 | printed trees contain no comment token |
| FrontEnd.TextReadsBack | grammar.js:69 | a well-bracketed expression written out token by token is read back as the only item, with no docs |

## Left out

- Block comments (`/* … */`) and the external scanner tokens are left out. Those tokens are string content, raw strings, block-comment content and doc markers, and the error sentinel. Their implementation is an unseen C scanner. `/*` is a lexical error in this model.
- The grammar's only forms for `match` and `for` are the placeholders `match TODO` and `for TODO`. The model rejects them (`TypeProps.PlaceholdersRejected`).
- Bitwise `|`, `mut_ptr_ty`, pipe and catch are left out, because they are commented out or absent in the grammar. `|=` is still an assignment operator, as the grammar lists it.
- Escapes and prefixes in char and string literals are left out; the grammar has none.
- Several parts of tree-sitter are not modelled: error recovery, incremental reparsing and GLR conflict exploration. The parser is deterministic and stops at the first error, reporting its position.
- Tree-sitter's context-dependent lexing is not modelled. The model picks one deterministic reading where tokens overlap:
  - `-1` as a literal versus a preop;
  - `-1` after a complete operand, where juxtaposition is allowed: the model subtracts (`a -1` is `a - 1`, `OperandProps.NameMinusOne`), while a context-aware lexer could start a new item with the literal;
  - `&` as a preop versus bitand;
  - `&&` in operand position: the model reads one `&&` token and rejects `&&x`, while a context-aware lexer could read `&(&x)`;
  - an initializer with versus without `lhs`.
- The character classes `\s`, `\d` and `\w` are ASCII; their Unicode members are not modelled. `.` in a char literal is any character except a newline.
- Source spans keep only the start offset of each lexeme. Line and column are not tracked.
- ParserProps.ParsesPrinted: the read-back is proved for the operator fragment only: names, literals, parentheses, preops (nested ones such as `- -a` included), binary operators and assignments. The other forms' read-back lemmas take operator-fragment children, as the lines below say. No lemma reads back an arbitrary nesting of forms.
- FrontEnd.TextReadsBack: stated for text written one token per line. Other layouts of blanks between tokens are not covered by a lemma.
- LexerProps.LexUnlex: stated for one token per line; the lemma does not cover tokens written directly next to each other.
- TypeProps.PtrTyReadsBack, TypeProps.SliceTyReadsBack, TypeProps.ArrayTyReadsBack, TypeProps.OptionTyReadsBack: the operand is a tree of the operator fragment that a preop could take (`ParserProps.PreopOperand`): another preop, or one that binds tighter. A binary operand is regrouped by the grammar itself: `*a + b` is `(*a) + b`.
- FnProps.FnReadsBack: the parameter types and defaults, the return type and the body must be operator-fragment trees. When a return type is present, the body must also not start with an infix token. A block body (`fn -> { … }`), a pointer parameter type (`fn (p: *u8) -> …`) and a call as the body are not covered.
- FormProps.SourceReadsAll: every top-level expression must be an operator-fragment tree. A file of declarations (`x := 1; y : u8`), or of blocks, `fn`s, `if`s or calls, is not covered. Single items of those forms are covered by their own lemmas.
- DeclProps.ReadsDecl: the type and the default must be operator-fragment trees. `x : *u8`, `p := .{ … }` and `f := fn -> …` are not covered.
- DeclProps.DeclStatement: same limit as DeclProps.ReadsDecl. `x : *u8` or `x := { … }` alone in a file is not covered.
- ListProps.ParsesItem: the elements must be operator-fragment trees: the expressions, the argument values, the variant types, and the declaration types and defaults. A call, block, `fn`, initializer or type constructor as an element (`f(g(x))`) is not covered.
- ListProps.ParsesSep1: elements as in ListProps.ParsesItem.
- ListProps.ParsesSep: elements as in ListProps.ParsesItem.
- ContainerProps.BlockReadsBack: the block's expressions must be operator-fragment trees. `{ x := 1; x }`, `{ return f(x) }`, nested blocks and `if`s inside a block are not covered.
- ContainerProps.FieldsReadBack: the field types and defaults must be operator-fragment trees. `struct { f: *u8 }`, slice-typed fields and fields of `struct` type are not covered.
- ContainerProps.VariantsReadBack: each variant type must be an operator-fragment tree. `enum { a(*u8) }` is not covered.
- ContainerProps.AnonymousInitializersReadBack: the elements must be operator-fragment trees. `.( f(x) )` and nested initializers such as `.[ .{ … } ]` are not covered.
- ContainerProps.NamedInitializerReadsBack: the type must be a bare name and the field values operator-fragment trees. `T.{ x = f(y) }` and `T.{ x = .{ … } }` are not covered.
- ContainerProps.CallReadsBack: the callee must be a bare name and the arguments operator-fragment trees. `f(g(x))` and `f(.{ … })` are not covered. Calls on a field or on another call, such as `a.b(x)` and `f(x)(y)`, are covered by OperandProps.SuffixesReadBack.
- ControlProps.IfReadsBack: the condition and both branches must be operator-fragment trees. `if c { … } else { … }` with block branches, and `if`s as branches beyond ControlProps.ElseIfNests, are not covered.
- ControlProps.WhileReadsBack: the condition and the body must be operator-fragment trees. `while c { … }` is not covered.
- ControlProps.KeywordFormReadsBack: the operand must be an operator-fragment tree. `return f(x)` and `defer { … }` are not covered.
- ControlProps.ExternReadsBack: the type must be an operator-fragment tree. `extern x : *u8` is not covered.
- OperandProps.RangeReadsBack: each bound must be an operator-fragment tree that binds tighter than `..`. `0..f(x)` and `a.b..c` are not covered.
- OperandProps.SuffixesReadBack: the base must be a name, literal or parenthesis. The subscripts and the call arguments must be operator-fragment trees. `a[f(x)]` and `f(g(x))` are not covered.

=== FILE: ast.dfy ===
/**
 * The syntax tree built by the parser: one node kind per expression rule of
 * grammar.js (every construct of the language is an expression), with the
 * grammar's named fields as constructor parameters.
 */
module Ast {

  import opened Wrappers
  import opened Tokens

  /** `preop`: `&`, `& mut`, `!`, `-`. */
  datatype PreOp = AddrOf | AddrOfMut | Not | Neg

  /** `postop`: `.&`, `.& mut`, `.*`, `?`. */
  datatype PostOp = PostAddrOf | PostAddrOfMut | Deref | Try

  /** The operators of `binop` (bitwise `|` is commented out in the grammar). */
  datatype BinOp =
    | Mul | Div | Rem | Add | Sub | Shl | Shr | BitAnd | BitXor
    | Eq | Ne | Lt | Le | Gt | Ge | And | Or

  /** The operators of `binop_assign`. */
  datatype AssignOp =
    | MulAssign | DivAssign | RemAssign | AddAssign | SubAssign | ShlAssign | ShrAssign
    | BitAndAssign | BitXorAssign | BitOrAssign | AndAssign | OrAssign

  /** The `pub`, `mut` and `rec` words in front of a `var_decl`. */
  datatype Modifier = PubMod | MutMod | RecMod

  /**
   * The five shapes of a `var_decl` after its name:
   * `: ty`, `: ty = e`, `: ty : e`, `:= e` and `:: e`.
   */
  datatype DeclForm =
    | Typed(ty: Expr)
    | TypedVar(ty: Expr, default: Expr)
    | TypedConst(ty: Expr, default: Expr)
    | InferredVar(default: Expr)
    | InferredConst(default: Expr)

  datatype VarDecl = VarDecl(modifiers: seq<Modifier>, name: Name, form: DeclForm)

  /** `arg`: a value, or `name = value`. */
  datatype Arg = Positional(val: Expr) | Named(target: Name, val: Expr)

  /** One entry of an `enum_def`: a name and an optional `(ty)`. */
  datatype Variant = Variant(name: Name, ty: Option<Expr>)

  /** The `params` field of `fn`: blank, a single `_ident`, or a parenthesised declaration list. */
  datatype Params = NoParams | OneParam(name: Name) | ParamList(decls: seq<VarDecl>)

  datatype Expr =
    | NameRef(name: Name)
    | Literal(lit: Literal)
    | NilLit
    | PtrTy(isMut: bool, pointee: Expr)
    | SliceTy(isMut: bool, elem: Expr)
    | ArrayTy(count: Expr, elem: Expr)
    | OptionTy(inner: Expr)
    | Fn(params: Params, retTy: Option<Expr>, body: Expr)
    | Paren(inner: Expr)
    | Block(items: seq<Expr>)
    | StructDef(fields: seq<VarDecl>)
    | UnionDef(fields: seq<VarDecl>)
    | EnumDef(variants: seq<Variant>)
    | PosInitializer(ty: Option<Expr>, args: seq<Arg>)
    | NamedInitializer(ty: Option<Expr>, args: seq<Arg>)
    | ArrayInitializer(ty: Option<Expr>, elems: seq<Expr>)
    | Field(lhs: Expr, member: Name)
    | Index(lhs: Expr, idx: Expr)
    | Call(callee: Expr, args: seq<Arg>)
    | Prefix(preop: PreOp, operand: Expr)
    | Postfix(postop: PostOp, operand: Expr)
    | Binary(op: BinOp, lhs: Expr, rhs: Expr)
    | Range(start: Option<Expr>, inclusive: bool, end: Option<Expr>)
    | Assign(lhs: Expr, rhs: Expr)
    | BinopAssign(assignOp: AssignOp, lhs: Expr, rhs: Expr)
    | Decl(decl: VarDecl)
    | ExternDecl(externName: Name, externTy: Expr)
    | If(cond: Expr, thenBranch: Expr, elseBranch: Option<Expr>)
    | While(condition: Expr, loopBody: Expr)
    | Defer(operand: Expr)
    | Return(operand: Expr)
    | Break(operand: Expr)
    | Continue(operand: Expr)
    | Unsafe(operand: Expr)
}

=== FILE: container_props.dfy ===
/**
 * The forms built on a `sep` list, each read back into its node: `block`,
 * `struct_def`, `union_def`, `enum_def`, the three initializers with and
 * without a type in front, and `call`.
 */
module ContainerProps {

  import opened Wrappers
  import opened Tokens
  import opened Ast
  import opened Precedence
  import opened Parser
  import opened ParserProps
  import opened FormProps
  import opened DeclProps
  import opened ListProps

  // ---- Elements as list items ----

  /** Wraps each expression of a block or an array initializer as a list item, in order. */
  function ExprItems(es: seq<Expr>): (r: seq<Item>)
    ensures |r| == |es| && AllOfKind(r, Exprs)
    ensures forall i :: 0 <= i < |es| ==> r[i] == ExprItem(es[i])
  {
    if es == [] then [] else [ExprItem(es[0])] + ExprItems(es[1..])
  }

  /** Wraps each argument of a call or an argument initializer as a list item, in order. */
  function ArgItems(args: seq<Arg>): (r: seq<Item>)
    ensures |r| == |args| && AllOfKind(r, Args)
    ensures forall i :: 0 <= i < |args| ==> r[i] == ArgItem(args[i])
  {
    if args == [] then [] else [ArgItem(args[0])] + ArgItems(args[1..])
  }

  /** Wraps each field declaration of a `struct` or a `union` as a list item, in order. */
  function DeclItems(ds: seq<VarDecl>): (r: seq<Item>)
    ensures |r| == |ds| && AllOfKind(r, Decls)
    ensures forall i :: 0 <= i < |ds| ==> r[i] == DeclItem(ds[i])
  {
    if ds == [] then [] else [DeclItem(ds[0])] + DeclItems(ds[1..])
  }

  /** Wraps each variant of an `enum` as a list item, in order. */
  function VariantItems(vs: seq<Variant>): (r: seq<Item>)
    ensures |r| == |vs| && AllOfKind(r, Variants)
    ensures forall i :: 0 <= i < |vs| ==> r[i] == VariantItem(vs[i])
  {
    if vs == [] then [] else [VariantItem(vs[0])] + VariantItems(vs[1..])
  }

  /** Reading the elements back out of the items gives the elements. */
  lemma {:induction false} ItemsRoundTrip(es: seq<Expr>, args: seq<Arg>, ds: seq<VarDecl>, vs: seq<Variant>)
    ensures ExprsOf(ExprItems(es)) == es && ArgsOf(ArgItems(args)) == args
    ensures DeclsOf(DeclItems(ds)) == ds && VariantsOf(VariantItems(vs)) == vs
    decreases |es| + |args| + |ds| + |vs|
  {
    if es != [] {
      ItemsRoundTrip(es[1..], args, ds, vs);
      assert ExprItems(es)[1..] == ExprItems(es[1..]);
    }
    if args != [] {
      ItemsRoundTrip(es, args[1..], ds, vs);
      assert ArgItems(args)[1..] == ArgItems(args[1..]);
    }
    if ds != [] {
      ItemsRoundTrip(es, args, ds[1..], vs);
      assert DeclItems(ds)[1..] == DeclItems(ds[1..]);
    }
    if vs != [] {
      ItemsRoundTrip(es, args, ds, vs[1..]);
      assert VariantItems(vs)[1..] == VariantItems(vs[1..]);
    }
  }

  predicate AllWellBracketed(es: seq<Expr>) {
    forall i :: 0 <= i < |es| ==> WellBracketed(es[i])
  }

  predicate ArgsOk(args: seq<Arg>) {
    forall i :: 0 <= i < |args| ==> ItemOk(ArgItem(args[i]), Args)
  }

  predicate DeclsOk(ds: seq<VarDecl>) {
    forall i :: 0 <= i < |ds| ==> FormOk(ds[i].form)
  }

  predicate VariantsOk(vs: seq<Variant>) {
    forall i :: 0 <= i < |vs| ==> (vs[i].ty.Some? ==> WellBracketed(vs[i].ty.value))
  }

  // ---- The forms with nothing in front ----

  /** The kinds of bracketed list that start an operand. */
  datatype Container = BlockOf | StructOf | UnionOf | EnumOf | ByPositionOf | ByNameOf | ByArrayOf

  /** The tokens before the list. */
  function Opener(c: Container): seq<Token> {
    match c
    case BlockOf => [Sym(LBrace)]
    case StructOf => [Kw(Struct), Sym(LBrace)]
    case UnionOf => [Kw(Union), Sym(LBrace)]
    case EnumOf => [Kw(Enum), Sym(LBrace)]
    case ByPositionOf => [Sym(DotLParen)]
    case ByNameOf => [Sym(DotLBrace)]
    case ByArrayOf => [Sym(DotLBracket)]
  }

  function ElementKind(c: Container): ListKind {
    match c
    case BlockOf | ByArrayOf => Exprs
    case StructOf | UnionOf => Decls
    case EnumOf => Variants
    case ByPositionOf | ByNameOf => Args
  }

  function Separator(c: Container): Punct {
    if c == BlockOf then Semi else Comma
  }

  function Closing(c: Container): Punct {
    match c
    case ByPositionOf => RParen
    case ByArrayOf => RBracket
    case _ => RBrace
  }

  /** The tokens of a container form: opener, elements, optional trailing separator, closer. */
  function ContainerTokens(c: Container, items: seq<Item>, trailing: bool): seq<Token> {
    Opener(c) + ListTokens(items, Separator(c), Closing(c), trailing)
  }

  /** The node a container form builds from its elements. */
  function ContainerNode(c: Container, items: seq<Item>): Expr
    requires AllOfKind(items, ElementKind(c))
  {
    match c
    case BlockOf => Block(ExprsOf(items))
    case StructOf => StructDef(DeclsOf(items))
    case UnionOf => UnionDef(DeclsOf(items))
    case EnumOf => EnumDef(VariantsOf(items))
    case ByPositionOf => PosInitializer(None, ArgsOf(items))
    case ByNameOf => NamedInitializer(None, ArgsOf(items))
    case ByArrayOf => ArrayInitializer(None, ExprsOf(items))
  }

  /** Each container form reads its list with its own separator and closer. */
  lemma {:induction false} ContainerUnfolds(ts: seq<Token>, p: nat, c: Container, items: seq<Item>, end: nat)
    requires Occurs(ts, p, Opener(c))
    requires ParseSep(ts, p + |Opener(c)|, ElementKind(c), Separator(c), Closing(c)) == Ok(items, end)
    ensures AllOfKind(items, ElementKind(c))
    ensures ParsePrefix(ts, p) == Ok(ContainerNode(c, items), end)
  {
    OccursAt(ts, p, Opener(c), 0);
    if |Opener(c)| == 2 {
      OccursAt(ts, p, Opener(c), 1);
    }
    match c
    case BlockOf => assert ts[p] == Sym(LBrace);
    case StructOf => assert ts[p] == Kw(Struct);
    case UnionOf => assert ts[p] == Kw(Union);
    case EnumOf => assert ts[p] == Kw(Enum);
    case ByPositionOf =>
      assert ts[p] == Sym(DotLParen);
      assert ParseInitializer(ts, p, None, ByPosition) == Ok(PosInitializer(None, ArgsOf(items)), end);
    case ByNameOf =>
      assert ts[p] == Sym(DotLBrace);
      assert ParseInitializer(ts, p, None, ByName) == Ok(NamedInitializer(None, ArgsOf(items)), end);
    case ByArrayOf =>
      assert ts[p] == Sym(DotLBracket);
      assert ParseInitializer(ts, p, None, ByArray) == Ok(ArrayInitializer(None, ExprsOf(items)), end);
  }

  /** Every container form's tokens are read back into its node, from the prefix position. */
  lemma {:induction false} ContainerReads(ts: seq<Token>, p: nat, c: Container, items: seq<Item>, trailing: bool)
    requires ItemsOk(items, ElementKind(c)) && Occurs(ts, p, ContainerTokens(c, items, trailing))
    ensures ParsePrefix(ts, p).Ok? && ParsePrefix(ts, p).next == p + |ContainerTokens(c, items, trailing)|
    ensures AllOfKind(items, ElementKind(c))
    ensures ParsePrefix(ts, p).value == ContainerNode(c, items)
  {
    ContainerLayout(ts, p, c, items, trailing);
    ContainerPuncts(c);
    ParsesSep(ts, p + |Opener(c)|, items, ElementKind(c), Separator(c), Closing(c), trailing);
    ContainerUnfolds(ts, p, c, items, p + |ContainerTokens(c, items, trailing)|);
  }

  /** Every container's separator and closer are distinct list punctuation. */
  lemma {:induction false} ContainerPuncts(c: Container)
    ensures Closer(Separator(c)) && Closer(Closing(c)) && Separator(c) != Closing(c)
  {
  }

  /** A container's tokens are its opener followed by its list. */
  lemma {:induction false} ContainerLayout(ts: seq<Token>, p: nat, c: Container, items: seq<Item>, trailing: bool)
    requires Occurs(ts, p, ContainerTokens(c, items, trailing))
    ensures Occurs(ts, p, Opener(c))
    ensures Occurs(ts, p + |Opener(c)|, ListTokens(items, Separator(c), Closing(c), trailing))
    ensures |ContainerTokens(c, items, trailing)| == |Opener(c)| + |ListTokens(items, Separator(c), Closing(c), trailing)|
  {
    OccursSplit(ts, p, Opener(c), ListTokens(items, Separator(c), Closing(c), trailing));
  }

  /** An operand that ends the input is a source file of one expression. */
  lemma {:induction false} OperandStatement(ts: seq<Token>, e: Expr)
    requires ParsePrefix(ts, 0) == Ok(e, |ts|)
    ensures ParseSource(ts) == Success([e])
  {
    ParseExprThenInfix(ts, 0, MIN, e, |ts|);
    InfixStops(ts, |ts|, e, MIN);
    TopLevelLast(ts, 0, e, |ts|);
  }

  /** `{ e1; e2; ... }` is a block of exactly those expressions, with or without a trailing `;`. */
  lemma {:induction false} BlockReadsBack(es: seq<Expr>, trailing: bool)
    requires AllWellBracketed(es)
    ensures ParseSource(ContainerTokens(BlockOf, ExprItems(es), trailing)) == Success([Block(es)])
  {
    ItemsRoundTrip(es, [], [], []);
    assert ItemsOk(ExprItems(es), Exprs);
    ContainerStatement(BlockOf, ExprItems(es), trailing, Block(es));
  }

  /** `struct { ... }` and `union { ... }` keep their fields in order. */
  lemma {:induction false} FieldsReadBack(ds: seq<VarDecl>, trailing: bool)
    requires DeclsOk(ds)
    ensures ParseSource(ContainerTokens(StructOf, DeclItems(ds), trailing)) == Success([StructDef(ds)])
    ensures ParseSource(ContainerTokens(UnionOf, DeclItems(ds), trailing)) == Success([UnionDef(ds)])
  {
    FieldListReadsBack(ds, StructOf, trailing);
    FieldListReadsBack(ds, UnionOf, trailing);
  }

  /** A `struct` or a `union` body reads back into its fields. */
  lemma {:induction false} FieldListReadsBack(ds: seq<VarDecl>, c: Container, trailing: bool)
    requires DeclsOk(ds) && (c == StructOf || c == UnionOf)
    ensures ParseSource(ContainerTokens(c, DeclItems(ds), trailing))
      == Success([if c == StructOf then StructDef(ds) else UnionDef(ds)])
  {
    ItemsRoundTrip([], [], ds, []);
    assert ItemsOk(DeclItems(ds), Decls);
    ContainerStatement(c, DeclItems(ds), trailing, if c == StructOf then StructDef(ds) else UnionDef(ds));
  }

  /** `enum { ... }` keeps its variants, with their optional types, in order. */
  lemma {:induction false} VariantsReadBack(vs: seq<Variant>, trailing: bool)
    requires VariantsOk(vs)
    ensures ParseSource(ContainerTokens(EnumOf, VariantItems(vs), trailing)) == Success([EnumDef(vs)])
  {
    ItemsRoundTrip([], [], [], vs);
    assert ItemsOk(VariantItems(vs), Variants);
    ContainerStatement(EnumOf, VariantItems(vs), trailing, EnumDef(vs));
  }

  /** The three initializers with no type in front. */
  lemma {:induction false} AnonymousInitializersReadBack(args: seq<Arg>, es: seq<Expr>, trailing: bool)
    requires ArgsOk(args) && AllWellBracketed(es)
    ensures ParseSource(ContainerTokens(ByPositionOf, ArgItems(args), trailing)) == Success([PosInitializer(None, args)])
    ensures ParseSource(ContainerTokens(ByNameOf, ArgItems(args), trailing)) == Success([NamedInitializer(None, args)])
    ensures ParseSource(ContainerTokens(ByArrayOf, ExprItems(es), trailing)) == Success([ArrayInitializer(None, es)])
  {
    ArgInitializerReadsBack(args, ByPositionOf, trailing);
    ArgInitializerReadsBack(args, ByNameOf, trailing);
    ArrayInitializerReadsBack(es, trailing);
  }

  /** An untyped argument initializer, by position or by name, reads back. */
  lemma {:induction false} ArgInitializerReadsBack(args: seq<Arg>, c: Container, trailing: bool)
    requires ArgsOk(args) && (c == ByPositionOf || c == ByNameOf)
    ensures ParseSource(ContainerTokens(c, ArgItems(args), trailing))
      == Success([if c == ByPositionOf then PosInitializer(None, args) else NamedInitializer(None, args)])
  {
    ItemsRoundTrip([], args, [], []);
    assert ItemsOk(ArgItems(args), Args);
    ContainerStatement(c, ArgItems(args), trailing,
      if c == ByPositionOf then PosInitializer(None, args) else NamedInitializer(None, args));
  }

  /** An untyped array initializer reads back. */
  lemma {:induction false} ArrayInitializerReadsBack(es: seq<Expr>, trailing: bool)
    requires AllWellBracketed(es)
    ensures ParseSource(ContainerTokens(ByArrayOf, ExprItems(es), trailing)) == Success([ArrayInitializer(None, es)])
  {
    ItemsRoundTrip(es, [], [], []);
    assert ItemsOk(ExprItems(es), Exprs);
    ContainerStatement(ByArrayOf, ExprItems(es), trailing, ArrayInitializer(None, es));
  }

  /** A container written alone is the one statement it prints as. */
  lemma {:induction false} ContainerStatement(c: Container, items: seq<Item>, trailing: bool, e: Expr)
    requires ItemsOk(items, ElementKind(c))
    requires e == ContainerNode(c, items)
    ensures ParseSource(ContainerTokens(c, items, trailing)) == Success([e])
  {
    var ts := ContainerTokens(c, items, trailing);
    assert Occurs(ts, 0, ts);
    ContainerReads(ts, 0, c, items, trailing);
    OperandStatement(ts, e);
  }

  /** `{}` is the empty block and `struct {}` the struct with no fields. */
  lemma {:induction false} EmptyListsAccepted()
    ensures ParseSource([Sym(LBrace), Sym(RBrace)]) == Success([Block([])])
    ensures ParseSource([Kw(Struct), Sym(LBrace), Sym(RBrace)]) == Success([StructDef([])])
  {
    BlockReadsBack([], false);
    assert ContainerTokens(BlockOf, ExprItems([]), false) == [Sym(LBrace), Sym(RBrace)];
    FieldListReadsBack([], StructOf, false);
    assert ContainerTokens(StructOf, DeclItems([]), false) == [Kw(Struct), Sym(LBrace), Sym(RBrace)];
  }

  // ---- The forms that follow an operand ----

  /** `(` after an operand opens the argument list of a `call`. */
  lemma {:induction false} CallStep(ts: seq<Token>, q: nat, lhs: Expr, m: nat, items: seq<Item>, end: nat)
    requires q < |ts| && ts[q] == Sym(LParen) && m < POSTOP
    requires ParseSep(ts, q + 1, Args, Comma, RParen) == Ok(items, end)
    ensures AllOfKind(items, Args)
    ensures ParseInfix(ts, q, lhs, m) == ParseInfix(ts, end, Call(lhs, ArgsOf(items)), m)
  {
    assert ApplyInfix(ts, q, lhs, CallInfix) == Ok(Call(lhs, ArgsOf(items)), end);
  }

  /** `.(`, `.{` or `.[` after an operand opens an initializer whose type is that operand. */
  lemma {:induction false} InitStep(ts: seq<Token>, q: nat, lhs: Expr, m: nat, kind: InitKind, items: seq<Item>, end: nat)
    requires q < |ts| && InfixOf(ts[q]) == Some(InitInfix(kind)) && m < INITIALIZER
    requires var c := InitContainer(kind);
      ParseSep(ts, q + 1, ElementKind(c), Separator(c), Closing(c)) == Ok(items, end)
    ensures AllOfKind(items, ElementKind(InitContainer(kind)))
    ensures ParseInfix(ts, q, lhs, m) == ParseInfix(ts, end, InitNode(kind, Some(lhs), items), m)
  {
    match kind
    case ByPosition =>
      assert ParseInitializer(ts, q, Some(lhs), kind) == Ok(PosInitializer(Some(lhs), ArgsOf(items)), end);
    case ByName =>
      assert ParseInitializer(ts, q, Some(lhs), kind) == Ok(NamedInitializer(Some(lhs), ArgsOf(items)), end);
    case ByArray =>
      assert ParseInitializer(ts, q, Some(lhs), kind) == Ok(ArrayInitializer(Some(lhs), ExprsOf(items)), end);
  }

  /** The initializer node of each kind, with its optional type and its elements. */
  function InitNode(kind: InitKind, ty: Option<Expr>, items: seq<Item>): Expr
    requires AllOfKind(items, ElementKind(InitContainer(kind)))
  {
    match kind
    case ByPosition => PosInitializer(ty, ArgsOf(items))
    case ByName => NamedInitializer(ty, ArgsOf(items))
    case ByArray => ArrayInitializer(ty, ExprsOf(items))
  }

  /** The opening token of an initializer continues the operand before it, as `initializer`. */
  lemma {:induction false} OpenerFollows(ts: seq<Token>, q: nat, kind: InitKind)
    requires q < |ts| && ts[q] == Opener(InitContainer(kind))[0]
    ensures FollowOk(ts, q, TIGHT - 1) && InfixOf(ts[q]) == Some(InitInfix(kind))
  {
    match kind
    case ByPosition => assert ts[q] == Sym(DotLParen);
    case ByName => assert ts[q] == Sym(DotLBrace);
    case ByArray => assert ts[q] == Sym(DotLBracket);
  }

  function InitContainer(kind: InitKind): Container {
    match kind
    case ByPosition => ByPositionOf
    case ByName => ByNameOf
    case ByArray => ByArrayOf
  }

  /** `f(a, b, ...)`: a call of the name with exactly those arguments, with or without a trailing `,`. */
  lemma {:induction false} CallReadsBack(f: Name, args: seq<Arg>, trailing: bool)
    requires ArgsOk(args)
    ensures ParseSource([Word(f), Sym(LParen)] + ListTokens(ArgItems(args), Comma, RParen, trailing))
         == Success([Call(NameRef(f), args)])
  {
    var list := ListTokens(ArgItems(args), Comma, RParen, trailing);
    var ts := [Word(f), Sym(LParen)] + list;
    CallLayout(ts, f, list);
    CallArgs(ts, f, args, trailing);
    ReadsName(ts, 0);
    ParseExprThenInfix(ts, 0, MIN, NameRef(f), 1);
    TopLevelLast(ts, 0, Call(NameRef(f), args), |ts|);
  }

  lemma {:induction false} CallLayout(ts: seq<Token>, f: Name, list: seq<Token>)
    requires ts == [Word(f), Sym(LParen)] + list
    ensures |ts| == 2 + |list| && ts[0] == Word(f) && ts[1] == Sym(LParen) && Occurs(ts, 2, list)
    ensures FollowOk(ts, 1, TIGHT - 1)
  {
    assert Occurs(ts, 0, ts);
    OccursSplit(ts, 0, [Word(f), Sym(LParen)], list);
  }

  /** The argument list after the callee, up to the end of the input. */
  lemma {:induction false} CallArgs(ts: seq<Token>, f: Name, args: seq<Arg>, trailing: bool)
    requires ArgsOk(args)
    requires 2 <= |ts| && ts[1] == Sym(LParen) && Occurs(ts, 2, ListTokens(ArgItems(args), Comma, RParen, trailing))
    requires |ts| == 2 + |ListTokens(ArgItems(args), Comma, RParen, trailing)|
    ensures ParseInfix(ts, 1, NameRef(f), MIN) == Ok(Call(NameRef(f), args), |ts|)
  {
    ParsesSep(ts, 2, ArgItems(args), Args, Comma, RParen, trailing);
    CallStep(ts, 1, NameRef(f), MIN, ArgItems(args), |ts|);
    InfixStops(ts, |ts|, Call(NameRef(f), ArgsOf(ArgItems(args))), MIN);
    ItemsRoundTrip([], args, [], []);
  }

  /** `T.(...)`, `T.{...}` and `T.[...]`: the name before the dot is the initializer's type. */
  lemma {:induction false} TypedInitializerReadsBack(t: Name, kind: InitKind, items: seq<Item>, trailing: bool)
    requires ItemsOk(items, ElementKind(InitContainer(kind)))
    ensures AllOfKind(items, ElementKind(InitContainer(kind)))
    ensures ParseSource([Word(t)] + ContainerTokens(InitContainer(kind), items, trailing))
         == Success([InitNode(kind, Some(NameRef(t)), items)])
  {
    var ts := [Word(t)] + ContainerTokens(InitContainer(kind), items, trailing);
    TypedInitializerExpr(ts, t, kind, items, trailing);
    TopLevelLast(ts, 0, InitNode(kind, Some(NameRef(t)), items), |ts|);
  }

  lemma {:induction false} TypedInitializerExpr(ts: seq<Token>, t: Name, kind: InitKind, items: seq<Item>, trailing: bool)
    requires ItemsOk(items, ElementKind(InitContainer(kind)))
    requires ts == [Word(t)] + ContainerTokens(InitContainer(kind), items, trailing)
    ensures AllOfKind(items, ElementKind(InitContainer(kind)))
    ensures ParseExpr(ts, 0, MIN) == Ok(InitNode(kind, Some(NameRef(t)), items), |ts|)
  {
    var c := InitContainer(kind);
    TypedInitPieces(ts, t, c, items, trailing);
    OpenerFollows(ts, 1, kind);
    ReadsName(ts, 0);
    ParseExprThenInfix(ts, 0, MIN, NameRef(t), 1);
    ParsesSep(ts, 2, items, ElementKind(c), Separator(c), Closing(c), trailing);
    InitStep(ts, 1, NameRef(t), MIN, kind, items, |ts|);
    InfixStops(ts, |ts|, InitNode(kind, Some(NameRef(t)), items), MIN);
  }

  lemma {:induction false} TypedInitPieces(ts: seq<Token>, t: Name, c: Container, items: seq<Item>, trailing: bool)
    requires |Opener(c)| == 1 && ts == [Word(t)] + ContainerTokens(c, items, trailing)
    ensures ts[0] == Word(t) && ts[1] == Opener(c)[0]
    ensures Occurs(ts, 2, ListTokens(items, Separator(c), Closing(c), trailing))
    ensures |ts| == 2 + |ListTokens(items, Separator(c), Closing(c), trailing)|
  {
    var list := ListTokens(items, Separator(c), Closing(c), trailing);
    assert ts == [Word(t)] + Opener(c) + list;
    assert Occurs(ts, 0, ts);
    OccursSplit(ts, 0, [Word(t)] + Opener(c), list);
  }

  /** `T.{ x = a, y = b }`: a struct value with its type and its named fields. */
  lemma {:induction false} NamedInitializerReadsBack(t: Name, args: seq<Arg>, trailing: bool)
    requires ArgsOk(args)
    ensures ParseSource([Word(t)] + ContainerTokens(ByNameOf, ArgItems(args), trailing))
         == Success([NamedInitializer(Some(NameRef(t)), args)])
  {
    TypedInitializerReadsBack(t, ByName, ArgItems(args), trailing);
    ItemsRoundTrip([], args, [], []);
  }
}

=== FILE: control_props.dfy ===
/**
 * Properties of the control forms: `if` (right-associative, an optional
 * `do`, an optional `else`), `while`, the keyword forms `defer`, `return`,
 * `break`, `continue` and `unsafe`, and `extern_decl`.
 */
module ControlProps {

  import opened Wrappers
  import opened Tokens
  import opened Ast
  import opened Precedence
  import opened Parser
  import opened ParserProps
  import opened FormProps
  import opened ContainerProps

  // ---- if ----

  /** How `if` is assembled from the parses of its parts. */
  lemma {:induction false} IfUnfolds(ts: seq<Token>, p: nat, c: Expr, j: nat, k: nat, b: Expr, m: nat, e: Option<Expr>, next: nat)
    requires p < |ts| && ts[p] == Kw(Keyword.If)
    requires ParseExpr(ts, p + 1, MIN) == Ok(c, j)
    requires k == (if IsKw(ts, j, Do) then j + 1 else j) && ParseExpr(ts, k, MIN) == Ok(b, m)
    requires e.None? ==> !IsKw(ts, m, Else) && next == m
    requires e.Some? ==> IsKw(ts, m, Else) && ParseExpr(ts, m + 1, MIN) == Ok(e.value, next)
    ensures ParsePrefix(ts, p) == Ok(Expr.If(c, b, e), next)
  {
    assert ParseIf(ts, p + 1) == Ok(Expr.If(c, b, e), next);
  }

  function DoTokens(hasDo: bool): seq<Token> {
    if hasDo then [Kw(Do)] else []
  }

  function ElseTokens(e: Option<Expr>): seq<Token> {
    if e.Some? then [Kw(Else)] + Print(e.value) else []
  }

  /** `if cond do? then (else e)?` */
  function IfTokens(c: Expr, hasDo: bool, b: Expr, e: Option<Expr>): seq<Token> {
    [Kw(Keyword.If)] + Print(c) + DoTokens(hasDo) + Print(b) + ElseTokens(e)
  }

  /**
   * Where the parts of an `if` or a `while` sit: its keyword, the condition,
   * an optional `do`, the body, and what follows the body.
   */
  lemma {:induction false} HeadParts(ts: seq<Token>, kw: Keyword, cond: seq<Token>, doKw: seq<Token>, body: seq<Token>, tail: seq<Token>)
    returns (j: nat, k: nat, m: nat)
    requires ts == [Kw(kw)] + cond + doKw + body + tail
    ensures j == 1 + |cond| && k == j + |doKw| && m == k + |body| && |ts| == m + |tail|
    ensures ts[0] == Kw(kw) && Occurs(ts, 1, cond) && Occurs(ts, j, doKw)
    ensures Occurs(ts, k, body) && Occurs(ts, m, tail)
  {
    j := 1 + |cond|;
    k := j + |doKw|;
    m := k + |body|;
    Pieces(ts, [Kw(kw)], cond, doKw, body, tail);
    OccursAt(ts, 0, [Kw(kw)], 0);
  }

  /** Where each of five consecutive pieces sits. */
  lemma {:induction false} Pieces(ts: seq<Token>, a: seq<Token>, b: seq<Token>, c: seq<Token>, d: seq<Token>, e: seq<Token>)
    requires ts == a + b + c + d + e
    ensures Occurs(ts, 0, a) && Occurs(ts, |a|, b) && Occurs(ts, |a| + |b|, c)
    ensures Occurs(ts, |a| + |b| + |c|, d) && Occurs(ts, |a| + |b| + |c| + |d|, e)
  {
    assert Occurs(ts, 0, ts);
    OccursSplit(ts, 0, a + b + c + d, e);
    OccursSplit(ts, 0, a + b + c, d);
    OccursSplit(ts, 0, a + b, c);
    OccursSplit(ts, 0, a, b);
  }

  /**
   * A condition ends where `do` or the then-branch begins, provided the
   * then-branch does not begin with a token that would continue the
   * condition; the else-branch runs to the end.
   */
  lemma {:induction false} IfReadsBack(c: Expr, hasDo: bool, b: Expr, e: Option<Expr>)
    requires WellBracketed(c) && WellBracketed(b) && (e.Some? ==> WellBracketed(e.value))
    requires hasDo || (|Print(b)| > 0 && InfixOf(Print(b)[0]).None?)
    ensures ParseSource(IfTokens(c, hasDo, b, e)) == Success([Expr.If(c, b, e)])
  {
    var ts := IfTokens(c, hasDo, b, e);
    var j, k, m := HeadParts(ts, Keyword.If, Print(c), DoTokens(hasDo), Print(b), ElseTokens(e));
    IfReads(ts, c, hasDo, b, e, j, k, m);
    OperandStatement(ts, Expr.If(c, b, e));
  }

  /** The parse of `if` from where its parts sit. */
  lemma {:induction false} IfReads(ts: seq<Token>, c: Expr, hasDo: bool, b: Expr, e: Option<Expr>, j: nat, k: nat, m: nat)
    requires WellBracketed(c) && WellBracketed(b) && (e.Some? ==> WellBracketed(e.value))
    requires hasDo || (|Print(b)| > 0 && InfixOf(Print(b)[0]).None?)
    requires 0 < |ts| && ts[0] == Kw(Keyword.If)
    requires j == 1 + |Print(c)| && k == j + |DoTokens(hasDo)| && m == k + |Print(b)| && |ts| == m + |ElseTokens(e)|
    requires Occurs(ts, 1, Print(c)) && Occurs(ts, j, DoTokens(hasDo))
    requires Occurs(ts, k, Print(b)) && Occurs(ts, m, ElseTokens(e))
    ensures ParsePrefix(ts, 0) == Ok(Expr.If(c, b, e), |ts|)
  {
    var next := ElseFollow(ts, m, e);
    IfHead(ts, c, hasDo, b, j, k, m);
    IfUnfolds(ts, 0, c, j, k, b, m, e, next);
  }

  /** The condition and the then-branch of an `if`, or the condition and the body of a `while`. */
  lemma {:induction false} IfHead(ts: seq<Token>, c: Expr, hasDo: bool, b: Expr, j: nat, k: nat, m: nat)
    requires WellBracketed(c) && WellBracketed(b)
    requires hasDo || (|Print(b)| > 0 && InfixOf(Print(b)[0]).None?)
    requires j == 1 + |Print(c)| && k == j + |DoTokens(hasDo)| && m == k + |Print(b)|
    requires Occurs(ts, 1, Print(c)) && Occurs(ts, j, DoTokens(hasDo)) && Occurs(ts, k, Print(b))
    requires FollowOk(ts, m, MIN)
    ensures ParseExpr(ts, 1, MIN) == Ok(c, j)
    ensures k == (if IsKw(ts, j, Do) then j + 1 else j) && ParseExpr(ts, k, MIN) == Ok(b, m)
  {
    IfCond(ts, c, hasDo, b, j, k);
    ParsesPrinted(ts, k, b, MIN);
  }

  /** The condition ends where `do` or the then-branch begins. */
  lemma {:induction false} IfCond(ts: seq<Token>, c: Expr, hasDo: bool, b: Expr, j: nat, k: nat)
    requires WellBracketed(c) && WellBracketed(b)
    requires hasDo || (|Print(b)| > 0 && InfixOf(Print(b)[0]).None?)
    requires j == 1 + |Print(c)| && k == j + |DoTokens(hasDo)|
    requires Occurs(ts, 1, Print(c)) && Occurs(ts, j, DoTokens(hasDo)) && Occurs(ts, k, Print(b))
    ensures ParseExpr(ts, 1, MIN) == Ok(c, j)
    ensures k == (if IsKw(ts, j, Do) then j + 1 else j)
  {
    CondFollow(ts, j, k, hasDo, b);
    ParsesPrinted(ts, 1, c, MIN);
  }

  lemma {:induction false} CondFollow(ts: seq<Token>, j: nat, k: nat, hasDo: bool, b: Expr)
    requires WellBracketed(b) && k == j + |DoTokens(hasDo)|
    requires Occurs(ts, j, DoTokens(hasDo)) && Occurs(ts, k, Print(b))
    requires hasDo || (|Print(b)| > 0 && InfixOf(Print(b)[0]).None?)
    ensures FollowOk(ts, j, MIN)
    ensures IsKw(ts, j, Do) == hasDo
  {
    PrintStartsOperand(b);
    if hasDo {
      OccursAt(ts, j, DoTokens(hasDo), 0);
    } else {
      OccursAt(ts, k, Print(b), 0);
    }
  }

  /** After the then-branch: `else` and its branch, or the end of the input. */
  lemma {:induction false} ElseFollow(ts: seq<Token>, m: nat, e: Option<Expr>) returns (next: nat)
    requires (e.Some? ==> WellBracketed(e.value)) && Occurs(ts, m, ElseTokens(e)) && |ts| == m + |ElseTokens(e)|
    ensures FollowOk(ts, m, MIN) && next == |ts|
    ensures e.None? ==> !IsKw(ts, m, Else) && next == m
    ensures e.Some? ==> IsKw(ts, m, Else) && ParseExpr(ts, m + 1, MIN) == Ok(e.value, next)
  {
    next := |ts|;
    if e.Some? {
      OccursSplit(ts, m, [Kw(Else)], Print(e.value));
      OccursAt(ts, m, [Kw(Else)], 0);
      ParsesPrinted(ts, m + 1, e.value, MIN);
    }
  }

  /** `if a b else if c d else e`: the second `if` is wholly the first one's else-branch. */
  lemma {:induction false} ElseIfNests(a: Name, b: Name, c: Name, d: Name, e: Name)
    ensures ParseSource([Kw(Keyword.If), Word(a), Word(b), Kw(Else), Kw(Keyword.If), Word(c), Word(d), Kw(Else), Word(e)])
         == Success([Expr.If(NameRef(a), NameRef(b), Some(Expr.If(NameRef(c), NameRef(d), Some(NameRef(e)))))])
  {
    var ts := [Kw(Keyword.If), Word(a), Word(b), Kw(Else), Kw(Keyword.If), Word(c), Word(d), Kw(Else), Word(e)];
    var inner := Expr.If(NameRef(c), NameRef(d), Some(NameRef(e)));
    NameAt(ts, 5);
    NameAt(ts, 6);
    NameAt(ts, 8);
    IfUnfolds(ts, 4, NameRef(c), 6, 6, NameRef(d), 7, Some(NameRef(e)), 9);
    ParseExprThenInfix(ts, 4, MIN, inner, 9);
    InfixStops(ts, 9, inner, MIN);
    NameAt(ts, 1);
    NameAt(ts, 2);
    IfUnfolds(ts, 0, NameRef(a), 2, 2, NameRef(b), 3, Some(inner), 9);
    OperandStatement(ts, Expr.If(NameRef(a), NameRef(b), Some(inner)));
  }

  /** `if a if b c else d`: a dangling `else` belongs to the nearest `if`. */
  lemma {:induction false} DanglingElse(a: Name, b: Name, c: Name, d: Name)
    ensures ParseSource([Kw(Keyword.If), Word(a), Kw(Keyword.If), Word(b), Word(c), Kw(Else), Word(d)])
         == Success([Expr.If(NameRef(a), Expr.If(NameRef(b), NameRef(c), Some(NameRef(d))), None)])
  {
    var ts := [Kw(Keyword.If), Word(a), Kw(Keyword.If), Word(b), Word(c), Kw(Else), Word(d)];
    var inner := Expr.If(NameRef(b), NameRef(c), Some(NameRef(d)));
    NameAt(ts, 3);
    NameAt(ts, 4);
    NameAt(ts, 6);
    IfUnfolds(ts, 2, NameRef(b), 4, 4, NameRef(c), 5, Some(NameRef(d)), 7);
    ParseExprThenInfix(ts, 2, MIN, inner, 7);
    InfixStops(ts, 7, inner, MIN);
    NameAt(ts, 1);
    IfUnfolds(ts, 0, NameRef(a), 2, 2, inner, 7, None, 7);
    OperandStatement(ts, Expr.If(NameRef(a), inner, None));
  }

  /** A name followed by a keyword, another name, or nothing, is read alone. */
  lemma {:induction false} NameAt(ts: seq<Token>, p: nat)
    requires p < |ts| && ts[p].Word? && (p + 1 == |ts| || ts[p + 1].Kw? || ts[p + 1].Word?)
    ensures ParseExpr(ts, p, MIN) == Ok(NameRef(ts[p].name), p + 1)
  {
    assert Occurs(ts, p, Print(NameRef(ts[p].name)));
    ParsesPrinted(ts, p, NameRef(ts[p].name), MIN);
  }

  // ---- while, the keyword forms, extern ----

  lemma {:induction false} WhileUnfolds(ts: seq<Token>, p: nat, c: Expr, j: nat, k: nat, b: Expr, next: nat)
    requires p < |ts| && ts[p] == Kw(Keyword.While)
    requires ParseExpr(ts, p + 1, MIN) == Ok(c, j)
    requires k == (if IsKw(ts, j, Do) then j + 1 else j) && ParseExpr(ts, k, MIN) == Ok(b, next)
    ensures ParsePrefix(ts, p) == Ok(Expr.While(c, b), next)
  {
  }

  /** `while cond do? body`, read under the same condition as the first two parts of an `if`. */
  lemma {:induction false} WhileReadsBack(c: Expr, hasDo: bool, b: Expr)
    requires WellBracketed(c) && WellBracketed(b)
    requires hasDo || (|Print(b)| > 0 && InfixOf(Print(b)[0]).None?)
    ensures ParseSource([Kw(Keyword.While)] + Print(c) + DoTokens(hasDo) + Print(b)) == Success([Expr.While(c, b)])
  {
    var ts := [Kw(Keyword.While)] + Print(c) + DoTokens(hasDo) + Print(b);
    var j, k, m := HeadParts(ts, Keyword.While, Print(c), DoTokens(hasDo), Print(b), []);
    WhileParts(ts, c, hasDo, b, j, k);
    OperandStatement(ts, Expr.While(c, b));
  }

  lemma {:induction false} WhileParts(ts: seq<Token>, c: Expr, hasDo: bool, b: Expr, j: nat, k: nat)
    requires WellBracketed(c) && WellBracketed(b)
    requires hasDo || (|Print(b)| > 0 && InfixOf(Print(b)[0]).None?)
    requires 0 < |ts| && ts[0] == Kw(Keyword.While)
    requires j == 1 + |Print(c)| && k == j + |DoTokens(hasDo)| && |ts| == k + |Print(b)|
    requires Occurs(ts, 1, Print(c)) && Occurs(ts, j, DoTokens(hasDo)) && Occurs(ts, k, Print(b))
    ensures ParsePrefix(ts, 0) == Ok(Expr.While(c, b), |ts|)
  {
    IfHead(ts, c, hasDo, b, j, k, |ts|);
    WhileUnfolds(ts, 0, c, j, k, b, |ts|);
  }

  /** `defer`, `return`, `break`, `continue` and `unsafe` take the whole expression after them. */
  lemma {:induction false} KeywordFormReadsBack(k: Keyword, e: Expr)
    requires k in {Keyword.Defer, Keyword.Return, Keyword.Break, Keyword.Continue, Keyword.Unsafe}
    requires WellBracketed(e)
    ensures ParseSource([Kw(k)] + Print(e)) == Success([KeywordForm(k, e)])
  {
    var ts := [Kw(k)] + Print(e);
    assert Occurs(ts, 0, ts);
    OccursSplit(ts, 0, [Kw(k)], Print(e));
    ParsesPrinted(ts, 1, e, MIN);
    assert ParsePrefix(ts, 0) == Ok(KeywordForm(k, e), |ts|);
    OperandStatement(ts, KeywordForm(k, e));
  }

  /** `return a = b` returns the assignment: the keyword forms bind loosest of all. */
  lemma {:induction false} ReturnTakesAssignment(a: Name, b: Name)
    ensures ParseSource([Kw(Keyword.Return), Word(a), Sym(Punct.Eq), Word(b)])
         == Success([Expr.Return(Assign(NameRef(a), NameRef(b)))])
  {
    var e := Assign(NameRef(a), NameRef(b));
    assert e == Combine(AssignInfix, NameRef(a), NameRef(b));
    assert Print(e) == [Word(a), Sym(Punct.Eq), Word(b)] by {
      assert IsBinaryNode(e);
    }
    KeywordFormReadsBack(Keyword.Return, e);
    assert [Kw(Keyword.Return)] + Print(e) == [Kw(Keyword.Return), Word(a), Sym(Punct.Eq), Word(b)];
    assert KeywordForm(Keyword.Return, e) == Expr.Return(e);
  }

  /** `extern name : ty` */
  lemma {:induction false} ExternReadsBack(x: Name, ty: Expr)
    requires WellBracketed(ty)
    ensures ParseSource([Kw(Extern), Word(x), Sym(Colon)] + Print(ty)) == Success([ExternDecl(x, ty)])
  {
    var ts := [Kw(Extern), Word(x), Sym(Colon)] + Print(ty);
    assert Occurs(ts, 0, ts);
    OccursSplit(ts, 0, [Kw(Extern), Word(x), Sym(Colon)], Print(ty));
    ParsesPrinted(ts, 3, ty, MIN);
    assert ParsePrefix(ts, 0) == Ok(ExternDecl(x, ty), |ts|);
    OperandStatement(ts, ExternDecl(x, ty));
  }
}

=== FILE: decl_props.dfy ===
/**
 * Properties of `var_decl`: modifiers, a name, then exactly one of the five
 * shapes, each read back into the constructor that records it, and how a
 * declaration meets the operators around it.
 */
module DeclProps {

  import opened Wrappers
  import opened Tokens
  import opened Ast
  import opened Precedence
  import opened Parser
  import opened ParserProps
  import opened FormProps


  function ModifierKeyword(m: Modifier): Keyword {
    match m
    case PubMod => Pub
    case MutMod => Mut
    case RecMod => Rec
  }

  function ModifierTokens(ms: seq<Modifier>): seq<Token> {
    if ms == [] then [] else [Kw(ModifierKeyword(ms[0]))] + ModifierTokens(ms[1..])
  }

  function FormTokens(f: DeclForm): seq<Token> {
    match f
    case Typed(ty) => [Sym(Colon)] + Print(ty)
    case TypedVar(ty, d) => [Sym(Colon)] + Print(ty) + [Sym(Punct.Eq)] + Print(d)
    case TypedConst(ty, d) => [Sym(Colon)] + Print(ty) + [Sym(Colon)] + Print(d)
    case InferredVar(d) => [Sym(ColonEq)] + Print(d)
    case InferredConst(d) => [Sym(ColonColon)] + Print(d)
  }

  function DeclTokens(d: VarDecl): seq<Token> {
    ModifierTokens(d.modifiers) + [Word(d.name)] + FormTokens(d.form)
  }

  /** The rightmost operand of the tree is a bare name, so its printed form ends with one (`PrintEnd`). */
  predicate EndsWithName(e: Expr)
    decreases e
  {
    if IsBinaryNode(e) then EndsWithName(e.rhs)
    else match e
      case NameRef(_) => true
      case Prefix(_, x) => EndsWithName(x)
      case _ => false
  }

  lemma {:induction false} PrintEnd(e: Expr)
    requires WellBracketed(e)
    ensures |Print(e)| >= 1 && (Print(e)[|Print(e)| - 1].Word? <==> EndsWithName(e))
    decreases e
  {
    if IsBinaryNode(e) {
      PrintEnd(e.rhs);
      LastOfJoin(Print(e.lhs) + [OpToken(NodeOp(e))], Print(e.rhs));
    } else {
      match e
      case NameRef(_) =>
      case Literal(_) =>
      case Paren(inner) =>
        assert Print(e) == [Sym(LParen)] + Print(inner) + [Sym(RParen)];
      case Prefix(op, x) =>
        PrintEnd(x);
        LastOfJoin(PrefixTokens(op), Print(x));
    }
  }

  lemma {:induction false} LastOfJoin(l: seq<Token>, r: seq<Token>)
    requires |r| >= 1
    ensures |l + r| >= 1 && (l + r)[|l + r| - 1] == r[|r| - 1]
  {
  }

  /**
   * The operands of a declaration shape that are read back whole: a type
   * binds tighter than `decl_ty`, a default after `=` or a second `:`
   * tighter than `assign + 1`.  The type of `: ty : e` must not end with a
   * name: a name right before the second `:` starts a nested declaration
   * (see `ConstDeclOfBareName`).
   */
  predicate FormOk(f: DeclForm) {
    match f
    case Typed(ty) => WellBracketed(ty) && Level(ty) > DECL_TY
    case TypedVar(ty, d) =>
      WellBracketed(ty) && Level(ty) > DECL_TY && WellBracketed(d) && Level(d) > DECL_INIT
    case TypedConst(ty, d) =>
      WellBracketed(ty) && Level(ty) > DECL_TY && !EndsWithName(ty) && WellBracketed(d) && Level(d) > DECL_INIT
    case InferredVar(d) => WellBracketed(d)
    case InferredConst(d) => WellBracketed(d)
  }

  /** The strongest operator that may follow each shape without being read into it. */
  function FormFollow(f: DeclForm): nat {
    match f
    case TypedVar(_, _) | TypedConst(_, _) => DECL_INIT
    case _ => VAR_DECL
  }

  /**
   * What may follow a declaration without joining it: no operator stronger
   * than its shape's follow power, and after a bare `: ty` no second `:`,
   * which would make it `: ty : e`.
   */
  predicate DeclFollowOk(ts: seq<Token>, q: nat, f: DeclForm) {
    FollowOk(ts, q, FormFollow(f)) && (f.Typed? ==> !IsSym(ts, q, Colon))
  }

  lemma {:induction false} ReadsModifiers(ts: seq<Token>, p: nat, ms: seq<Modifier>)
    requires Occurs(ts, p, ModifierTokens(ms)) && p + |ModifierTokens(ms)| < |ts|
    requires ModifierOf(ts[p + |ModifierTokens(ms)|]).None?
    ensures |ModifierTokens(ms)| == |ms|
    ensures ParseModifiers(ts, p) == (ms, p + |ms|)
    decreases |ms|
  {
    if ms == [] {
      ModifiersNone(ts, p);
    } else {
      OccursSplit(ts, p, [Kw(ModifierKeyword(ms[0]))], ModifierTokens(ms[1..]));
      OccursAt(ts, p, [Kw(ModifierKeyword(ms[0]))], 0);
      ReadsModifiers(ts, p + 1, ms[1..]);
      assert ModifierOf(ts[p]) == Some(ms[0]);
      assert [ms[0]] + ms[1..] == ms;
    }
  }

  /** Each declaration shape is read back from its tokens, given what follows it. */
  lemma {:induction false} ReadsDecl(ts: seq<Token>, p: nat, d: VarDecl)
    requires FormOk(d.form) && Occurs(ts, p, DeclTokens(d))
    requires DeclFollowOk(ts, p + |DeclTokens(d)|, d.form)
    ensures ParseDecl(ts, p) == Ok(d, p + |DeclTokens(d)|)
  {
    var j := DeclHead(ts, p, d);
    match d.form
    case Typed(_) => ReadsTyped(ts, p, d, j);
    case TypedVar(_, _) => ReadsTypedVar(ts, p, d, j);
    case TypedConst(_, _) => ReadsTypedConst(ts, p, d, j);
    case InferredVar(_) => ReadsInferred(ts, p, d, j);
    case InferredConst(_) => ReadsInferred(ts, p, d, j);
  }

  lemma {:induction false} ReadsTyped(ts: seq<Token>, p: nat, d: VarDecl, j: nat)
    requires d.form.Typed? && FormOk(d.form) && p <= j && j + 1 < |ts|
    requires ParseModifiers(ts, p) == (d.modifiers, j) && ts[j] == Word(d.name)
    requires Occurs(ts, j + 1, FormTokens(d.form))
    requires FollowOk(ts, j + 1 + |FormTokens(d.form)|, VAR_DECL) && !IsSym(ts, j + 1 + |FormTokens(d.form)|, Colon)
    ensures ParseDecl(ts, p) == Ok(d, j + 1 + |FormTokens(d.form)|)
  {
    TypedReads(ts, j + 1, d.form);
    DeclTyped(ts, p, d, j, j + 1 + |FormTokens(d.form)|);
  }

  /** The type of `: ty` is read back whole. */
  lemma {:induction false} TypedReads(ts: seq<Token>, k: nat, f: DeclForm)
    requires f.Typed? && FormOk(f)
    requires Occurs(ts, k, FormTokens(f)) && FollowOk(ts, k + |FormTokens(f)|, VAR_DECL)
    ensures k < |ts| && ts[k] == Sym(Colon)
    ensures ParseExpr(ts, k + 1, DECL_TY) == Ok(f.ty, k + |FormTokens(f)|)
  {
    var ty := f.ty;
    var end := k + 1 + |Print(ty)|;
    assert FormTokens(f) == [Sym(Colon)] + Print(ty);
    assert ts[k] == Sym(Colon) && Occurs(ts, k + 1, Print(ty)) by {
      OccursSplit(ts, k, [Sym(Colon)], Print(ty));
      OccursAt(ts, k, [Sym(Colon)], 0);
    }
    assert FollowOk(ts, end, DECL_TY) by {
      FollowWeaker(ts, end, VAR_DECL, DECL_TY);
    }
    ParsesPrinted(ts, k + 1, ty, DECL_TY);
  }

  lemma {:induction false} ReadsTypedVar(ts: seq<Token>, p: nat, d: VarDecl, j: nat)
    requires d.form.TypedVar? && FormOk(d.form) && p <= j && j + 1 < |ts|
    requires ParseModifiers(ts, p) == (d.modifiers, j) && ts[j] == Word(d.name)
    requires Occurs(ts, j + 1, FormTokens(d.form))
    requires FollowOk(ts, j + 1 + |FormTokens(d.form)|, DECL_INIT)
    ensures ParseDecl(ts, p) == Ok(d, j + 1 + |FormTokens(d.form)|)
  {
    var end := j + 1 + |FormTokens(d.form)|;
    var e := TypedVarReads(ts, j + 1, d.form);
    DeclTypedVar(ts, p, d, j, e, end);
  }

  /** The type and the default of `: ty = v` are each read back whole. */
  lemma {:induction false} TypedVarReads(ts: seq<Token>, k: nat, f: DeclForm) returns (e: nat)
    requires f.TypedVar? && FormOk(f)
    requires Occurs(ts, k, FormTokens(f)) && FollowOk(ts, k + |FormTokens(f)|, DECL_INIT)
    ensures k < |ts| && ts[k] == Sym(Colon)
    ensures ParseExpr(ts, k + 1, DECL_TY) == Ok(f.ty, e) && e < |ts| && ts[e] == Sym(Punct.Eq)
    ensures ParseExpr(ts, e + 1, DECL_INIT) == Ok(f.default, k + |FormTokens(f)|)
  {
    var ty, v := f.ty, f.default;
    e := k + 1 + |Print(ty)|;
    TypedVarParts(ts, k, ty, v);
    TypedVarOperands(ts, k + 1, ty, e, v);
  }

  lemma {:induction false} ReadsTypedConst(ts: seq<Token>, p: nat, d: VarDecl, j: nat)
    requires d.form.TypedConst? && FormOk(d.form) && p <= j && j + 1 < |ts|
    requires ParseModifiers(ts, p) == (d.modifiers, j) && ts[j] == Word(d.name)
    requires Occurs(ts, j + 1, FormTokens(d.form))
    requires FollowOk(ts, j + 1 + |FormTokens(d.form)|, DECL_INIT)
    ensures ParseDecl(ts, p) == Ok(d, j + 1 + |FormTokens(d.form)|)
  {
    var c := TypedConstReads(ts, j + 1, d.form);
    DeclTypedConst(ts, p, d, j, c, j + 1 + |FormTokens(d.form)|);
  }

  /** The type and the default of `: ty : v` are each read back whole. */
  lemma {:induction false} TypedConstReads(ts: seq<Token>, k: nat, f: DeclForm) returns (c: nat)
    requires f.TypedConst? && FormOk(f)
    requires Occurs(ts, k, FormTokens(f)) && FollowOk(ts, k + |FormTokens(f)|, DECL_INIT)
    ensures k < |ts| && ts[k] == Sym(Colon)
    ensures ParseExpr(ts, k + 1, DECL_TY) == Ok(f.ty, c) && c < |ts| && ts[c] == Sym(Colon)
    ensures ParseExpr(ts, c + 1, DECL_INIT) == Ok(f.default, k + |FormTokens(f)|)
  {
    c := ConstLayout(ts, k, f);
    ConstTypeReads(ts, k + 1, f.ty, c);
    ParsesPrinted(ts, c + 1, f.default, DECL_INIT);
  }

  /** Where the type and the default of a printed `: ty : v` lie. */
  lemma {:induction false} ConstLayout(ts: seq<Token>, k: nat, f: DeclForm) returns (c: nat)
    requires f.TypedConst? && Occurs(ts, k, FormTokens(f))
    ensures c == k + 1 + |Print(f.ty)| && c < |ts| && k < |ts|
    ensures ts[k] == Sym(Colon) && Occurs(ts, k + 1, Print(f.ty))
    ensures ts[c] == Sym(Colon) && Occurs(ts, c + 1, Print(f.default))
    ensures k + |FormTokens(f)| == c + 1 + |Print(f.default)|
  {
    var ty, v := f.ty, f.default;
    c := k + 1 + |Print(ty)|;
    assert FormTokens(f) == [Sym(Colon)] + Print(ty) + [Sym(Colon)] + Print(v);
    ShapeParts(ts, k, Sym(Colon), Print(ty), Sym(Colon), Print(v));
  }

  /** The type of `: ty : v` is read back whole and stops at the second `:`. */
  lemma {:induction false} ConstTypeReads(ts: seq<Token>, k: nat, ty: Expr, c: nat)
    requires WellBracketed(ty) && Level(ty) > DECL_TY && !EndsWithName(ty)
    requires Occurs(ts, k, Print(ty)) && c == k + |Print(ty)| && c < |ts| && ts[c] == Sym(Colon)
    ensures ParseExpr(ts, k, DECL_TY) == Ok(ty, c)
  {
    ConstTypeFollows(ts, k, ty);
    ParsesPrinted(ts, k, ty, DECL_TY);
  }

  /** A type that does not end with a name is not read into a declaration by the `:` after it. */
  lemma {:induction false} ConstTypeFollows(ts: seq<Token>, k: nat, ty: Expr)
    requires WellBracketed(ty) && !EndsWithName(ty) && Occurs(ts, k, Print(ty))
    requires k + |Print(ty)| < |ts| && ts[k + |Print(ty)|] == Sym(Colon)
    ensures FollowOk(ts, k + |Print(ty)|, DECL_TY)
  {
    var n := |Print(ty)|;
    PrintEnd(ty);
    OccursAt(ts, k, Print(ty), n - 1);
    assert !ts[k + n - 1].Word? && InfixOf(Sym(Colon)).None?;
  }

  lemma {:induction false} TypedVarOperands(ts: seq<Token>, k: nat, ty: Expr, e: nat, v: Expr)
    requires WellBracketed(ty) && Level(ty) > DECL_TY && WellBracketed(v) && Level(v) > DECL_INIT
    requires Occurs(ts, k, Print(ty)) && e == k + |Print(ty)| && e < |ts| && ts[e] == Sym(Punct.Eq)
    requires Occurs(ts, e + 1, Print(v)) && FollowOk(ts, e + 1 + |Print(v)|, DECL_INIT)
    ensures ParseExpr(ts, k, DECL_TY) == Ok(ty, e)
    ensures ParseExpr(ts, e + 1, DECL_INIT) == Ok(v, e + 1 + |Print(v)|)
  {
    assert ParseExpr(ts, k, DECL_TY) == Ok(ty, e) by {
      EqFollows(ts, e);
      ParsesPrinted(ts, k, ty, DECL_TY);
    }
    ParsesPrinted(ts, e + 1, v, DECL_INIT);
  }

  lemma {:induction false} TypedVarParts(ts: seq<Token>, k: nat, ty: Expr, v: Expr)
    requires Occurs(ts, k, [Sym(Colon)] + Print(ty) + [Sym(Punct.Eq)] + Print(v))
    ensures ts[k] == Sym(Colon) && Occurs(ts, k + 1, Print(ty))
    ensures ts[k + 1 + |Print(ty)|] == Sym(Punct.Eq) && Occurs(ts, k + 2 + |Print(ty)|, Print(v))
  {
    ShapeParts(ts, k, Sym(Colon), Print(ty), Sym(Punct.Eq), Print(v));
  }

  /** Where the pieces of `[a] + x + [b] + y` sit. */
  lemma {:induction false} ShapeParts(ts: seq<Token>, k: nat, a: Token, x: seq<Token>, b: Token, y: seq<Token>)
    requires Occurs(ts, k, [a] + x + [b] + y)
    ensures ts[k] == a && Occurs(ts, k + 1, x)
    ensures ts[k + 1 + |x|] == b && Occurs(ts, k + 2 + |x|, y)
  {
    OccursSplit(ts, k, [a] + x + [b], y);
    OccursSplit(ts, k, [a] + x, [b]);
    OccursSplit(ts, k, [a], x);
    OccursAt(ts, k, [a], 0);
    OccursAt(ts, k + 1 + |x|, [b], 0);
  }

  /** `=` ends anything read at `decl_ty` or above. */
  lemma {:induction false} EqFollows(ts: seq<Token>, q: nat)
    requires q < |ts| && ts[q] == Sym(Punct.Eq)
    ensures FollowOk(ts, q, DECL_TY)
  {
    assert InfixOf(ts[q]) == Some(AssignInfix);
  }

  lemma {:induction false} ReadsInferred(ts: seq<Token>, p: nat, d: VarDecl, j: nat)
    requires (d.form.InferredVar? || d.form.InferredConst?) && FormOk(d.form) && p <= j && j + 1 < |ts|
    requires ParseModifiers(ts, p) == (d.modifiers, j) && ts[j] == Word(d.name)
    requires Occurs(ts, j + 1, FormTokens(d.form))
    requires FollowOk(ts, j + 1 + |FormTokens(d.form)|, VAR_DECL)
    ensures ParseDecl(ts, p) == Ok(d, j + 1 + |FormTokens(d.form)|)
  {
    InferredReads(ts, j + 1, d.form);
    DeclInferred(ts, p, d, j, j + 1 + |FormTokens(d.form)|);
  }

  /** The default after `:=` or `::` is read back whole. */
  lemma {:induction false} InferredReads(ts: seq<Token>, k: nat, f: DeclForm)
    requires (f.InferredVar? || f.InferredConst?) && FormOk(f)
    requires Occurs(ts, k, FormTokens(f)) && FollowOk(ts, k + |FormTokens(f)|, VAR_DECL)
    ensures k < |ts| && ts[k] == (if f.InferredVar? then Sym(ColonEq) else Sym(ColonColon))
    ensures ParseExpr(ts, k + 1, VAR_DECL) == Ok(f.default, k + |FormTokens(f)|)
  {
    var v := f.default;
    var marker := if f.InferredVar? then Sym(ColonEq) else Sym(ColonColon);
    assert FormTokens(f) == [marker] + Print(v);
    assert k + |FormTokens(f)| == k + 1 + |Print(v)|;
    OccursSplit(ts, k, [marker], Print(v));
    OccursAt(ts, k, [marker], 0);
    ParsesPrinted(ts, k + 1, v, VAR_DECL);
  }

  /** The modifiers and the name of a printed declaration, and where its shape begins. */
  lemma {:induction false} DeclHead(ts: seq<Token>, p: nat, d: VarDecl) returns (j: nat)
    requires Occurs(ts, p, DeclTokens(d))
    ensures j == p + |ModifierTokens(d.modifiers)| && j + 1 < |ts|
    ensures ParseModifiers(ts, p) == (d.modifiers, j) && ts[j] == Word(d.name)
    ensures Occurs(ts, j + 1, FormTokens(d.form))
    ensures p + |DeclTokens(d)| == j + 1 + |FormTokens(d.form)|
  {
    var ms := ModifierTokens(d.modifiers);
    j := p + |ms|;
    OccursSplit(ts, p, ms + [Word(d.name)], FormTokens(d.form));
    OccursSplit(ts, p, ms, [Word(d.name)]);
    OccursAt(ts, j, [Word(d.name)], 0);
    assert FormTokens(d.form) != [];
    ReadsModifiers(ts, p, d.modifiers);
  }

  lemma {:induction false} DeclTyped(ts: seq<Token>, p: nat, d: VarDecl, j: nat, end: nat)
    requires d.form.Typed? && p <= j && j + 1 < |ts|
    requires ParseModifiers(ts, p) == (d.modifiers, j) && ts[j] == Word(d.name) && ts[j + 1] == Sym(Colon)
    requires ParseExpr(ts, j + 2, DECL_TY) == Ok(d.form.ty, end) && FollowOk(ts, end, VAR_DECL) && !IsSym(ts, end, Colon)
    ensures ParseDecl(ts, p) == Ok(d, end)
  {
  }

  lemma {:induction false} DeclTypedVar(ts: seq<Token>, p: nat, d: VarDecl, j: nat, e: nat, end: nat)
    requires d.form.TypedVar? && p <= j && j + 1 < |ts|
    requires ParseModifiers(ts, p) == (d.modifiers, j) && ts[j] == Word(d.name) && ts[j + 1] == Sym(Colon)
    requires ParseExpr(ts, j + 2, DECL_TY) == Ok(d.form.ty, e) && e < |ts| && ts[e] == Sym(Punct.Eq)
    requires ParseExpr(ts, e + 1, DECL_INIT) == Ok(d.form.default, end)
    ensures ParseDecl(ts, p) == Ok(d, end)
  {
  }

  lemma {:induction false} DeclInferred(ts: seq<Token>, p: nat, d: VarDecl, j: nat, end: nat)
    requires (d.form.InferredVar? || d.form.InferredConst?) && p <= j && j + 1 < |ts|
    requires ParseModifiers(ts, p) == (d.modifiers, j) && ts[j] == Word(d.name)
    requires ts[j + 1] == (if d.form.InferredVar? then Sym(ColonEq) else Sym(ColonColon))
    requires ParseExpr(ts, j + 2, VAR_DECL) == Ok(d.form.default, end)
    ensures ParseDecl(ts, p) == Ok(d, end)
  {
  }

  /** A printed declaration is one operand: the prefix position reads it whole. */
  lemma {:induction false} PrefixReadsDecl(ts: seq<Token>, p: nat, d: VarDecl)
    requires FormOk(d.form) && Occurs(ts, p, DeclTokens(d))
    requires DeclFollowOk(ts, p + |DeclTokens(d)|, d.form)
    ensures ParsePrefix(ts, p) == Ok(Expr.Decl(d), p + |DeclTokens(d)|)
  {
    var j := DeclHead(ts, p, d);
    ReadsDecl(ts, p, d);
    OccursAt(ts, j + 1, FormTokens(d.form), 0);
    if d.modifiers == [] {
      assert ts[p] == Word(d.name) && IsDeclMarker(ts[p + 1]);
    } else {
      OccursAt(ts, p, DeclTokens(d), 0);
      assert ts[p] == Kw(ModifierKeyword(d.modifiers[0]));
    }
  }

  /** ... and the expression it heads stops where the declaration does. */
  lemma {:induction false} ExprReadsDecl(ts: seq<Token>, p: nat, d: VarDecl, m: nat)
    requires FormOk(d.form) && Occurs(ts, p, DeclTokens(d))
    requires DeclFollowOk(ts, p + |DeclTokens(d)|, d.form) && FollowOk(ts, p + |DeclTokens(d)|, m)
    ensures ParseExpr(ts, p, m) == Ok(Expr.Decl(d), p + |DeclTokens(d)|)
  {
    PrefixReadsDecl(ts, p, d);
    ParseExprThenInfix(ts, p, m, Expr.Decl(d), p + |DeclTokens(d)|);
    InfixStops(ts, p + |DeclTokens(d)|, Expr.Decl(d), m);
  }

  /** A declaration on its own is a source file of one expression. */
  lemma {:induction false} DeclStatement(d: VarDecl)
    requires FormOk(d.form)
    ensures ParseSource(DeclTokens(d)) == Success([Expr.Decl(d)])
  {
    var ts := DeclTokens(d);
    assert Occurs(ts, 0, ts);
    ExprReadsDecl(ts, 0, d, MIN);
    TopLevelLast(ts, 0, Expr.Decl(d), |ts|);
  }

  /**
   * `x : (T) : v` records the `: ty : e` shape.  A parenthesised type ends
   * before the second `:`.
   */
  lemma {:induction false} ConstDeclOfParenType(ts: seq<Token>, p: nat, d: VarDecl, ty: Expr, v: Expr)
    requires d.form == TypedConst(Paren(ty), v) && WellBracketed(ty) && WellBracketed(v) && Level(v) > DECL_INIT
    requires Occurs(ts, p, DeclTokens(d)) && FollowOk(ts, p + |DeclTokens(d)|, DECL_INIT)
    ensures ParseDecl(ts, p) == Ok(d, p + |DeclTokens(d)|)
  {
    assert !EndsWithName(Paren(ty)) && Level(Paren(ty)) > DECL_TY;
    ReadsDecl(ts, p, d);
  }

  lemma {:induction false} DeclTypedConst(ts: seq<Token>, p: nat, d: VarDecl, j: nat, c: nat, end: nat)
    requires d.form.TypedConst? && p <= j && j + 1 < |ts|
    requires ParseModifiers(ts, p) == (d.modifiers, j) && ts[j] == Word(d.name) && ts[j + 1] == Sym(Colon)
    requires ParseExpr(ts, j + 2, DECL_TY) == Ok(d.form.ty, c) && c < |ts| && ts[c] == Sym(Colon)
    requires ParseExpr(ts, c + 1, DECL_INIT) == Ok(d.form.default, end)
    ensures ParseDecl(ts, p) == Ok(d, end)
  {
  }

  /**
   * With a bare name for the type, `x : T : v` reads as `x : (T : v)`: the
   * name `T` followed by `:` starts a declaration of its own.
   */
  lemma {:induction false} ConstDeclOfBareName(x: Name, t: Name, v: Name)
    ensures ParseSource([Word(x), Sym(Colon), Word(t), Sym(Colon), Word(v)])
         == Success([Expr.Decl(VarDecl([], x, Typed(Expr.Decl(VarDecl([], t, Typed(NameRef(v)))))))])
  {
    var ts := [Word(x), Sym(Colon), Word(t), Sym(Colon), Word(v)];
    var inner := Expr.Decl(VarDecl([], t, Typed(NameRef(v))));
    assert Occurs(ts, 4, Print(NameRef(v)));
    ParsesPrinted(ts, 4, NameRef(v), DECL_TY);
    assert ParseDecl(ts, 2) == Ok(VarDecl([], t, Typed(NameRef(v))), 5);
    assert ParsePrefix(ts, 2) == Ok(inner, 5);
    assert ParseExpr(ts, 2, DECL_TY) == Ok(inner, 5);
    assert ParseDecl(ts, 0) == Ok(VarDecl([], x, Typed(inner)), 5);
    assert ParsePrefix(ts, 0) == Ok(Expr.Decl(VarDecl([], x, Typed(inner))), 5);
    ParseExprThenInfix(ts, 0, MIN, Expr.Decl(VarDecl([], x, Typed(inner))), 5);
    InfixStops(ts, 5, Expr.Decl(VarDecl([], x, Typed(inner))), MIN);
    TopLevelLast(ts, 0, Expr.Decl(VarDecl([], x, Typed(inner))), 5);
  }

  /**
   * The default of `: ty = e` binds above `assign`, so a second `=` assigns
   * to the whole declaration: `x : T = a = b` is `(x : T = a) = b`.
   */
  lemma {:induction false} TypedVarThenAssign(x: Name, t: Name, a: Name, b: Name)
    ensures ParseSource([Word(x), Sym(Colon), Word(t), Sym(Punct.Eq), Word(a), Sym(Punct.Eq), Word(b)])
         == Success([Assign(Expr.Decl(VarDecl([], x, TypedVar(NameRef(t), NameRef(a)))), NameRef(b))])
  {
    var ts := [Word(x), Sym(Colon), Word(t), Sym(Punct.Eq), Word(a), Sym(Punct.Eq), Word(b)];
    var d := VarDecl([], x, TypedVar(NameRef(t), NameRef(a)));
    assert ParsePrefix(ts, 0) == Ok(Expr.Decl(d), 5) by {
      assert DeclTokens(d) == ts[..5];
      assert Occurs(ts, 0, DeclTokens(d));
      PrefixReadsDecl(ts, 0, d);
    }
    assert ParseExpr(ts, 6, ASSIGN - 1) == Ok(NameRef(b), 7) by {
      assert Occurs(ts, 6, Print(NameRef(b)));
      ParsesPrinted(ts, 6, NameRef(b), ASSIGN - 1);
    }
    InfixTakes(ts, 5, Expr.Decl(d), MIN, AssignInfix, NameRef(b), 7);
    ParseExprThenInfix(ts, 0, MIN, Expr.Decl(d), 5);
  }

  /** The default of `:= e` is read down to `var_decl`, so it takes a whole assignment. */
  lemma {:induction false} InferredTakesAssign(x: Name, a: Name, b: Name)
    ensures ParseSource([Word(x), Sym(ColonEq), Word(a), Sym(Punct.Eq), Word(b)])
         == Success([Expr.Decl(VarDecl([], x, InferredVar(Assign(NameRef(a), NameRef(b)))))])
  {
    var d := VarDecl([], x, InferredVar(Assign(NameRef(a), NameRef(b))));
    assert FormOk(d.form) by {
      assert Assign(NameRef(a), NameRef(b)) == Combine(AssignInfix, NameRef(a), NameRef(b));
    }
    assert Print(Assign(NameRef(a), NameRef(b))) == [Word(a), Sym(Punct.Eq), Word(b)] by {
      assert IsBinaryNode(Assign(NameRef(a), NameRef(b)));
    }
    assert DeclTokens(d) == [Word(x), Sym(ColonEq), Word(a), Sym(Punct.Eq), Word(b)];
    DeclStatement(d);
  }
}

=== FILE: fn_props.dfy ===
/**
 * Properties of `fn`: no parameters, one bare parameter, or a
 * parenthesised `sep` list of declarations, then `->`, an optional return
 * type and the body.
 */
module FnProps {

  import opened Wrappers
  import opened Tokens
  import opened Ast
  import opened Precedence
  import opened Parser
  import opened ParserProps
  import opened FormProps
  import opened DeclProps
  import opened ListProps
  import opened ContainerProps
  import opened ControlProps

  /** The parameters and the `->` after them. */
  function ParamsTokens(ps: Params, trailing: bool): seq<Token> {
    match ps
    case NoParams => [Sym(Arrow)]
    case OneParam(n) => [Word(n), Sym(Arrow)]
    case ParamList(ds) => [Sym(LParen)] + ListTokens(DeclItems(ds), Comma, RParen, trailing) + [Sym(Arrow)]
  }

  function RetTokens(ret: Option<Expr>): seq<Token> {
    if ret.Some? then Print(ret.value) else []
  }

  function FnTokens(ps: Params, trailing: bool, ret: Option<Expr>, body: Expr): seq<Token> {
    ParamsTokens(ps, trailing) + RetTokens(ret) + Print(body)
  }

  predicate ParamsOk(ps: Params) {
    ps.ParamList? ==> DeclsOk(ps.decls)
  }

  /** How the part after `->` is assembled: a second expression makes the first the return type. */
  lemma {:induction false} TailUnfolds(ts: seq<Token>, q: nat, ps: Params, ret: Option<Expr>, j: nat, body: Expr, next: nat)
    requires q <= |ts|
    requires ret.None? ==> ParseExpr(ts, q, FN - 1) == Ok(body, next) && (next == |ts| || !StartsExpr(ts[next]))
    requires ret.Some? ==> ParseExpr(ts, q, FN - 1) == Ok(ret.value, j)
    requires ret.Some? ==> j < |ts| && StartsExpr(ts[j]) && ParseExpr(ts, j, FN - 1) == Ok(body, next)
    ensures ParseFnTail(ts, q, ps) == Ok(Fn(ps, ret, body), next)
  {
  }

  /** What follows `->` is read back: the optional return type, then the body to the end. */
  lemma {:induction false} TailReads(ts: seq<Token>, q: nat, ps: Params, ret: Option<Expr>, body: Expr)
    requires WellBracketed(body) && (ret.Some? ==> WellBracketed(ret.value))
    requires ret.Some? ==> InfixOf(Print(body)[0]).None?
    requires Occurs(ts, q, RetTokens(ret)) && Occurs(ts, q + |RetTokens(ret)|, Print(body))
    requires q + |RetTokens(ret)| + |Print(body)| == |ts|
    ensures ParseFnTail(ts, q, ps) == Ok(Fn(ps, ret, body), |ts|)
  {
    var k := q + |RetTokens(ret)|;
    LevelAtLeastAssign(body);
    ParsesPrinted(ts, k, body, FN - 1);
    if ret.Some? {
      RetReads(ts, q, ret.value, body, k);
    }
    TailUnfolds(ts, q, ps, ret, k, body, |ts|);
  }

  /** A return type ends where the body begins. */
  lemma {:induction false} RetReads(ts: seq<Token>, q: nat, r: Expr, body: Expr, k: nat)
    requires WellBracketed(body) && WellBracketed(r) && InfixOf(Print(body)[0]).None?
    requires Occurs(ts, q, Print(r)) && k == q + |Print(r)| && Occurs(ts, k, Print(body))
    ensures ParseExpr(ts, q, FN - 1) == Ok(r, k) && k < |ts| && StartsExpr(ts[k])
  {
    PrintStartsOperand(body);
    OccursAt(ts, k, Print(body), 0);
    LevelAtLeastAssign(r);
    ParsesPrinted(ts, q, r, FN - 1);
  }

  /** The parameters are read back, and the tail starts right after `->`. */
  lemma {:induction false} ParamsRead(ts: seq<Token>, ps: Params, trailing: bool, q: nat)
    requires ParamsOk(ps) && q == |ParamsTokens(ps, trailing)| && Occurs(ts, 0, ParamsTokens(ps, trailing))
    ensures ParsePrefix(ts, 0) == ParseFnTail(ts, q, ps)
  {
    match ps
    case NoParams =>
      OccursAt(ts, 0, [Sym(Arrow)], 0);
    case OneParam(n) =>
      OccursAt(ts, 0, [Word(n), Sym(Arrow)], 0);
      OccursAt(ts, 0, [Word(n), Sym(Arrow)], 1);
    case ParamList(ds) =>
      ParamListRead(ts, ds, trailing, q);
  }

  lemma {:induction false} ParamListRead(ts: seq<Token>, ds: seq<VarDecl>, trailing: bool, q: nat)
    requires DeclsOk(ds) && q == |ParamsTokens(ParamList(ds), trailing)| && Occurs(ts, 0, ParamsTokens(ParamList(ds), trailing))
    ensures ParsePrefix(ts, 0) == ParseFnTail(ts, q, ParamList(ds))
  {
    ParamListLayout(ts, ds, trailing, q);
    DeclItemsOk(ds);
    ParsesSep(ts, 1, DeclItems(ds), Decls, Comma, RParen, trailing);
    ItemsRoundTrip([], [], ds, []);
    ParamListParts(ts, ds, q);
  }

  /**
   * A parenthesised declaration list is a parameter list and nothing else:
   * without `->` after its `)` the source is rejected right there, so
   * `(x : T)` is not a parenthesis.
   */
  lemma {:induction false} ParamListNeedsArrow(ds: seq<VarDecl>, trailing: bool, rest: seq<Token>)
    requires DeclsOk(ds) && (rest == [] || rest[0] != Sym(Arrow))
    ensures var list := ListTokens(DeclItems(ds), Comma, RParen, trailing);
      ParseSource([Sym(LParen)] + list + rest) == Failure(1 + |list|)
  {
    var list := ListTokens(DeclItems(ds), Comma, RParen, trailing);
    var ts := [Sym(LParen)] + list + rest;
    assert ts[0] == Sym(LParen) && Occurs(ts, 1, list) && !IsSym(ts, 1 + |list|, Arrow) by {
      assert Occurs(ts, 0, ts);
      HeadOccurs(ts, 0, Sym(LParen), list, rest);
      if rest != [] {
        OccursAt(ts, 1 + |list|, rest, 0);
      }
    }
    ParamListStops(ts, ds, trailing);
    ParenListFails(ts, 1 + |list|);
  }

  lemma {:induction false} ParenListFails(ts: seq<Token>, q: nat)
    requires 0 < |ts| && ts[0] == Sym(LParen) && 1 <= q <= |ts| && !IsSym(ts, q, Arrow)
    requires var params := ParseSep(ts, 1, Decls, Comma, RParen); params.Ok? && params.next == q
    ensures ParseSource(ts) == Failure(q)
  {
    assert ParseParenOrFn(ts, 0) == Fail(q);
    assert ParsePrefix(ts, 0) == Fail(q);
  }

  /** A declaration list is read up to and including its `)`. */
  lemma {:induction false} ParamListStops(ts: seq<Token>, ds: seq<VarDecl>, trailing: bool)
    requires DeclsOk(ds) && Occurs(ts, 1, ListTokens(DeclItems(ds), Comma, RParen, trailing))
    ensures ParseSep(ts, 1, Decls, Comma, RParen) == Ok(DeclItems(ds), 1 + |ListTokens(DeclItems(ds), Comma, RParen, trailing)|)
  {
    DeclItemsOk(ds);
    ParsesSep(ts, 1, DeclItems(ds), Decls, Comma, RParen, trailing);
  }

  lemma {:induction false} ParamListLayout(ts: seq<Token>, ds: seq<VarDecl>, trailing: bool, q: nat)
    requires q == |ParamsTokens(ParamList(ds), trailing)| && Occurs(ts, 0, ParamsTokens(ParamList(ds), trailing))
    ensures var list := ListTokens(DeclItems(ds), Comma, RParen, trailing);
      && q == 2 + |list| && q <= |ts| && ts[0] == Sym(LParen) && ts[q - 1] == Sym(Arrow)
      && Occurs(ts, 1, list)
  {
    var list := ListTokens(DeclItems(ds), Comma, RParen, trailing);
    assert ParamsTokens(ParamList(ds), trailing) == [Sym(LParen)] + list + [Sym(Arrow)];
    HeadOccurs(ts, 0, Sym(LParen), list, [Sym(Arrow)]);
    OccursAt(ts, 1 + |list|, [Sym(Arrow)], 0);
  }

  lemma {:induction false} DeclItemsOk(ds: seq<VarDecl>)
    requires DeclsOk(ds)
    ensures ItemsOk(DeclItems(ds), Decls)
  {
    forall i | 0 <= i < |ds| ensures ItemOk(DeclItems(ds)[i], Decls) {
      assert DeclItems(ds)[i] == DeclItem(ds[i]);
    }
  }

  lemma {:induction false} ParamListParts(ts: seq<Token>, ds: seq<VarDecl>, q: nat)
    requires 2 <= q <= |ts| && ts[0] == Sym(LParen) && ts[q - 1] == Sym(Arrow)
    requires ParseSep(ts, 1, Decls, Comma, RParen) == Ok(DeclItems(ds), q - 1)
    requires DeclsOf(DeclItems(ds)) == ds
    ensures ParsePrefix(ts, 0) == ParseFnTail(ts, q, ParamList(ds))
  {
    assert ParseParenOrFn(ts, 0) == ParseFnTail(ts, q, ParamList(ds));
  }

  /**
   * A printed `fn` whose parameter types, return type and body are
   * operator-fragment trees is read back with its parameters, its optional
   * return type and its body.  A return type is present exactly when a
   * second expression follows the first.
   */
  lemma {:induction false} FnReadsBack(ps: Params, trailing: bool, ret: Option<Expr>, body: Expr)
    requires ParamsOk(ps) && WellBracketed(body) && (ret.Some? ==> WellBracketed(ret.value))
    requires ret.Some? ==> InfixOf(Print(body)[0]).None?
    ensures ParseSource(FnTokens(ps, trailing, ret, body)) == Success([Fn(ps, ret, body)])
  {
    FnOperand(ps, trailing, ret, body);
    OperandStatement(FnTokens(ps, trailing, ret, body), Fn(ps, ret, body));
  }

  lemma {:induction false} FnOperand(ps: Params, trailing: bool, ret: Option<Expr>, body: Expr)
    requires ParamsOk(ps) && WellBracketed(body) && (ret.Some? ==> WellBracketed(ret.value))
    requires ret.Some? ==> InfixOf(Print(body)[0]).None?
    ensures ParsePrefix(FnTokens(ps, trailing, ret, body), 0) == Ok(Fn(ps, ret, body), |FnTokens(ps, trailing, ret, body)|)
  {
    var ts := FnTokens(ps, trailing, ret, body);
    FnLayout(ts, ps, trailing, ret, body);
    FnParts(ts, |ParamsTokens(ps, trailing)|, ps, trailing, ret, body);
  }

  lemma {:induction false} FnLayout(ts: seq<Token>, ps: Params, trailing: bool, ret: Option<Expr>, body: Expr)
    requires ts == FnTokens(ps, trailing, ret, body)
    ensures var q := |ParamsTokens(ps, trailing)|;
      && Occurs(ts, 0, ParamsTokens(ps, trailing)) && Occurs(ts, q, RetTokens(ret))
      && Occurs(ts, q + |RetTokens(ret)|, Print(body)) && q + |RetTokens(ret)| + |Print(body)| == |ts|
  {
    assert ts == ParamsTokens(ps, trailing) + RetTokens(ret) + Print(body) + [] + [];
    Pieces(ts, ParamsTokens(ps, trailing), RetTokens(ret), Print(body), [], []);
  }

  lemma {:induction false} FnParts(ts: seq<Token>, q: nat, ps: Params, trailing: bool, ret: Option<Expr>, body: Expr)
    requires ParamsOk(ps) && WellBracketed(body) && (ret.Some? ==> WellBracketed(ret.value))
    requires ret.Some? ==> InfixOf(Print(body)[0]).None?
    requires q == |ParamsTokens(ps, trailing)| && Occurs(ts, 0, ParamsTokens(ps, trailing))
    requires Occurs(ts, q, RetTokens(ret)) && Occurs(ts, q + |RetTokens(ret)|, Print(body))
    requires q + |RetTokens(ret)| + |Print(body)| == |ts|
    ensures ParsePrefix(ts, 0) == Ok(Fn(ps, ret, body), |ts|)
  {
    TailReads(ts, q, ps, ret, body);
    ParamsRead(ts, ps, trailing, q);
  }

  /** `-> a b`: the first of two expressions after `->` is the return type. */
  lemma {:induction false} ReturnTypeThenBody(a: Name, b: Name)
    ensures ParseSource([Sym(Arrow), Word(a), Word(b)]) == Success([Fn(NoParams, Some(NameRef(a)), NameRef(b))])
  {
    FnReadsBack(NoParams, false, Some(NameRef(a)), NameRef(b));
    assert FnTokens(NoParams, false, Some(NameRef(a)), NameRef(b)) == [Sym(Arrow), Word(a), Word(b)];
  }
}

=== FILE: form_props.dfy ===
/**
 * Properties of `source_file` and of the `sep` lists (blocks, argument
 * lists, initializers, fields, parameters, enum variants), stated for the
 * printed form of well-bracketed operands, using the theorem of
 * `ParserProps` that such operands are read back whole.
 */
module FormProps {

  import opened Wrappers
  import opened Tokens
  import opened Ast
  import opened Precedence
  import opened Parser
  import opened ParserProps

  /** The infix loop returns its operand unchanged when no operator stronger than `m` follows. */
  lemma {:induction false} InfixStopsAt(ts: seq<Token>, q: nat, lhs: Expr, m: nat)
    requires q <= |ts|
    requires q < |ts| ==> InfixOf(ts[q]).None? || Power(InfixOf(ts[q]).value) <= m
    ensures ParseInfix(ts, q, lhs, m) == Ok(lhs, q)
  {
  }

  /** The first token of a printed operand is none of the tokens that close or separate a list. */
  lemma {:induction false} PrintStartsOperand(e: Expr)
    requires WellBracketed(e)
    ensures |Print(e)| >= 1 && StartsExpr(Print(e)[0])
    ensures Print(e)[0] !in {Sym(Semi), Sym(Comma), Sym(RParen), Sym(RBrace), Sym(RBracket), Sym(Arrow)}
    ensures !IsDeclMarker(Print(e)[0]) && !Print(e)[0].Kw?
  {
    PrintStart(e);
  }

  // ---- source_file ----

  function Semis(n: nat): seq<Token> {
    seq(n, _ => Sym(Semi))
  }

  /** Expressions, each followed by its own run of `;`; the last run is the optional trailing one. */
  function SourceTokens(es: seq<Expr>, runs: seq<nat>): seq<Token>
    requires |runs| == |es|
  {
    if es == [] then [] else Print(es[0]) + Semis(runs[0]) + SourceTokens(es[1..], runs[1..])
  }

  /**
   * Every expression is well-bracketed, and between two of them there is at
   * least one `;`, or the second starts with a token that cannot continue the first.
   */
  predicate Separable(es: seq<Expr>, runs: seq<nat>) {
    && |runs| == |es|
    && (forall i :: 0 <= i < |es| ==> WellBracketed(es[i]))
    && (forall i :: 0 <= i < |es| - 1 ==> runs[i] > 0 || InfixOf(Print(es[i + 1])[0]).None?)
  }

  lemma {:induction false} SkipsRun(ts: seq<Token>, q: nat, n: nat)
    requires Occurs(ts, q, Semis(n)) && (q + n == |ts| || ts[q + n] != Sym(Semi))
    ensures SkipSemis(ts, q) == q + n
    decreases n
  {
    if n > 0 {
      OccursAt(ts, q, Semis(n), 0);
      assert Semis(n) == [Sym(Semi)] + Semis(n - 1);
      OccursSplit(ts, q, [Sym(Semi)], Semis(n - 1));
      SkipsRun(ts, q + 1, n - 1);
    }
  }

  lemma {:induction false} TopLevelReads(ts: seq<Token>, pos: nat, es: seq<Expr>, runs: seq<nat>)
    requires es != [] && Separable(es, runs)
    requires Occurs(ts, pos, SourceTokens(es, runs)) && pos + |SourceTokens(es, runs)| == |ts|
    ensures ParseTopLevel(ts, pos) == Success(es)
    decreases |es|
  {
    var q, j := FirstReads(ts, pos, es, runs);
    if es[1..] != [] {
      TopLevelReads(ts, j, es[1..], runs[1..]);
      TopLevelStep(ts, pos, es[0], q, j, es[1..]);
      assert [es[0]] + es[1..] == es;
    } else {
      TopLevelLast(ts, pos, es[0], q);
      assert es == [es[0]];
    }
  }

  /** The first expression of the file is read, then its run of `;` is skipped. */
  lemma {:induction false} FirstReads(ts: seq<Token>, pos: nat, es: seq<Expr>, runs: seq<nat>) returns (q: nat, j: nat)
    requires es != [] && Separable(es, runs)
    requires Occurs(ts, pos, SourceTokens(es, runs)) && pos + |SourceTokens(es, runs)| == |ts|
    ensures pos < q <= j <= |ts| && ParseExpr(ts, pos, MIN) == Ok(es[0], q) && SkipSemis(ts, q) == j
    ensures Separable(es[1..], runs[1..])
    ensures Occurs(ts, j, SourceTokens(es[1..], runs[1..])) && j + |SourceTokens(es[1..], runs[1..])| == |ts|
    ensures es[1..] == [] <==> j == |ts|
  {
    q, j := SourceSplit(ts, pos, es, runs);
    PrintStart(es[0]);
    ParsesPrinted(ts, pos, es[0], MIN);
    SkipsRun(ts, q, runs[0]);
  }

  lemma {:induction false} TopLevelLast(ts: seq<Token>, pos: nat, e: Expr, q: nat)
    requires pos < |ts|
    requires ParseExpr(ts, pos, MIN) == Ok(e, q) && SkipSemis(ts, q) == |ts|
    ensures ParseTopLevel(ts, pos) == Success([e])
  {
  }

  /** An expression that spans the whole input is the whole source file. */
  lemma {:induction false} WholeSource(ts: seq<Token>, e: Expr)
    requires ts != [] && ParseExpr(ts, 0, MIN) == Ok(e, |ts|)
    ensures ParseSource(ts) == Success([e])
  {
    TopLevelLast(ts, 0, e, |ts|);
  }

  /** Where the first expression, its `;` run and the rest of the file stand. */
  lemma {:induction false} SourceSplit(ts: seq<Token>, pos: nat, es: seq<Expr>, runs: seq<nat>) returns (q: nat, j: nat)
    requires es != [] && Separable(es, runs)
    requires Occurs(ts, pos, SourceTokens(es, runs)) && pos + |SourceTokens(es, runs)| == |ts|
    ensures q == pos + |Print(es[0])| && j == q + runs[0]
    ensures WellBracketed(es[0]) && Level(es[0]) > MIN
    ensures Occurs(ts, pos, Print(es[0])) && FollowOk(ts, q, MIN)
    ensures Occurs(ts, q, Semis(runs[0])) && (j == |ts| || ts[j] != Sym(Semi))
    ensures Separable(es[1..], runs[1..])
    ensures Occurs(ts, j, SourceTokens(es[1..], runs[1..])) && j + |SourceTokens(es[1..], runs[1..])| == |ts|
    ensures es[1..] == [] <==> j == |ts|
  {
    var e := es[0];
    var rest := SourceTokens(es[1..], runs[1..]);
    SeparableTail(es, runs);
    PrintStart(e);
    assert SourceTokens(es, runs) == Print(e) + Semis(runs[0]) + rest;
    OccursSplit3(ts, pos, Print(e), Semis(runs[0]), rest);
    q := pos + |Print(e)|;
    j := q + runs[0];
    if es[1..] != [] {
      NextStart(ts, j, es, runs);
    }
    if runs[0] > 0 {
      OccursAt(ts, q, Semis(runs[0]), 0);
    }
  }

  lemma {:induction false} SeparableTail(es: seq<Expr>, runs: seq<nat>)
    requires es != [] && Separable(es, runs)
    ensures Separable(es[1..], runs[1..]) && WellBracketed(es[0])
  {
    forall i | 0 <= i < |es| - 2 ensures runs[1..][i] > 0 || InfixOf(Print(es[1..][i + 1])[0]).None? {
      assert runs[1..][i] == runs[i + 1] && es[1..][i + 1] == es[i + 2];
    }
  }

  /** The token where the next expression starts is its first printed token. */
  lemma {:induction false} NextStart(ts: seq<Token>, j: nat, es: seq<Expr>, runs: seq<nat>)
    requires |es| >= 2 && Separable(es, runs)
    requires Occurs(ts, j, SourceTokens(es[1..], runs[1..]))
    ensures j < |ts| && ts[j] == Print(es[1])[0] && ts[j] != Sym(Semi)
    ensures runs[0] > 0 || InfixOf(ts[j]).None?
    ensures ts[j] != Sym(Arrow) && !IsDeclMarker(ts[j])
  {
    var rest := SourceTokens(es[1..], runs[1..]);
    PrintStartsOperand(es[1]);
    assert rest == Print(es[1..][0]) + Semis(runs[1..][0]) + SourceTokens(es[1..][1..], runs[1..][1..]);
    OccursAt(ts, j, rest, 0);
  }

  lemma {:induction false} TopLevelStep(ts: seq<Token>, pos: nat, e: Expr, q: nat, j: nat, es: seq<Expr>)
    requires pos < j < |ts|
    requires ParseExpr(ts, pos, MIN) == Ok(e, q) && SkipSemis(ts, q) == j
    requires ParseTopLevel(ts, j) == Success(es)
    ensures ParseTopLevel(ts, pos) == Success([e] + es)
  {
  }

  /**
   * `source_file` is `sep(repeat(";"), _expr)`: operator-fragment expressions
   * separated by runs of `;` of any length, with an optional trailing run, are
   * read back in order; no tokens at all is the empty file.
   */
  lemma {:induction false} SourceReadsAll(es: seq<Expr>, runs: seq<nat>)
    requires Separable(es, runs)
    ensures ParseSource(SourceTokens(es, runs)) == Success(es)
  {
    var ts := SourceTokens(es, runs);
    if es != [] {
      PrintStart(es[0]);
      assert |ts| > 0;
      assert Occurs(ts, 0, ts);
      TopLevelReads(ts, 0, es, runs);
    }
  }

  /** A file of nothing but `;` has no first expression and is rejected at its first token. */
  lemma {:induction false} OnlySemicolonsRejected(n: nat)
    requires n > 0
    ensures ParseSource(Semis(n)) == Failure(0)
  {
    var ts := Semis(n);
    assert ts[0] == Sym(Semi);
    assert ParsePrefix(ts, 0) == Fail(0);
    assert ParseExpr(ts, 0, MIN) == Fail(0);
  }

  /** Two names side by side are two top-level expressions: the `;` run between them may be empty. */
  lemma {:induction false} JuxtaposedNames(a: Name, b: Name)
    ensures ParseSource([Word(a), Word(b)]) == Success([NameRef(a), NameRef(b)])
  {
    var es := [NameRef(a), NameRef(b)];
    var runs := [0, 0];
    assert Separable(es, runs);
    assert SourceTokens(es, runs) == [Word(a), Word(b)] by {
      assert SourceTokens(es[1..], runs[1..]) == [Word(b)] + SourceTokens([], []);
    }
    SourceReadsAll(es, runs);
  }
}

=== FILE: front_end.dfy ===
/**
 * The whole front end: the text is split into lexemes, comments are set
 * aside as extras (their doc payloads kept), and the remaining tokens are
 * parsed as a `source_file`.
 */
module FrontEnd {

  import opened Wrappers
  import opened Tokens
  import opened Lexer
  import opened LexerProps
  import opened Ast
  import opened Parser
  import opened ParserProps

  /** Where reading stopped: a character offset for the lexer, a token index for the parser. */
  datatype Error = LexError(offset: nat) | ParseError(token: nat)

  /** The top-level expressions of a file and the documentation its comments carry. */
  datatype SourceFile = SourceFile(items: seq<Expr>, docs: seq<string>)

  function ParseText(s: string): (r: Result<SourceFile, Error>)
    ensures r.Failure? && r.error.LexError? ==>
      r.error.offset < |s| && !IsSpace(s[r.error.offset]) && NextToken(s[r.error.offset..]).None?
    ensures r.Failure? && r.error.ParseError? ==>
      Lex(s).Success? && r.error.token <= |Significant(Lex(s).value)|
    ensures r.Success? ==> Lex(s).Success? && r.value.docs == DocComments(Lex(s).value)
  {
    LexFailsAt(s, 0);
    match Lex(s)
    case Failure(at) => Failure(LexError(at))
    case Success(ls) =>
      match ParseSource(Significant(ls))
      case Failure(k) => Failure(ParseError(k))
      case Success(items) => Success(SourceFile(items, DocComments(ls)))
  }

  lemma {:induction false} NonCommentsAppend(a: seq<Token>, b: seq<Token>)
    ensures NonComments(a + b) == NonComments(a) + NonComments(b)
    decreases |a|
  {
    if a == [] {
      assert a + b == b;
    } else {
      assert (a + b)[0] == a[0];
      assert (a + b)[1..] == a[1..] + b;
      NonCommentsAppend(a[1..], b);
    }
  }

  lemma {:induction false} DocsAppend(a: seq<Token>, b: seq<Token>)
    ensures DocsOf(a + b) == DocsOf(a) + DocsOf(b)
    decreases |a|
  {
    if a == [] {
      assert a + b == b;
    } else {
      assert (a + b)[0] == a[0];
      assert (a + b)[1..] == a[1..] + b;
      DocsAppend(a[1..], b);
    }
  }

  /** Tokens with no comment among them: dropping the comments keeps them all, and they carry no docs. */
  lemma {:induction false} NoCommentsKept(ts: seq<Token>)
    requires forall k :: 0 <= k < |ts| ==> !ts[k].LineComment?
    ensures NonComments(ts) == ts && DocsOf(ts) == []
    decreases |ts|
  {
    if ts != [] {
      NoCommentsKept(ts[1..]);
      assert [ts[0]] + ts[1..] == ts;
    }
  }

  /** The parser's trees print without comments. */
  lemma {:induction false} PrintHasNoComments(e: Expr)
    ensures forall k :: 0 <= k < |Print(e)| ==> !Print(e)[k].LineComment?
    decreases e
  {
    if IsBinaryNode(e) {
      PrintHasNoComments(e.lhs);
      PrintHasNoComments(e.rhs);
      assert Print(e) == Print(e.lhs) + [OpToken(NodeOp(e))] + Print(e.rhs);
      assert !OpToken(NodeOp(e)).LineComment?;
    } else {
      match e
      case Paren(inner) =>
        PrintHasNoComments(inner);
      case Prefix(op, x) =>
        PrintHasNoComments(x);
      case _ =>
    }
  }

  /**
   * A text written from valid tokens, one per line, is read as the parser
   * reading those tokens without their comments, and its docs are the
   * comments' doc payloads.
   */
  lemma {:induction false} TextOfTokens(ts: seq<Token>)
    requires AllValid(ts)
    ensures ParseText(Unlex(ts)).Success? <==> ParseSource(NonComments(ts)).Success?
    ensures ParseText(Unlex(ts)).Success? ==>
      ParseText(Unlex(ts)).value == SourceFile(ParseSource(NonComments(ts)).value, DocsOf(ts))
  {
    LexUnlex(ts);
    var ls := Lex(Unlex(ts)).value;
    SignificantDropsComments(ls);
  }

  /** Comments written between two valid token sequences change neither the items nor each other's docs. */
  lemma {:induction false} CommentsAreExtras(a: seq<Token>, text: string, b: seq<Token>)
    requires AllValid(a) && AllValid(b) && '\n' !in text
    ensures ParseText(Unlex(a + [LineComment(text)] + b)).Success? <==> ParseText(Unlex(a + b)).Success?
    ensures ParseText(Unlex(a + b)).Success? ==>
      && ParseText(Unlex(a + [LineComment(text)] + b)).value.items == ParseText(Unlex(a + b)).value.items
      && ParseText(Unlex(a + [LineComment(text)] + b)).value.docs == DocsOf(a) + DocsOf([LineComment(text)]) + DocsOf(b)
  {
    var c := [LineComment(text)];
    assert AllValid(a + c + b) by {
      forall k | 0 <= k < |a + c + b| ensures ValidToken((a + c + b)[k]) {
        if k < |a| { assert (a + c + b)[k] == a[k]; }
        else if k > |a| { assert (a + c + b)[k] == b[k - |a| - 1]; }
      }
    }
    assert AllValid(a + b) by {
      forall k | 0 <= k < |a + b| ensures ValidToken((a + b)[k]) {
        if k < |a| { assert (a + b)[k] == a[k]; }
        else { assert (a + b)[k] == b[k - |a|]; }
      }
    }
    TextOfTokens(a + c + b);
    TextOfTokens(a + b);
    NonCommentsAppend(a + c, b);
    NonCommentsAppend(a, c);
    NonCommentsAppend(a, b);
    assert NonComments(c) == [] by { assert c[1..] == []; }
    assert NonComments(a) + [] == NonComments(a);
    DocsAppend(a + c, b);
    DocsAppend(a, c);
  }

  /**
   * End to end: an expression of the operator fragment whose tokens are all
   * spellable, written out token by token, is read back as that expression
   * alone, with no docs.
   */
  lemma {:induction false} TextReadsBack(e: Expr)
    requires WellBracketed(e) && AllValid(Print(e))
    ensures ParseText(Unlex(Print(e))) == Success(SourceFile([e], []))
  {
    PrintHasNoComments(e);
    NoCommentsKept(Print(e));
    SourceReadsPrinted(e);
    TextOfTokens(Print(e));
  }
}

=== FILE: lexer.dfy ===
/**
 * The lexical rules of grammar.js: `_ident_like` with its reclassification
 * into `primitive_type`, keywords and booleans; the char, string, integer
 * and float literal regexes; the punctuation strings of the rules; and `//`
 * line comments, which are extras.  Whitespace is skipped between tokens.
 *
 * The lexer is context-free and takes the longest match at every position.
 */
module Lexer {

  import opened Wrappers
  import opened Tokens

  /** A token read from the front of a string, and how many characters it took. */
  datatype Scan = Scan(tok: Token, len: nat)

  /** A token together with the offset of its first character in the source. */
  datatype Lexeme = Lexeme(start: nat, tok: Token)

  /** The length of the longest prefix of `s` whose characters all satisfy `inRun`. */
  function RunLen(s: string, inRun: char -> bool): (n: nat)
    ensures n <= |s|
    ensures forall i :: 0 <= i < n ==> inRun(s[i])
    ensures n < |s| ==> !inRun(s[n])
  {
    if s == [] || !inRun(s[0]) then 0 else 1 + RunLen(s[1..], inRun)
  }

  /** The keyword spelled `w`, if there is one. */
  function KeywordOf(w: string): (r: Option<Keyword>)
    ensures r.Some? ==> KeywordText(r.value) == w
    ensures r.None? ==> !IsKeywordText(w)
  {
    if w == "pub" then Some(Pub)
    else if w == "mut" then Some(Mut)
    else if w == "rec" then Some(Rec)
    else if w == "extern" then Some(Extern)
    else if w == "struct" then Some(Struct)
    else if w == "union" then Some(Union)
    else if w == "enum" then Some(Enum)
    else if w == "if" then Some(If)
    else if w == "do" then Some(Do)
    else if w == "else" then Some(Else)
    else if w == "match" then Some(Match)
    else if w == "for" then Some(For)
    else if w == "while" then Some(While)
    else if w == "defer" then Some(Defer)
    else if w == "return" then Some(Return)
    else if w == "break" then Some(Break)
    else if w == "continue" then Some(Continue)
    else if w == "unsafe" then Some(Unsafe)
    else if w == "nil" then Some(Nil)
    else None
  }

  /**
   * The token a whole `_ident_like` word stands for: a `primitive_type`, a
   * boolean literal, a keyword, or otherwise an `ident`.
   */
  function ClassifyWord(w: string): (t: Token)
    requires IsWord(w)
    ensures Spell(t) == w && ValidToken(t)
    ensures t.Word? && t.name.PrimitiveType? <==> IsPrimitiveTypeName(w)
    ensures t.Kw? <==> IsKeywordText(w)
    ensures t.Lit? <==> w == "true" || w == "false"
    ensures t == Word(Ident(w)) <==>
              !IsPrimitiveTypeName(w) && !IsKeywordText(w) && w != "true" && w != "false"
  {
    PrimitiveTypeNameNotKeyword(w);
    if IsPrimitiveTypeName(w) then Word(PrimitiveType(w))
    else if w == "true" then Lit(BoolLit(true))
    else if w == "false" then Lit(BoolLit(false))
    else match KeywordOf(w)
      case Some(k) => Kw(k)
      case None => Word(Ident(w))
  }

  /** No keyword is spelled like a `primitive_type`. */
  lemma {:induction false} PrimitiveTypeNameNotKeyword(w: string)
    ensures IsPrimitiveTypeName(w) ==> !IsKeywordText(w)
  {
    forall k | KeywordText(k) == w
      ensures !IsPrimitiveTypeName(w)
    {
      assert |w| >= 2 && !IsDigit(w[1]);
    }
  }

  /** The punctuation symbol spelled exactly `s`, if there is one. */
  function PunctOf(s: string): (r: Option<Punct>)
    ensures r.Some? ==> PunctText(r.value) == s
  {
    if |s| == 1 then Punct1(s[0])
    else if |s| == 2 then Punct2(s[0], s[1])
    else if |s| == 3 then Punct3(s[0], s[1], s[2])
    else None
  }

  function Punct1(c: char): (r: Option<Punct>)
    ensures r.Some? ==> PunctText(r.value) == [c]
  {
    match c
    case ';' => Some(Semi)
    case ',' => Some(Comma)
    case '(' => Some(LParen)
    case ')' => Some(RParen)
    case '{' => Some(LBrace)
    case '}' => Some(RBrace)
    case '[' => Some(LBracket)
    case ']' => Some(RBracket)
    case ':' => Some(Colon)
    case '?' => Some(Question)
    case '!' => Some(Bang)
    case '.' => Some(Dot)
    case '*' => Some(Star)
    case '/' => Some(Slash)
    case '%' => Some(Percent)
    case '+' => Some(Plus)
    case '-' => Some(Minus)
    case '&' => Some(Amp)
    case '^' => Some(Caret)
    case '<' => Some(Lt)
    case '>' => Some(Gt)
    case '=' => Some(Eq)
    case _ => None
  }

  function Punct2(a: char, b: char): (r: Option<Punct>)
    ensures r.Some? ==> PunctText(r.value) == [a, b]
  {
    if b == '=' then PunctWithEq(a)
    else if a == '.' then PunctAfterDot(b)
    else if a == '-' && b == '>' then Some(Arrow)
    else if a == ':' && b == ':' then Some(ColonColon)
    else if a == '<' && b == '<' then Some(Shl)
    else if a == '>' && b == '>' then Some(Shr)
    else if a == '&' && b == '&' then Some(AmpAmp)
    else if a == '|' && b == '|' then Some(PipePipe)
    else None
  }

  /** Two-character symbols ending in `=`: the comparisons, then the compound assignments. */
  function PunctWithEq(a: char): (r: Option<Punct>)
    ensures r.Some? ==> PunctText(r.value) == [a, '=']
  {
    match a
    case ':' => Some(ColonEq)
    case '=' => Some(EqEq)
    case '!' => Some(NotEq)
    case '<' => Some(Le)
    case '>' => Some(Ge)
    case _ => AssignWithEq(a)
  }

  /** `op=` for the one-character binary operators. */
  function AssignWithEq(a: char): (r: Option<Punct>)
    ensures r.Some? ==> PunctText(r.value) == [a, '=']
  {
    match a
    case '*' => Some(StarEq)
    case '/' => Some(SlashEq)
    case '%' => Some(PercentEq)
    case '+' => Some(PlusEq)
    case '-' => Some(MinusEq)
    case '&' => Some(AmpEq)
    case '^' => Some(CaretEq)
    case '|' => Some(PipeEq)
    case _ => None
  }

  /** Two-character symbols starting with `.`. */
  function PunctAfterDot(b: char): (r: Option<Punct>)
    ensures r.Some? ==> PunctText(r.value) == ['.', b]
  {
    match b
    case '(' => Some(DotLParen)
    case '{' => Some(DotLBrace)
    case '[' => Some(DotLBracket)
    case '&' => Some(DotAmp)
    case '*' => Some(DotStar)
    case '.' => Some(DotDot)
    case _ => None
  }

  function Punct3(a: char, b: char, c: char): (r: Option<Punct>)
    ensures r.Some? ==> PunctText(r.value) == [a, b, c]
  {
    if c != '=' then None
    else if a == '.' && b == '.' then Some(DotDotEq)
    else if a == '<' && b == '<' then Some(ShlEq)
    else if a == '>' && b == '>' then Some(ShrEq)
    else if a == '&' && b == '&' then Some(AmpAmpEq)
    else if a == '|' && b == '|' then Some(PipePipeEq)
    else None
  }

  /** The longest punctuation symbol at the front of `s` (three, two, then one character). */
  function ScanPunct(s: string): (r: Option<Scan>)
    ensures r.Some? ==> 0 < r.value.len <= 3 && r.value.len <= |s|
    ensures r.Some? ==> r.value.tok.Sym? && PunctText(r.value.tok.punct) == s[..r.value.len]
  {
    if |s| >= 3 && PunctOf(s[..3]).Some? then Some(Scan(Sym(PunctOf(s[..3]).value), 3))
    else if |s| >= 2 && PunctOf(s[..2]).Some? then Some(Scan(Sym(PunctOf(s[..2]).value), 2))
    else if |s| >= 1 && PunctOf(s[..1]).Some? then Some(Scan(Sym(PunctOf(s[..1]).value), 1))
    else None
  }

  /** `[_a-zA-Z]\w*`, taken as long as possible and then classified. */
  function ScanWord(s: string): (r: Scan)
    requires |s| > 0 && IsWordStart(s[0])
    ensures 0 < r.len <= |s| && Spell(r.tok) == s[..r.len] && ValidToken(r.tok)
    ensures r.len < |s| ==> !IsWordChar(s[r.len])
  {
    var n := 1 + RunLen(s[1..], IsWordChar);
    Scan(ClassifyWord(s[..n]), n)
  }

  /** The end of the run of digits that starts at offset `a` of `s`. */
  function DigitRunEnd(s: string, a: nat): (e: nat)
    requires a <= |s|
    ensures a <= e <= |s|
    ensures forall j :: a <= j < e ==> IsDigit(s[j])
    ensures e < |s| ==> !IsDigit(s[e])
    ensures a < |s| && IsDigit(s[a]) ==> a < e
  {
    var n := RunLen(s[a..], IsDigit);
    assert a < |s| ==> s[a..][0] == s[a];
    a + n
  }

  lemma {:induction false} SpellsInteger(s: string, neg: bool, a: nat, e: nat)
    requires a == (if neg then 1 else 0) && a < e <= |s|
    requires neg ==> s[0] == '-'
    requires forall j :: a <= j < e ==> IsDigit(s[j])
    ensures Spell(Lit(IntLit(neg, s[a..e]))) == s[..e]
    ensures ValidToken(Lit(IntLit(neg, s[a..e])))
  {
    DigitSlice(s, a, e);
    assert s[..e] == s[..a] + s[a..e];
  }

  lemma {:induction false} SpellsFloat(s: string, neg: bool, a: nat, e: nat, f: nat)
    requires a == (if neg then 1 else 0) && a < e && e + 1 < f <= |s|
    requires neg ==> s[0] == '-'
    requires s[e] == '.'
    requires forall j :: a <= j < e ==> IsDigit(s[j])
    requires forall j :: e + 1 <= j < f ==> IsDigit(s[j])
    ensures Spell(Lit(FloatLit(neg, s[a..e], s[e + 1..f]))) == s[..f]
    ensures ValidToken(Lit(FloatLit(neg, s[a..e], s[e + 1..f])))
  {
    DigitSlice(s, a, e);
    DigitSlice(s, e + 1, f);
    FloatText(s, neg, a, e, f);
  }

  lemma {:induction false} FloatText(s: string, neg: bool, a: nat, e: nat, f: nat)
    requires a == (if neg then 1 else 0) && a < e && e + 1 < f <= |s|
    requires neg ==> s[0] == '-'
    requires s[e] == '.'
    ensures Sign(neg) + s[a..e] + "." + s[e + 1..f] == s[..f]
  {
    assert s[..a] == Sign(neg);
    assert s[..f] == s[..a] + s[a..e] + [s[e]] + s[e + 1..f];
  }

  lemma {:induction false} DigitSlice(s: string, a: nat, e: nat)
    requires a < e <= |s|
    requires forall j :: a <= j < e ==> IsDigit(s[j])
    ensures IsDigitRun(s[a..e])
  {
  }

  /**
   * `-?\d+\.\d+` or else `-?\d+`.  A float needs a digit right after the dot,
   * so in `0..10` the `0` is an integer and the dots are left for the range.
   */
  function ScanNumber(s: string): (r: Scan)
    requires |s| > 0 && (IsDigit(s[0]) || (|s| >= 2 && s[0] == '-' && IsDigit(s[1])))
    ensures 0 < r.len <= |s| && Spell(r.tok) == s[..r.len] && ValidToken(r.tok)
    ensures r.tok.Lit? && (r.tok.literal.IntLit? || r.tok.literal.FloatLit?)
    ensures r.len < |s| ==> !IsDigit(s[r.len])
    ensures r.tok.literal.IntLit? && r.len + 1 < |s| ==> !(s[r.len] == '.' && IsDigit(s[r.len + 1]))
  {
    var neg := s[0] == '-';
    var a := if neg then 1 else 0;
    var e := DigitRunEnd(s, a);
    if e + 1 < |s| && s[e] == '.' && IsDigit(s[e + 1]) then
      var f := DigitRunEnd(s, e + 1);
      SpellsFloat(s, neg, a, e, f);
      Scan(Lit(FloatLit(neg, s[a..e], s[e + 1..f])), f)
    else
      SpellsInteger(s, neg, a, e);
      Scan(Lit(IntLit(neg, s[a..e])), e)
  }

  /** `' . '`: exactly one character other than a newline between single quotes. */
  function ScanChar(s: string): (r: Option<Scan>)
    requires |s| > 0 && s[0] == '\''
    ensures r.Some? <==> |s| >= 3 && s[1] != '\n' && s[2] == '\''
    ensures r.Some? ==> r.value.len == 3 && Spell(r.value.tok) == s[..3] && ValidToken(r.value.tok)
  {
    if |s| >= 3 && s[1] != '\n' && s[2] == '\'' then Some(Scan(Lit(CharLit(s[1])), 3)) else None
  }

  /** `" [^"]* "`: the content runs to the next double quote, which must exist. */
  function ScanString(s: string): (r: Option<Scan>)
    requires |s| > 0 && s[0] == '"'
    ensures r.Some? <==> '"' in s[1..]
    ensures r.Some? ==> 0 < r.value.len <= |s| && Spell(r.value.tok) == s[..r.value.len] && ValidToken(r.value.tok)
  {
    var n := RunLen(s[1..], c => c != '"');
    assert forall j :: 1 <= j < 1 + n ==> s[j] != '"';
    if 1 + n < |s| then Some(Scan(Lit(StrLit(s[1..1 + n])), n + 2)) else None
  }

  /** `//` and the rest of the line, not including the newline. */
  function ScanLineComment(s: string): (r: Scan)
    requires |s| >= 2 && s[0] == '/' && s[1] == '/'
    ensures 0 < r.len <= |s| && Spell(r.tok) == s[..r.len] && ValidToken(r.tok)
    ensures r.len == |s| || s[r.len] == '\n'
  {
    var n := RunLen(s[2..], c => c != '\n');
    assert forall j :: 2 <= j < 2 + n ==> s[j] != '\n';
    Scan(LineComment(s[2..2 + n]), 2 + n)
  }

  /**
   * The token at the front of `s`, or None when no rule matches there.
   * A slash followed by a star starts a block comment, whose content is an external token this
   * model leaves out, so it is reported as an error.
   */
  function NextToken(s: string): (r: Option<Scan>)
    requires |s| > 0 && !IsSpace(s[0])
    ensures r.Some? ==> 0 < r.value.len <= |s| && Spell(r.value.tok) == s[..r.value.len]
    ensures r.Some? ==> ValidToken(r.value.tok)
  {
    if |s| >= 2 && s[0] == '/' && s[1] == '/' then Some(ScanLineComment(s))
    else if |s| >= 2 && s[0] == '/' && s[1] == '*' then None
    else if s[0] == '\'' then ScanChar(s)
    else if s[0] == '"' then ScanString(s)
    else if IsDigit(s[0]) || (|s| >= 2 && s[0] == '-' && IsDigit(s[1])) then Some(ScanNumber(s))
    else if IsWordStart(s[0]) then Some(ScanWord(s))
    else ScanPunct(s)
  }

  /**
   * Splits `s[i..]` into lexemes, skipping whitespace.  Fails with the offset
   * of the first non-blank character at which no token can be read.
   */
  function LexFrom(s: string, i: nat): (r: Result<seq<Lexeme>, nat>)
    requires i <= |s|
    decreases |s| - i, 1
  {
    if i == |s| then Success([])
    else if IsSpace(s[i]) then LexFrom(s, i + 1)
    else LexAfter(s, i, NextToken(s[i..]))
  }

  /** Goes on from the scan made at the non-blank offset `i`, or stops there if nothing could be read. */
  function LexAfter(s: string, i: nat, next: Option<Scan>): (r: Result<seq<Lexeme>, nat>)
    requires i < |s| && (next.Some? ==> 0 < next.value.len <= |s| - i)
    decreases |s| - i, 0
  {
    match next
    case None => Failure(i)
    case Some(Scan(t, n)) =>
      match LexFrom(s, i + n)
      case Failure(e) => Failure(e)
      case Success(rest) => Success([Lexeme(i, t)] + rest)
  }

  /** Lexing fails only at a non-blank offset where no token starts. */
  lemma {:induction false} LexFailsAt(s: string, i: nat)
    requires i <= |s|
    ensures LexFrom(s, i).Failure? ==>
      var at := LexFrom(s, i).error;
      i <= at < |s| && !IsSpace(s[at]) && NextToken(s[at..]).None?
    decreases |s| - i
  {
    if i < |s| {
      if IsSpace(s[i]) {
        LexFailsAt(s, i + 1);
        BlankPassed(s, i);
      } else if NextToken(s[i..]).Some? {
        LexFailsAt(s, i + NextToken(s[i..]).value.len);
        TokenPassed(s, i);
      } else {
        NoTokenStops(s, i);
      }
    }
  }

  lemma {:induction false} BlankPassed(s: string, i: nat)
    requires i < |s| && IsSpace(s[i])
    ensures LexFrom(s, i) == LexFrom(s, i + 1)
  {
  }

  lemma {:induction false} TokenPassed(s: string, i: nat)
    requires i < |s| && !IsSpace(s[i]) && NextToken(s[i..]).Some?
    ensures var n := NextToken(s[i..]).value.len;
      && i < i + n <= |s|
      && (LexFrom(s, i).Failure? ==> LexFrom(s, i + n).Failure? && LexFrom(s, i).error == LexFrom(s, i + n).error)
  {
    var n := NextToken(s[i..]).value.len;
    assert LexFrom(s, i) == LexAfter(s, i, NextToken(s[i..]));
  }

  lemma {:induction false} NoTokenStops(s: string, i: nat)
    requires i < |s| && !IsSpace(s[i]) && NextToken(s[i..]).None?
    ensures LexFrom(s, i) == Failure(i)
  {
  }

  function Lex(s: string): Result<seq<Lexeme>, nat> {
    LexFrom(s, 0)
  }

  /** The tokens the parser sees: comments are extras and are dropped. */
  function Significant(ls: seq<Lexeme>): (ts: seq<Token>)
    ensures forall k :: 0 <= k < |ts| ==> !ts[k].LineComment?
    ensures |ts| <= |ls|
  {
    if ls == [] then []
    else if ls[0].tok.LineComment? then Significant(ls[1..])
    else [ls[0].tok] + Significant(ls[1..])
  }

  /** The documentation payloads of the `///` and `//!` comments, in source order. */
  function DocComments(ls: seq<Lexeme>): seq<string> {
    if ls == [] then []
    else if ls[0].tok.LineComment? && DocPayload(ls[0].tok.text).Some? then
      [DocPayload(ls[0].tok.text).value] + DocComments(ls[1..])
    else DocComments(ls[1..])
  }
}

=== FILE: lexer_props.dfy ===
/**
 * Properties of the lexer: every token written out is read back as that
 * very token, comments are kept out of the token stream the parser sees,
 * and the literal regexes decide between a float and a range.
 */
module LexerProps {

  import opened Wrappers
  import opened Tokens
  import opened Lexer

  /** The tokens of a lexeme sequence, in order. */
  function TokensOf(ls: seq<Lexeme>): (ts: seq<Token>)
    ensures |ts| == |ls|
    ensures forall k :: 0 <= k < |ls| ==> ts[k] == ls[k].tok
  {
    if ls == [] then [] else [ls[0].tok] + TokensOf(ls[1..])
  }

  /** Tokens written out one per line. */
  function Unlex(ts: seq<Token>): string {
    if ts == [] then "" else Spell(ts[0]) + "\n" + Unlex(ts[1..])
  }

  ghost predicate AllValid(ts: seq<Token>) {
    forall k :: 0 <= k < |ts| ==> ValidToken(ts[k])
  }

  /** The tokens without the comments. */
  function NonComments(ts: seq<Token>): (r: seq<Token>)
    ensures forall k :: 0 <= k < |r| ==> !r[k].LineComment?
  {
    if ts == [] then []
    else if ts[0].LineComment? then NonComments(ts[1..])
    else [ts[0]] + NonComments(ts[1..])
  }

  /** The doc payloads of the comments among the tokens. */
  function DocsOf(ts: seq<Token>): seq<string> {
    if ts == [] then []
    else if ts[0].LineComment? && DocPayload(ts[0].text).Some? then [DocPayload(ts[0].text).value] + DocsOf(ts[1..])
    else DocsOf(ts[1..])
  }

  // ---- Reading one token ----

  /** A run is as long as its first character outside the class says. */
  lemma {:induction false} RunLenIs(s: string, p: char -> bool, n: nat)
    requires n <= |s| && (forall i :: 0 <= i < n ==> p(s[i])) && (n < |s| ==> !p(s[n]))
    ensures RunLen(s, p) == n
  {
  }

  /** A whole word followed by a non-word character is read and classified. */
  lemma {:induction false} ReadsWord(w: string, rest: string)
    requires IsWord(w) && (rest == [] || !IsWordChar(rest[0]))
    ensures NextToken(w + rest) == Some(Scan(ClassifyWord(w), |w|))
  {
    var s := w + rest;
    assert s[0] == w[0];
    assert forall i :: 0 <= i < |w| - 1 ==> s[1..][i] == w[i + 1];
    RunLenIs(s[1..], IsWordChar, |w| - 1);
    assert s[..|w|] == w;
  }

  /** Each keyword is a word, and that word is classified as the keyword. */
  lemma {:induction false} KeywordSpelling(k: Keyword)
    ensures IsWord(KeywordText(k)) && ClassifyWord(KeywordText(k)) == Kw(k)
  {
    KeywordIsWord(k);
    KeywordOfText(k);
    PrimitiveTypeNameNotKeyword(KeywordText(k));
  }

  lemma {:induction false} KeywordIsWord(k: Keyword)
    ensures IsWord(KeywordText(k))
  {
    match k
    case Pub => case Mut => case Rec => case Extern => case Struct => case Union => case Enum =>
    case If => case Do => case Else => case Match => case For => case While =>
    case Defer => case Return => case Break => case Continue => case Unsafe => case Nil =>
  }

  lemma {:induction false} KeywordOfText(k: Keyword)
    ensures KeywordOf(KeywordText(k)) == Some(k)
    ensures KeywordText(k) != "true" && KeywordText(k) != "false"
  {
    match k
    case Pub => case Mut => case Rec => case Extern => case Struct => case Union => case Enum =>
    case If => case Do => case Else => case Match => case For => case While =>
    case Defer => case Return => case Break => case Continue => case Unsafe => case Nil =>
  }

  /** The spelling of a name token is a word classified as that name. */
  lemma {:induction false} NameSpelling(n: Name)
    requires ValidToken(Word(n))
    ensures IsWord(n.text) && ClassifyWord(n.text) == Word(n)
  {
    var w := n.text;
    if n.PrimitiveType? {
      if !(w == "void" || w == "never" || w == "bool" || w == "f32" || w == "f64") {
        assert IsDigitRun(w[1..]);
        assert forall i :: 1 <= i < |w| ==> w[i] == w[1..][i - 1];
      }
    }
  }

  /** Each symbol's text is read back as that symbol, as the longest match. */
  lemma {:induction false} PunctReadsBack(p: Punct)
    ensures PunctOf(PunctText(p)) == Some(p)
  {
    if ShortOrDotted(p) {
      ShortOrDottedReadsBack(p);
    } else {
      OperatorReadsBack(p);
    }
  }

  /** The symbols of one and two characters that are not operators, and those starting with `.`. */
  predicate ShortOrDotted(p: Punct) {
    || p.Semi? || p.Comma? || p.LParen? || p.RParen? || p.LBrace? || p.RBrace?
    || p.LBracket? || p.RBracket? || p.Arrow? || p.Colon? || p.ColonColon?
    || p.ColonEq? || p.Question? || p.Bang? || p.Dot? || p.DotLParen?
    || p.DotLBrace? || p.DotLBracket? || p.DotAmp? || p.DotStar? || p.DotDot?
    || p.DotDotEq?
  }

  lemma {:induction false} ShortOrDottedReadsBack(p: Punct)
    requires ShortOrDotted(p)
    ensures PunctOf(PunctText(p)) == Some(p)
  {
    match p
    case Semi => case Comma => case LParen => case RParen => case LBrace => case RBrace =>
    case LBracket => case RBracket => case Arrow => case Colon => case ColonColon =>
    case ColonEq => case Question => case Bang => case Dot => case DotLParen =>
    case DotLBrace => case DotLBracket => case DotAmp => case DotStar => case DotDot =>
    case DotDotEq =>
    case _ =>
  }

  lemma {:induction false} OperatorReadsBack(p: Punct)
    requires !ShortOrDotted(p)
    ensures PunctOf(PunctText(p)) == Some(p)
  {
    match p
    case Star => case Slash => case Percent => case Plus => case Minus =>
    case Shl => case Shr => case Amp => case Caret => case EqEq => case NotEq => case Lt =>
    case Le => case Gt => case Ge => case AmpAmp => case PipePipe => case Eq => case StarEq =>
    case SlashEq => case PercentEq => case PlusEq => case MinusEq => case ShlEq => case ShrEq =>
    case AmpEq => case CaretEq => case PipeEq => case AmpAmpEq => case PipePipeEq =>
    case _ =>
  }

  /** Whatever text names a symbol starts none of the other token classes. */
  lemma {:induction false} PunctOfShape(t: string)
    requires PunctOf(t).Some?
    ensures && 1 <= |t| <= 3 && !IsSpace(t[0]) && !IsWordStart(t[0]) && !IsDigit(t[0])
      && t[0] != '\'' && t[0] != '"'
      && (t[0] == '/' ==> |t| == 1 || t[1] == '=')
      && (t[0] == '-' ==> |t| == 1 || !IsDigit(t[1]))
  {
    if |t| == 2 {
      if t[1] != '=' && t[0] != '.' {
        assert t[0] == '-' ==> t[1] == '>';
      }
    }
  }

  /** A symbol followed by a newline is read back as that symbol. */
  lemma {:induction false} ReadsSym(p: Punct, rest: string)
    requires |rest| > 0 && rest[0] == '\n'
    ensures var s := PunctText(p) + rest;
      |s| > 0 && !IsSpace(s[0]) && NextToken(s) == Some(Scan(Sym(p), |PunctText(p)|))
  {
    var t := PunctText(p);
    var s := t + rest;
    PunctReadsBack(p);
    PunctOfShape(t);
    assert s[0] == t[0];
    assert |t| >= 2 ==> s[1] == t[1];
    LongestPunct(t, rest, p);
    PunctDispatch(s);
  }

  /** Where no other token class starts, the scanner reads punctuation. */
  lemma {:induction false} PunctDispatch(s: string)
    requires |s| > 0 && !IsSpace(s[0]) && !IsWordStart(s[0]) && !IsDigit(s[0])
    requires s[0] != '\'' && s[0] != '"'
    requires s[0] == '/' && |s| >= 2 ==> s[1] != '/' && s[1] != '*'
    requires s[0] == '-' && |s| >= 2 ==> !IsDigit(s[1])
    ensures NextToken(s) == ScanPunct(s)
  {
  }

  /** A symbol's text followed by a newline is the longest symbol there. */
  lemma {:induction false} LongestPunct(t: string, rest: string, p: Punct)
    requires 1 <= |t| <= 3 && PunctOf(t) == Some(p)
    requires |rest| > 0 && rest[0] == '\n'
    ensures ScanPunct(t + rest) == Some(Scan(Sym(p), |t|))
  {
    var s := t + rest;
    assert s[|t|] == '\n';
    if |t| == 3 {
      assert s[..3] == t;
    } else if |t| == 2 {
      assert s[..2] == t;
      assert |s| >= 3 ==> PunctOf(s[..3]).None?;
    } else {
      assert s[..1] == t;
      assert PunctOf(s[..2]).None?;
      assert |s| >= 3 ==> PunctOf(s[..3]).None?;
    }
  }

  lemma {:induction false} ReadsChar(c: char, rest: string)
    requires c != '\n'
    ensures NextToken(['\'', c, '\''] + rest) == Some(Scan(Lit(CharLit(c)), 3))
  {
    var s := ['\'', c, '\''] + rest;
    assert s[0] == '\'' && s[1] == c && s[2] == '\'';
  }

  /** A string literal ends at the first double quote after the opening one. */
  lemma {:induction false} ReadsString(x: string, rest: string)
    requires '"' !in x
    ensures NextToken(['"'] + x + ['"'] + rest) == Some(Scan(Lit(StrLit(x)), |x| + 2))
  {
    var s := ['"'] + x + ['"'] + rest;
    assert s[0] == '"';
    assert s[1 + |x|] == '"';
    assert '"' in s[1..];
    var r := ScanString(s).value;
    var n := r.len - 2;
    assert r.tok == Lit(StrLit(s[1..1 + n]));
    assert s[1..1 + |x|] == x;
  }

  /** A comment runs to the newline that ends its line. */
  lemma {:induction false} ReadsComment(x: string, rest: string)
    requires '\n' !in x && |rest| > 0 && rest[0] == '\n'
    ensures NextToken("//" + x + rest) == Some(Scan(LineComment(x), |x| + 2))
  {
    var s := "//" + x + rest;
    assert s[0] == '/' && s[1] == '/';
    assert s[2 + |x|] == '\n';
    var r := ScanLineComment(s);
    var n := r.len - 2;
    assert r.tok == LineComment(s[2..2 + n]);
    assert s[2..2 + |x|] == x;
  }

  /** An integer not followed by a digit, nor by a dot and a digit, is read whole. */
  lemma {:induction false} ReadsInt(neg: bool, d: string, rest: string)
    requires IsDigitRun(d)
    requires rest != [] ==> !IsDigit(rest[0]) && !(rest[0] == '.' && |rest| > 1 && IsDigit(rest[1]))
    ensures NextToken(Sign(neg) + d + rest) == Some(Scan(Lit(IntLit(neg, d)), |Sign(neg)| + |d|))
  {
    var s := Sign(neg) + d + rest;
    IntPieces(neg, d, rest, s);
    NumberDispatch(s);
    ScansInt(neg, d, s);
  }

  lemma {:induction false} ScansInt(neg: bool, d: string, s: string)
    requires IsDigitRun(d)
    requires var a := |Sign(neg)|; var e := a + |d|;
      && |s| >= e && s[a] == d[0]
      && (neg ==> s[0] == '-') && (!neg ==> s[0] == d[0])
      && (forall j :: a <= j < e ==> IsDigit(s[j]))
      && (e < |s| ==> !IsDigit(s[e]) && !(s[e] == '.' && e + 1 < |s| && IsDigit(s[e + 1])))
      && s[a..e] == d
    ensures |s| > 0 && (IsDigit(s[0]) || (|s| >= 2 && s[0] == '-' && IsDigit(s[1])))
    ensures ScanNumber(s) == Scan(Lit(IntLit(neg, d)), |Sign(neg)| + |d|)
  {
    var a := |Sign(neg)|;
    assert a == if neg then 1 else 0;
    DigitRunEndIs(s, a, a + |d|);
  }

  lemma {:induction false} IntPieces(neg: bool, d: string, rest: string, s: string)
    requires IsDigitRun(d) && s == Sign(neg) + d + rest
    requires rest != [] ==> !IsDigit(rest[0]) && !(rest[0] == '.' && |rest| > 1 && IsDigit(rest[1]))
    ensures var a := |Sign(neg)|; var e := a + |d|;
      && |s| >= e && s[a] == d[0]
      && (neg ==> s[0] == '-') && (!neg ==> s[0] == d[0])
      && (forall j :: a <= j < e ==> IsDigit(s[j]))
      && (e < |s| ==> !IsDigit(s[e]) && !(s[e] == '.' && e + 1 < |s| && IsDigit(s[e + 1])))
      && s[a..e] == d
  {
    var a := |Sign(neg)|;
    var e := a + |d|;
    assert forall j :: a <= j < e ==> s[j] == d[j - a];
    assert e < |s| ==> s[e] == rest[0];
    assert e + 1 < |s| ==> s[e + 1] == rest[1];
    assert s[a..e] == d;
  }

  /** A digit run ends where its first non-digit says. */
  lemma {:induction false} DigitRunEndIs(s: string, a: nat, e: nat)
    requires a <= e <= |s| && (forall j :: a <= j < e ==> IsDigit(s[j])) && (e < |s| ==> !IsDigit(s[e]))
    ensures DigitRunEnd(s, a) == e
  {
  }

  /** A float not followed by a digit is read whole. */
  lemma {:induction false} ReadsFloat(neg: bool, w: string, f: string, rest: string)
    requires IsDigitRun(w) && IsDigitRun(f)
    requires rest != [] ==> !IsDigit(rest[0])
    ensures NextToken(Sign(neg) + w + "." + f + rest)
         == Some(Scan(Lit(FloatLit(neg, w, f)), |Sign(neg)| + |w| + 1 + |f|))
  {
    var s := Sign(neg) + w + "." + f + rest;
    FloatPieces(neg, w, f, rest, s);
    NumberDispatch(s);
    ScansFloat(neg, w, f, rest, s);
  }

  /** A digit, or a minus sign and a digit, starts a number. */
  lemma {:induction false} NumberDispatch(s: string)
    requires |s| > 0 && (IsDigit(s[0]) || (|s| >= 2 && s[0] == '-' && IsDigit(s[1])))
    ensures NextToken(s) == Some(ScanNumber(s))
  {
  }

  lemma {:induction false} ScansFloat(neg: bool, w: string, f: string, rest: string, s: string)
    requires IsDigitRun(w) && IsDigitRun(f) && s == Sign(neg) + w + "." + f + rest
    requires var a := |Sign(neg)|; var dot := a + |w|;
      && |s| > dot + |f| && s[dot] == '.' && s[dot + 1] == f[0] && s[a] == w[0]
      && (neg ==> s[0] == '-') && (!neg ==> s[0] == w[0])
      && (forall j :: a <= j < dot ==> IsDigit(s[j]))
      && (forall j :: dot + 1 <= j < dot + 1 + |f| ==> IsDigit(s[j]))
      && (dot + 1 + |f| < |s| ==> !IsDigit(s[dot + 1 + |f|]))
      && s[a..dot] == w && s[dot + 1..dot + 1 + |f|] == f
    ensures |s| > 0 && (IsDigit(s[0]) || (|s| >= 2 && s[0] == '-' && IsDigit(s[1])))
    ensures ScanNumber(s) == Scan(Lit(FloatLit(neg, w, f)), |Sign(neg)| + |w| + 1 + |f|)
  {
    var a := |Sign(neg)|;
    var dot := a + |w|;
    assert a == if neg then 1 else 0;
    DigitRunEndIs(s, a, dot);
    DigitRunEndIs(s, dot + 1, dot + 1 + |f|);
  }

  lemma {:induction false} FloatPieces(neg: bool, w: string, f: string, rest: string, s: string)
    requires IsDigitRun(w) && IsDigitRun(f) && s == Sign(neg) + w + "." + f + rest
    requires rest != [] ==> !IsDigit(rest[0])
    ensures var a := |Sign(neg)|; var dot := a + |w|;
      && |s| > dot + |f| && s[dot] == '.' && s[dot + 1] == f[0] && s[a] == w[0]
      && (neg ==> s[0] == '-') && (!neg ==> s[0] == w[0])
      && (forall j :: a <= j < dot ==> IsDigit(s[j]))
      && (forall j :: dot + 1 <= j < dot + 1 + |f| ==> IsDigit(s[j]))
      && (dot + 1 + |f| < |s| ==> !IsDigit(s[dot + 1 + |f|]))
      && s[a..dot] == w && s[dot + 1..dot + 1 + |f|] == f
  {
    var a := |Sign(neg)|;
    var dot := a + |w|;
    assert forall j :: a <= j < dot ==> s[j] == w[j - a];
    assert forall j :: dot + 1 <= j < dot + 1 + |f| ==> s[j] == f[j - dot - 1];
    assert dot + 1 + |f| < |s| ==> s[dot + 1 + |f|] == rest[0];
  }

  /** Every valid token, followed by a newline, is read back as itself with its whole spelling. */
  lemma {:induction false} ReadsSpelling(t: Token, rest: string)
    requires ValidToken(t) && |rest| > 0 && rest[0] == '\n'
    ensures var s := Spell(t) + rest;
      |s| > 0 && !IsSpace(s[0]) && NextToken(s) == Some(Scan(t, |Spell(t)|))
  {
    SpellStart(t);
    assert (Spell(t) + rest)[0] == Spell(t)[0];
    match t
    case Word(n) =>
      NameSpelling(n);
      ReadsWord(n.text, rest);
    case Kw(k) =>
      KeywordSpelling(k);
      ReadsWord(KeywordText(k), rest);
    case Sym(p) =>
      ReadsSym(p, rest);
    case Lit(l) =>
      ReadsLiteral(l, rest);
    case LineComment(x) =>
      ReadsComment(x, rest);
  }

  lemma {:induction false} ReadsLiteral(l: Literal, rest: string)
    requires ValidToken(Lit(l)) && |rest| > 0 && rest[0] == '\n'
    ensures NextToken(Spell(Lit(l)) + rest) == Some(Scan(Lit(l), |Spell(Lit(l))|))
  {
    match l
    case CharLit(c) =>
      ReadsChar(c, rest);
    case StrLit(x) =>
      ReadsString(x, rest);
    case BoolLit(b) =>
      ReadsWord(if b then "true" else "false", rest);
    case IntLit(neg, d) =>
      ReadsInt(neg, d, rest);
    case FloatLit(neg, w, f) =>
      ReadsFloat(neg, w, f, rest);
      assert Sign(neg) + w + "." + f + rest == Spell(Lit(l)) + rest;
  }

  /** The first character of a valid token is not blank. */
  lemma {:induction false} SpellStart(t: Token)
    requires ValidToken(t)
    ensures |Spell(t)| > 0 && !IsSpace(Spell(t)[0])
  {
    match t
    case Word(n) =>
      NameSpelling(n);
    case Kw(k) =>
      KeywordSpelling(k);
    case Sym(p) =>
      PunctReadsBack(p);
      PunctOfShape(PunctText(p));
    case Lit(l) =>
      match l {
        case CharLit(_) =>
        case StrLit(_) =>
        case BoolLit(_) =>
        case IntLit(neg, d) =>
          assert Spell(t)[0] == if neg then '-' else d[0];
        case FloatLit(neg, w, f) =>
          assert Spell(t)[0] == if neg then '-' else w[0];
      }
    case LineComment(_) =>
  }

  // ---- Reading a whole text ----

  /** The lexer reads the token at a non-blank offset and goes on after it. */
  lemma {:induction false} LexToken(s: string, i: nat, t: Token, n: nat, ls: seq<Lexeme>)
    requires i < |s| && !IsSpace(s[i]) && NextToken(s[i..]) == Some(Scan(t, n))
    requires i + n <= |s| && LexFrom(s, i + n) == Success(ls)
    ensures LexFrom(s, i) == Success([Lexeme(i, t)] + ls)
  {
    assert LexFrom(s, i) == LexAfter(s, i, Some(Scan(t, n)));
    AfterToken(s, i, t, n, ls);
  }

  lemma {:induction false} AfterToken(s: string, i: nat, t: Token, n: nat, ls: seq<Lexeme>)
    requires i < |s| && 0 < n && i + n <= |s| && LexFrom(s, i + n) == Success(ls)
    ensures LexAfter(s, i, Some(Scan(t, n))) == Success([Lexeme(i, t)] + ls)
  {
  }

  /** The token written at `i` is the one scanned there, and the newline after it is a blank. */
  lemma {:induction false} WrittenToken(s: string, i: nat, t: Token, rest: string)
    requires ValidToken(t) && i <= |s| && s[i..] == Spell(t) + "\n" + rest
    ensures i + |Spell(t)| < |s| && IsSpace(s[i + |Spell(t)|])
    ensures i < |s| && !IsSpace(s[i]) && NextToken(s[i..]) == Some(Scan(t, |Spell(t)|))
  {
    StepPieces(s, i, t, rest);
    ReadsSpelling(t, "\n" + rest);
  }

  /** A blank is skipped. */
  lemma {:induction false} SkipBlank(s: string, i: nat, ls: seq<Lexeme>)
    requires i < |s| && IsSpace(s[i]) && LexFrom(s, i + 1) == Success(ls)
    ensures LexFrom(s, i) == Success(ls)
  {
  }

  lemma {:induction false} StepPieces(s: string, i: nat, t: Token, rest: string)
    requires ValidToken(t) && i <= |s| && s[i..] == Spell(t) + "\n" + rest
    ensures i + |Spell(t)| + 1 <= |s| && s[i + |Spell(t)| + 1..] == rest
    ensures s[i..] == Spell(t) + ("\n" + rest)
    ensures !IsSpace(s[i]) && s[i + |Spell(t)|] == '\n'
  {
    var n := |Spell(t)|;
    SpellStart(t);
    assert s[i] == s[i..][0] == Spell(t)[0];
    assert s[i + n] == s[i..][n];
    assert s[i + n + 1..] == s[i..][n + 1..];
  }

  /**
   * Valid tokens written out one per line are read back as exactly those
   * tokens, each at the offset where it was written.
   */
  lemma {:induction false} LexReadsUnlex(s: string, i: nat, ts: seq<Token>)
    requires AllValid(ts) && i <= |s| && s[i..] == Unlex(ts)
    ensures LexFrom(s, i).Success? && TokensOf(LexFrom(s, i).value) == ts
    decreases |ts|
  {
    if ts == [] {
      assert i == |s|;
    } else {
      var j := i + |Spell(ts[0])| + 1;
      StepPieces(s, i, ts[0], Unlex(ts[1..]));
      LexReadsUnlex(s, j, ts[1..]);
      var rest := LexFrom(s, j).value;
      WrittenToken(s, i, ts[0], Unlex(ts[1..]));
      SkipBlank(s, j - 1, rest);
      LexToken(s, i, ts[0], |Spell(ts[0])|, rest);
      assert TokensOf([Lexeme(i, ts[0])] + rest) == [ts[0]] + TokensOf(rest) by {
        assert ([Lexeme(i, ts[0])] + rest)[1..] == rest;
      }
    }
  }

  /** The whole text: `Lex` reads back the tokens it was written from. */
  lemma {:induction false} LexUnlex(ts: seq<Token>)
    requires AllValid(ts)
    ensures Lex(Unlex(ts)).Success? && TokensOf(Lex(Unlex(ts)).value) == ts
  {
    LexReadsUnlex(Unlex(ts), 0, ts);
  }

  /** Comments are extras: the parser sees every other token, in order. */
  lemma {:induction false} SignificantDropsComments(ls: seq<Lexeme>)
    ensures Significant(ls) == NonComments(TokensOf(ls))
    ensures DocComments(ls) == DocsOf(TokensOf(ls))
  {
    if ls != [] {
      SignificantDropsComments(ls[1..]);
      assert TokensOf(ls)[1..] == TokensOf(ls[1..]);
    }
  }

  /**
   * The doc markers after `//`: `!` or a single `/` make the rest of the line
   * documentation, a second `/` (four slashes in all) makes it a plain comment.
   */
  lemma {:induction false} DocMarkers(x: string)
    ensures DocPayload("!" + x) == Some(x)
    ensures (x == [] || x[0] != '/') <==> DocPayload("/" + x) == Some(x)
    ensures DocPayload("//" + x) == None
    ensures (x == [] || (x[0] != '!' && x[0] != '/')) ==> DocPayload(x) == None
  {
    assert ("!" + x)[1..] == x;
    assert ("/" + x)[1..] == x;
  }

  // ---- Literal shapes ----

  /**
   * `0..10`: a dot followed by a second dot cannot belong to a float, so two
   * digit runs around `..` are two integers and a range operator.
   */
  lemma {:induction false} IntegerRange(d1: string, d2: string)
    requires IsDigitRun(d1) && IsDigitRun(d2)
    ensures Lex(d1 + ".." + d2)
         == Success([Lexeme(0, Lit(IntLit(false, d1))), Lexeme(|d1|, Sym(DotDot)), Lexeme(|d1| + 2, Lit(IntLit(false, d2)))])
  {
    var s := d1 + ".." + d2;
    var k := |d1|;
    var third := [Lexeme(k + 2, Lit(IntLit(false, d2)))];
    assert s[k..] == ".." + d2;
    LexDotDotInteger(s, k, d2);
    assert [Lexeme(k, Sym(DotDot)), Lexeme(k + 2, Lit(IntLit(false, d2)))] == [Lexeme(k, Sym(DotDot))] + third;
    LexFirstInteger(s, d1, ".." + d2, [Lexeme(k, Sym(DotDot))] + third);
    assert [Lexeme(0, Lit(IntLit(false, d1)))] + ([Lexeme(k, Sym(DotDot))] + third)
        == [Lexeme(0, Lit(IntLit(false, d1))), Lexeme(k, Sym(DotDot)), Lexeme(k + 2, Lit(IntLit(false, d2)))];
  }

  /** A digit run at the start of the text, before something that does not continue it. */
  lemma {:induction false} LexFirstInteger(s: string, d: string, rest: string, ls: seq<Lexeme>)
    requires IsDigitRun(d) && s == d + rest
    requires rest != [] ==> !IsDigit(rest[0]) && !(rest[0] == '.' && |rest| > 1 && IsDigit(rest[1]))
    requires LexFrom(s, |d|) == Success(ls)
    ensures Lex(s) == Success([Lexeme(0, Lit(IntLit(false, d)))] + ls)
  {
    IntegerAtStart(s, d, rest);
    LexToken(s, 0, Lit(IntLit(false, d)), |d|, ls);
  }

  lemma {:induction false} IntegerAtStart(s: string, d: string, rest: string)
    requires IsDigitRun(d) && s == d + rest
    requires rest != [] ==> !IsDigit(rest[0]) && !(rest[0] == '.' && |rest| > 1 && IsDigit(rest[1]))
    ensures 0 < |d| <= |s| && !IsSpace(s[0]) && NextToken(s[0..]) == Some(Scan(Lit(IntLit(false, d)), |d|))
  {
    assert s[0..] == Sign(false) + d + rest;
    assert s[0] == d[0];
    ReadsInt(false, d, rest);
  }

  /** `..` then a digit run that ends the text. */
  lemma {:induction false} LexDotDotInteger(s: string, k: nat, d: string)
    requires IsDigitRun(d) && k <= |s| && s[k..] == ".." + d
    ensures LexFrom(s, k) == Success([Lexeme(k, Sym(DotDot)), Lexeme(k + 2, Lit(IntLit(false, d)))])
  {
    var third := [Lexeme(k + 2, Lit(IntLit(false, d)))];
    assert s[k + 2..] == d;
    LexLastInteger(s, k + 2, d);
    DotDotBeforeDigit(s[k..]);
    LexToken(s, k, Sym(DotDot), 2, third);
    assert [Lexeme(k, Sym(DotDot))] + third == [Lexeme(k, Sym(DotDot)), Lexeme(k + 2, Lit(IntLit(false, d)))];
  }

  /** A digit run that ends the text is its last token, an integer. */
  lemma {:induction false} LexLastInteger(s: string, i: nat, d: string)
    requires IsDigitRun(d) && i <= |s| && s[i..] == d
    ensures LexFrom(s, i) == Success([Lexeme(i, Lit(IntLit(false, d)))])
  {
    assert s[i..] == Sign(false) + d + "";
    assert s[i] == d[0];
    assert |Sign(false)| == 0 && i + |d| == |s|;
    ReadsInt(false, d, "");
    assert LexFrom(s, i + |d|) == Success([]);
    LexToken(s, i, Lit(IntLit(false, d)), |d|, []);
    assert [Lexeme(i, Lit(IntLit(false, d)))] + [] == [Lexeme(i, Lit(IntLit(false, d)))];
  }

  /** Two dots before a digit are the range operator, not the start of a float. */
  lemma {:induction false} DotDotBeforeDigit(s: string)
    requires |s| >= 3 && s[0] == '.' && s[1] == '.' && IsDigit(s[2])
    ensures NextToken(s) == Some(Scan(Sym(DotDot), 2))
  {
    assert s[..3] == ['.', '.', s[2]];
    assert s[..2] == "..";
  }

  /** A digit run, a dot and a digit run is one float literal. */
  lemma {:induction false} FloatWhole(w: string, f: string)
    requires IsDigitRun(w) && IsDigitRun(f)
    ensures Lex(w + "." + f) == Success([Lexeme(0, Lit(FloatLit(false, w, f)))])
  {
    var s := w + "." + f;
    assert s[0..] == Sign(false) + w + "." + f + "";
    assert s[0] == w[0];
    ReadsFloat(false, w, f, "");
    assert |Sign(false)| == 0;
    assert LexFrom(s, |s|) == Success([]);
    LexToken(s, 0, Lit(FloatLit(false, w, f)), |s|, []);
    assert [Lexeme(0, Lit(FloatLit(false, w, f)))] + [] == [Lexeme(0, Lit(FloatLit(false, w, f)))];
  }
}

=== FILE: list_props.dfy ===
/**
 * Properties of the `sep`/`sep1` lists: one or more elements separated by
 * a separator with an optional trailing one, or nothing at all, always
 * followed by the token that closes the list.  They are stated once for
 * every kind of element and then for each form built on a list: blocks,
 * `struct_def`, `union_def`, `enum_def`, and the three initializers.
 */
module ListProps {

  import opened Wrappers
  import opened Tokens
  import opened Ast
  import opened Precedence
  import opened Parser
  import opened ParserProps
  import opened FormProps
  import opened DeclProps

  /** The tokens that separate or close a list. */
  predicate Closer(c: Punct) {
    c == Comma || c == Semi || c == RParen || c == RBrace || c == RBracket
  }

  predicate ClosesAt(ts: seq<Token>, q: nat) {
    q < |ts| && ts[q].Sym? && Closer(ts[q].punct)
  }

  /** No operator continues across a separator or a closing token. */
  lemma {:induction false} CloserFollows(ts: seq<Token>, q: nat, m: nat)
    requires ClosesAt(ts, q)
    ensures FollowOk(ts, q, m)
  {
  }

  /** Every well-bracketed operand binds at least as tightly as `assign`. */
  lemma {:induction false} LevelAtLeastAssign(e: Expr)
    ensures Level(e) >= ASSIGN
  {
    if IsBinaryNode(e) {
      var op := NodeOp(e);
      match op
      case BinaryInfix(o) => assert BinOpPower(o) >= BINOP_OR;
      case AssignInfix =>
      case CompoundInfix(_) =>
    }
  }

  /** The tokens of one list element. */
  function ItemTokens(it: Item): seq<Token> {
    match it
    case ExprItem(e) => Print(e)
    case ArgItem(Positional(v)) => Print(v)
    case ArgItem(Named(n, v)) => [Word(n), Sym(Punct.Eq)] + Print(v)
    case DeclItem(d) => DeclTokens(d)
    case VariantItem(Variant(n, None)) => [Word(n)]
    case VariantItem(Variant(n, Some(ty))) => [Word(n), Sym(LParen)] + Print(ty) + [Sym(RParen)]
  }

  /** Tokens that begin `name =`, which an argument list reads as a named argument. */
  predicate NamedShape(ts: seq<Token>) {
    |ts| >= 2 && ts[0].Word? && ts[1] == Sym(Punct.Eq)
  }

  /**
   * An element of kind `k` whose operands are read back whole.  A
   * positional argument must not itself look like `name = ...`.
   */
  predicate ItemOk(it: Item, k: ListKind) {
    && HasKind(it, k)
    && match it
       case ExprItem(e) => WellBracketed(e)
       case ArgItem(Positional(v)) => WellBracketed(v) && !NamedShape(Print(v))
       case ArgItem(Named(_, v)) => WellBracketed(v)
       case DeclItem(d) => FormOk(d.form)
       case VariantItem(Variant(_, ty)) => ty.Some? ==> WellBracketed(ty.value)
  }

  predicate ItemsOk(items: seq<Item>, k: ListKind) {
    forall i :: 0 <= i < |items| ==> ItemOk(items[i], k)
  }

  /** An element never begins with a separator or a closing token. */
  lemma {:induction false} ItemStart(it: Item, k: ListKind)
    requires ItemOk(it, k)
    ensures |ItemTokens(it)| >= 1
    ensures !(ItemTokens(it)[0].Sym? && Closer(ItemTokens(it)[0].punct))
  {
    match it
    case ExprItem(e) => PrintStartsOperand(e);
    case ArgItem(Positional(v)) => PrintStartsOperand(v);
    case ArgItem(Named(_, _)) =>
    case DeclItem(d) =>
      assert DeclTokens(d)[0] == (if d.modifiers == [] then Word(d.name) else Kw(ModifierKeyword(d.modifiers[0])));
    case VariantItem(_) =>
  }

  /** Each element is read back whole when a separator or a closing token follows it. */
  lemma {:induction false} ParsesItem(ts: seq<Token>, p: nat, it: Item, k: ListKind)
    requires ItemOk(it, k) && Occurs(ts, p, ItemTokens(it)) && ClosesAt(ts, p + |ItemTokens(it)|)
    ensures ParseItem(ts, p, k) == Ok(it, p + |ItemTokens(it)|)
  {
    match it
    case ExprItem(e) =>
      ParsesExprItem(ts, p, e);
    case ArgItem(Positional(v)) =>
      ParsesPositional(ts, p, v);
    case ArgItem(Named(n, v)) =>
      ParsesNamed(ts, p, n, v);
    case DeclItem(d) =>
      ParsesDeclItem(ts, p, d);
    case VariantItem(Variant(n, None)) =>
      ParsesBareVariant(ts, p, n);
    case VariantItem(Variant(n, Some(ty))) =>
      ParsesVariant(ts, p, n, ty);
  }

  lemma {:induction false} ParsesExprItem(ts: seq<Token>, p: nat, e: Expr)
    requires WellBracketed(e) && Occurs(ts, p, Print(e)) && ClosesAt(ts, p + |Print(e)|)
    ensures ParseItem(ts, p, Exprs) == Ok(ExprItem(e), p + |Print(e)|)
  {
    CloserFollows(ts, p + |Print(e)|, MIN);
    ParsesPrinted(ts, p, e, MIN);
  }

  lemma {:induction false} ParsesDeclItem(ts: seq<Token>, p: nat, d: VarDecl)
    requires FormOk(d.form) && Occurs(ts, p, DeclTokens(d)) && ClosesAt(ts, p + |DeclTokens(d)|)
    ensures ParseItem(ts, p, Decls) == Ok(DeclItem(d), p + |DeclTokens(d)|)
  {
    CloserFollows(ts, p + |DeclTokens(d)|, FormFollow(d.form));
    ReadsDecl(ts, p, d);
  }

  lemma {:induction false} ParsesBareVariant(ts: seq<Token>, p: nat, n: Name)
    requires Occurs(ts, p, [Word(n)]) && ClosesAt(ts, p + 1)
    ensures ParseItem(ts, p, Variants) == Ok(VariantItem(Variant(n, None)), p + 1)
  {
    OccursAt(ts, p, [Word(n)], 0);
  }

  lemma {:induction false} ParsesPositional(ts: seq<Token>, p: nat, v: Expr)
    requires WellBracketed(v) && !NamedShape(Print(v))
    requires Occurs(ts, p, Print(v)) && ClosesAt(ts, p + |Print(v)|)
    ensures ParseItem(ts, p, Args) == Ok(ArgItem(Positional(v)), p + |Print(v)|)
  {
    PositionalStart(ts, p, v);
    CloserFollows(ts, p + |Print(v)|, MIN);
    ParsesPrinted(ts, p, v, MIN);
    PositionalRead(ts, p, v, p + |Print(v)|);
  }

  lemma {:induction false} PositionalStart(ts: seq<Token>, p: nat, v: Expr)
    requires WellBracketed(v) && !NamedShape(Print(v)) && Occurs(ts, p, Print(v)) && ClosesAt(ts, p + |Print(v)|)
    ensures !(p + 1 < |ts| && ts[p].Word? && ts[p + 1] == Sym(Punct.Eq))
  {
    PrintStartsOperand(v);
    OccursAt(ts, p, Print(v), 0);
    if |Print(v)| >= 2 {
      OccursAt(ts, p, Print(v), 1);
    }
  }

  lemma {:induction false} PositionalRead(ts: seq<Token>, p: nat, v: Expr, q: nat)
    requires p <= |ts| && !(p + 1 < |ts| && ts[p].Word? && ts[p + 1] == Sym(Punct.Eq))
    requires ParseExpr(ts, p, MIN) == Ok(v, q)
    ensures ParseItem(ts, p, Args) == Ok(ArgItem(Positional(v)), q)
  {
  }

  lemma {:induction false} ParsesNamed(ts: seq<Token>, p: nat, n: Name, v: Expr)
    requires WellBracketed(v)
    requires Occurs(ts, p, [Word(n), Sym(Punct.Eq)] + Print(v)) && ClosesAt(ts, p + 2 + |Print(v)|)
    ensures ParseItem(ts, p, Args) == Ok(ArgItem(Named(n, v)), p + 2 + |Print(v)|)
  {
    var q := p + 2 + |Print(v)|;
    NamedLayout(ts, p, n, v);
    assert ParseExpr(ts, p + 2, NAMED_ARG) == Ok(v, q) by {
      LevelAtLeastAssign(v);
      CloserFollows(ts, q, NAMED_ARG);
      ParsesPrinted(ts, p + 2, v, NAMED_ARG);
    }
    NamedRead(ts, p, n, v, q);
  }

  lemma {:induction false} NamedLayout(ts: seq<Token>, p: nat, n: Name, v: Expr)
    requires Occurs(ts, p, [Word(n), Sym(Punct.Eq)] + Print(v))
    ensures p + 1 < |ts| && ts[p] == Word(n) && ts[p + 1] == Sym(Punct.Eq) && Occurs(ts, p + 2, Print(v))
  {
    OccursSplit(ts, p, [Word(n), Sym(Punct.Eq)], Print(v));
    OccursAt(ts, p, [Word(n), Sym(Punct.Eq)], 0);
    OccursAt(ts, p, [Word(n), Sym(Punct.Eq)], 1);
  }

  lemma {:induction false} NamedRead(ts: seq<Token>, p: nat, n: Name, v: Expr, q: nat)
    requires p + 1 < |ts| && ts[p] == Word(n) && ts[p + 1] == Sym(Punct.Eq)
    requires ParseExpr(ts, p + 2, NAMED_ARG) == Ok(v, q)
    ensures ParseItem(ts, p, Args) == Ok(ArgItem(Named(n, v)), q)
  {
  }

  lemma {:induction false} ParsesVariant(ts: seq<Token>, p: nat, n: Name, ty: Expr)
    requires WellBracketed(ty)
    requires Occurs(ts, p, [Word(n), Sym(LParen)] + Print(ty) + [Sym(RParen)])
    ensures ParseItem(ts, p, Variants) == Ok(VariantItem(Variant(n, Some(ty))), p + 3 + |Print(ty)|)
  {
    var r := VariantLayout(ts, p, n, ty);
    CloserFollows(ts, r, MIN);
    ParsesPrinted(ts, p + 2, ty, MIN);
    VariantRead(ts, p, n, ty, r);
  }

  lemma {:induction false} VariantLayout(ts: seq<Token>, p: nat, n: Name, ty: Expr) returns (r: nat)
    requires Occurs(ts, p, [Word(n), Sym(LParen)] + Print(ty) + [Sym(RParen)])
    ensures r == p + 2 + |Print(ty)| && r < |ts| && ClosesAt(ts, r) && ts[r] == Sym(RParen)
    ensures ts[p] == Word(n) && ts[p + 1] == Sym(LParen) && Occurs(ts, p + 2, Print(ty))
  {
    r := p + 2 + |Print(ty)|;
    OccursSplit3(ts, p, [Word(n), Sym(LParen)], Print(ty), [Sym(RParen)]);
    OccursAt(ts, p, [Word(n), Sym(LParen)], 0);
    OccursAt(ts, p, [Word(n), Sym(LParen)], 1);
    OccursAt(ts, r, [Sym(RParen)], 0);
  }

  lemma {:induction false} VariantRead(ts: seq<Token>, p: nat, n: Name, ty: Expr, r: nat)
    requires r < |ts| && p + 1 < |ts| && ts[p] == Word(n) && ts[p + 1] == Sym(LParen) && ts[r] == Sym(RParen)
    requires ParseExpr(ts, p + 2, MIN) == Ok(ty, r)
    ensures ParseItem(ts, p, Variants) == Ok(VariantItem(Variant(n, Some(ty))), r + 1)
  {
  }

  /**
   * The tokens of a list and its closing token: the elements separated by
   * `s`, with one more `s` after the last when `trailing` holds.
   */
  function ListTokens(items: seq<Item>, s: Punct, close: Punct, trailing: bool): seq<Token>
    decreases |items|, 1
  {
    if items == [] then [Sym(close)] else ItemTokens(items[0]) + ListTail(items, s, close, trailing)
  }

  /** What follows the first element of a non-empty list. */
  function ListTail(items: seq<Item>, s: Punct, close: Punct, trailing: bool): seq<Token>
    requires items != []
    decreases |items|, 0
  {
    if |items| == 1 then (if trailing then [Sym(s), Sym(close)] else [Sym(close)])
    else [Sym(s)] + ListTokens(items[1..], s, close, trailing)
  }

  /** `sep1(s, r)`: a non-empty list is read back element by element. */
  lemma {:induction false} ParsesSep1(ts: seq<Token>, p: nat, items: seq<Item>, k: ListKind, s: Punct, close: Punct, trailing: bool)
    requires items != [] && ItemsOk(items, k)
    requires Closer(s) && Closer(close) && s != close
    requires Occurs(ts, p, ListTokens(items, s, close, trailing))
    ensures ParseSep1(ts, p, k, s, close) == Ok(items, p + |ListTokens(items, s, close, trailing)|)
    decreases |items|, 1
  {
    if |items| == 1 {
      Sep1Single(ts, p, items, k, s, close, trailing);
    } else {
      Sep1More(ts, p, items, k, s, close, trailing);
    }
  }

  lemma {:induction false} Sep1More(ts: seq<Token>, p: nat, items: seq<Item>, k: ListKind, s: Punct, close: Punct, trailing: bool)
    requires |items| > 1 && ItemsOk(items, k)
    requires Closer(s) && Closer(close) && s != close
    requires Occurs(ts, p, ListTokens(items, s, close, trailing))
    ensures ParseSep1(ts, p, k, s, close) == Ok(items, p + |ListTokens(items, s, close, trailing)|)
    decreases |items|, 0
  {
    var q := p + |ItemTokens(items[0])|;
    ItemsTail(items, k);
    SecondStarts(items, k, close);
    Sep1Layout(ts, p, items, s, close, trailing, q);
    ParsesSep1(ts, q + 1, items[1..], k, s, close, trailing);
    var next := q + 1 + |ListTokens(items[1..], s, close, trailing)|;
    Sep1Read(ts, p, items, k, s, close, q, next);
  }

  lemma {:induction false} ItemsTail(items: seq<Item>, k: ListKind)
    requires items != [] && ItemsOk(items, k)
    ensures ItemOk(items[0], k) && ItemsOk(items[1..], k)
  {
    assert forall i :: 0 <= i < |items| - 1 ==> items[1..][i] == items[i + 1];
  }

  lemma {:induction false} Sep1Single(ts: seq<Token>, p: nat, items: seq<Item>, k: ListKind, s: Punct, close: Punct, trailing: bool)
    requires |items| == 1 && ItemsOk(items, k)
    requires Closer(s) && Closer(close) && s != close
    requires Occurs(ts, p, ListTokens(items, s, close, trailing))
    ensures ParseSep1(ts, p, k, s, close) == Ok(items, p + |ListTokens(items, s, close, trailing)|)
  {
    var q := ListHead(ts, p, items, s, close, trailing);
    SingleTail(ts, q, s, close, trailing);
    ParsesItem(ts, p, items[0], k);
    assert [items[0]] == items;
    Sep1Last(ts, p, k, s, close, items, q, trailing);
  }

  /** The second element of a list does not start with its closing token. */
  lemma {:induction false} SecondStarts(items: seq<Item>, k: ListKind, close: Punct)
    requires |items| > 1 && ItemsOk(items, k) && Closer(close)
    ensures |ItemTokens(items[1])| >= 1 && ItemTokens(items[1])[0] != Sym(close)
  {
    ItemStart(items[1], k);
  }

  /** The first element of a longer list, and where the rest starts after a separator. */
  lemma {:induction false} Sep1Layout(ts: seq<Token>, p: nat, items: seq<Item>, s: Punct, close: Punct, trailing: bool, q: nat)
    requires |items| > 1 && |ItemTokens(items[1])| >= 1 && ItemTokens(items[1])[0] != Sym(close)
    requires Closer(s) && Closer(close) && s != close
    requires Occurs(ts, p, ListTokens(items, s, close, trailing)) && q == p + |ItemTokens(items[0])|
    ensures Occurs(ts, p, ItemTokens(items[0])) && ClosesAt(ts, q)
    ensures q + 1 < |ts| && ts[q] == Sym(s) && ts[q + 1] != Sym(close)
    ensures p + |ListTokens(items, s, close, trailing)| == q + 1 + |ListTokens(items[1..], s, close, trailing)|
    ensures Occurs(ts, q + 1, ListTokens(items[1..], s, close, trailing))
  {
    var q' := ListHead(ts, p, items, s, close, trailing);
    TailRest(ts, q, items, s, close, trailing);
    assert q + 1 < |ts| && ts[q + 1] == ItemTokens(items[1])[0] by {
      assert items[1..][0] == items[1];
      OccursAt(ts, q + 1, ListTokens(items[1..], s, close, trailing), 0);
    }
    assert ClosesAt(ts, q);
  }

  /** An element, a separator that does not close the list, and the rest of a `sep1` list. */
  lemma {:induction false} Sep1Read(ts: seq<Token>, p: nat, items: seq<Item>, k: ListKind, s: Punct, close: Punct, q: nat, next: nat)
    requires items != [] && ItemOk(items[0], k) && Closer(s) && s != close
    requires Occurs(ts, p, ItemTokens(items[0])) && q == p + |ItemTokens(items[0])|
    requires q + 1 < |ts| && ts[q] == Sym(s) && ts[q + 1] != Sym(close)
    requires ParseSep1(ts, q + 1, k, s, close) == Ok(items[1..], next)
    ensures ParseSep1(ts, p, k, s, close) == Ok(items, next)
  {
    ParsesItem(ts, p, items[0], k);
    assert [items[0]] + items[1..] == items;
    Sep1Cons(ts, p, k, s, close, items, q, next);
  }

  /** Where the first element of a list of two or more ends, and where the rest begins. */
  lemma {:induction false} TailRest(ts: seq<Token>, q: nat, items: seq<Item>, s: Punct, close: Punct, trailing: bool)
    requires |items| > 1 && Occurs(ts, q, ListTail(items, s, close, trailing))
    ensures q < |ts| && ts[q] == Sym(s) && Occurs(ts, q + 1, ListTokens(items[1..], s, close, trailing))
    ensures |ListTail(items, s, close, trailing)| == 1 + |ListTokens(items[1..], s, close, trailing)|
  {
    assert ListTail(items, s, close, trailing) == [Sym(s)] + ListTokens(items[1..], s, close, trailing);
    OccursSplit(ts, q, [Sym(s)], ListTokens(items[1..], s, close, trailing));
    OccursAt(ts, q, [Sym(s)], 0);
  }

  /** Where the first element of a non-empty list ends. */
  lemma {:induction false} ListHead(ts: seq<Token>, p: nat, items: seq<Item>, s: Punct, close: Punct, trailing: bool) returns (q: nat)
    requires items != [] && Occurs(ts, p, ListTokens(items, s, close, trailing))
    ensures q == p + |ItemTokens(items[0])| && Occurs(ts, p, ItemTokens(items[0]))
    ensures Occurs(ts, q, ListTail(items, s, close, trailing))
    ensures p + |ListTokens(items, s, close, trailing)| == q + |ListTail(items, s, close, trailing)|
  {
    q := p + |ItemTokens(items[0])|;
    OccursSplit(ts, p, ItemTokens(items[0]), ListTail(items, s, close, trailing));
  }

  /** After the only element: the optional trailing separator and the closing token. */
  lemma {:induction false} SingleTail(ts: seq<Token>, q: nat, s: Punct, close: Punct, trailing: bool)
    requires Occurs(ts, q, if trailing then [Sym(s), Sym(close)] else [Sym(close)])
    ensures ts[q] == (if trailing then Sym(s) else Sym(close))
    ensures trailing ==> ts[q + 1] == Sym(close)
  {
    OccursAt(ts, q, if trailing then [Sym(s), Sym(close)] else [Sym(close)], 0);
    if trailing {
      OccursAt(ts, q, [Sym(s), Sym(close)], 1);
    }
  }

  /** A non-empty list does not begin with its closing token. */
  lemma {:induction false} ListStart(ts: seq<Token>, p: nat, items: seq<Item>, k: ListKind, s: Punct, close: Punct, trailing: bool)
    requires items != [] && ItemsOk(items, k) && Closer(close)
    requires Occurs(ts, p, ListTokens(items, s, close, trailing))
    ensures p < |ts| && ts[p] != Sym(close)
  {
    ItemStart(items[0], k);
    OccursAt(ts, p, ListTokens(items, s, close, trailing), 0);
  }

  lemma {:induction false} Sep1Cons(ts: seq<Token>, p: nat, k: ListKind, s: Punct, close: Punct, items: seq<Item>, q: nat, next: nat)
    requires p <= |ts| && s != close && items != []
    requires ParseItem(ts, p, k) == Ok(items[0], q) && q + 1 < |ts| && ts[q] == Sym(s) && ts[q + 1] != Sym(close)
    requires ParseSep1(ts, q + 1, k, s, close) == Ok(items[1..], next) && [items[0]] + items[1..] == items
    ensures ParseSep1(ts, p, k, s, close) == Ok(items, next)
  {
  }

  /** A single element, then the closing token, optionally after a separator. */
  lemma {:induction false} Sep1Last(ts: seq<Token>, p: nat, k: ListKind, s: Punct, close: Punct, items: seq<Item>, q: nat, trailing: bool)
    requires p <= |ts| && s != close && |items| == 1
    requires ParseItem(ts, p, k) == Ok(items[0], q) && [items[0]] == items
    requires q < |ts| && ts[q] == (if trailing then Sym(s) else Sym(close))
    requires trailing ==> q + 1 < |ts| && ts[q + 1] == Sym(close)
    ensures ParseSep1(ts, p, k, s, close) == Ok(items, if trailing then q + 2 else q + 1)
  {
  }

  /** `sep(s, r)`: nothing, or a `sep1` list; either way up to its closing token. */
  lemma {:induction false} ParsesSep(ts: seq<Token>, p: nat, items: seq<Item>, k: ListKind, s: Punct, close: Punct, trailing: bool)
    requires ItemsOk(items, k) && Closer(s) && Closer(close) && s != close
    requires Occurs(ts, p, ListTokens(items, s, close, trailing))
    ensures ParseSep(ts, p, k, s, close) == Ok(items, p + |ListTokens(items, s, close, trailing)|)
  {
    if items == [] {
      OccursAt(ts, p, [Sym(close)], 0);
    } else {
      ListStart(ts, p, items, k, s, close, trailing);
      ParsesSep1(ts, p, items, k, s, close, trailing);
    }
  }

  /** Two separators in a row are rejected: `sep1` needs an element after each one that is not the last. */
  lemma {:induction false} DoubledSeparatorRejected(it: Item, k: ListKind, s: Punct, close: Punct)
    requires ItemOk(it, k) && Closer(s) && Closer(close) && s != close
    ensures ParseSep(ItemTokens(it) + [Sym(s), Sym(s), Sym(close)], 0, k, s, close).Fail?
  {
    var ts := ItemTokens(it) + [Sym(s), Sym(s), Sym(close)];
    var q := |ItemTokens(it)|;
    assert Occurs(ts, 0, ItemTokens(it)) && ts[q] == Sym(s) && ts[q + 1] == Sym(s);
    ItemStart(it, k);
    assert ts[0] == ItemTokens(it)[0];
    ParsesItem(ts, 0, it, k);
    Sep1FailsOnDouble(ts, 0, k, s, close, it, q);
  }

  lemma {:induction false} Sep1FailsOnDouble(ts: seq<Token>, p: nat, k: ListKind, s: Punct, close: Punct, it: Item, q: nat)
    requires p < |ts| && ts[p] != Sym(close) && Closer(s) && s != close
    requires ParseItem(ts, p, k) == Ok(it, q) && q + 1 < |ts| && ts[q] == Sym(s) && ts[q + 1] == Sym(s)
    ensures ParseSep(ts, p, k, s, close).Fail?
  {
    ItemFailsOnCloser(ts, q + 1, k);
    Sep1FailsOnItem(ts, q + 1, k, s, close);
    Sep1ConsFails(ts, p, k, s, close, it, q);
  }

  lemma {:induction false} Sep1FailsOnItem(ts: seq<Token>, p: nat, k: ListKind, s: Punct, close: Punct)
    requires p <= |ts| && ParseItem(ts, p, k).Fail?
    ensures ParseSep1(ts, p, k, s, close).Fail?
  {
  }

  lemma {:induction false} Sep1ConsFails(ts: seq<Token>, p: nat, k: ListKind, s: Punct, close: Punct, it: Item, q: nat)
    requires p <= |ts| && s != close
    requires ParseItem(ts, p, k) == Ok(it, q) && q + 1 < |ts| && ts[q] == Sym(s) && ts[q + 1] != Sym(close)
    requires ParseSep1(ts, q + 1, k, s, close).Fail?
    ensures ParseSep1(ts, p, k, s, close).Fail?
  {
  }

  /** No element starts with a separator or a closing token. */
  lemma {:induction false} ItemFailsOnCloser(ts: seq<Token>, p: nat, k: ListKind)
    requires ClosesAt(ts, p)
    ensures ParseItem(ts, p, k).Fail?
  {
    assert ParsePrefix(ts, p).Fail?;
    match k
    case Exprs =>
    case Args =>
    case Decls => ModifiersNone(ts, p);
    case Variants =>
  }
}

=== FILE: operand_props.dfy ===
/**
 * Properties of `range`, of a signed number literal met after an operand,
 * and of chains of `dot`, `index` and `postop` suffixes under a `preop`.
 */
module OperandProps {

  import opened Wrappers
  import opened Tokens
  import opened Ast
  import opened Precedence
  import opened Parser
  import opened ParserProps
  import opened FormProps
  import opened ListProps
  import opened ContainerProps
  import opened ControlProps

  // ---- Resuming an infix loop at a lower power ----

  /**
   * Steps an infix loop at power `m2` takes are taken the same way by a
   * loop at a lower power `m1`, which then goes on from where they end.
   */
  lemma {:induction false} InfixResumes(ts: seq<Token>, q: nat, lhs: Expr, s: seq<Step>, m1: nat, m2: nat)
    requires StepsOk(s, m2) && m1 <= m2
    requires Occurs(ts, q, StepsTokens(s)) && FollowOk(ts, q + |StepsTokens(s)|, m2)
    ensures ParseInfix(ts, q, lhs, m1) == ParseInfix(ts, q + |StepsTokens(s)|, Fold(lhs, s), m1)
  {
    ResumesTo(ts, q, lhs, s, m1, m2, q + |StepsTokens(s)|);
  }

  lemma {:induction false} ResumesTo(ts: seq<Token>, q: nat, lhs: Expr, s: seq<Step>, m1: nat, m2: nat, end: nat)
    requires StepsOk(s, m2) && m1 <= m2
    requires Occurs(ts, q, StepsTokens(s)) && end == q + |StepsTokens(s)| && FollowOk(ts, end, m2)
    ensures ParseInfix(ts, q, lhs, m1) == ParseInfix(ts, end, Fold(lhs, s), m1)
    decreases StepsSize(s)
  {
    if s != [] {
      var next := ResumeStep(ts, q, lhs, s, m1, m2);
      ResumesTo(ts, next, Combine(s[0].op, lhs, s[0].rhs), s[1..], m1, m2, end);
    }
  }

  /** The first step of such a spine, taken at the lower power. */
  lemma {:induction false} ResumeStep(ts: seq<Token>, q: nat, lhs: Expr, s: seq<Step>, m1: nat, m2: nat) returns (next: nat)
    requires s != [] && StepsOk(s, m2) && m1 <= m2
    requires Occurs(ts, q, StepsTokens(s)) && FollowOk(ts, q + |StepsTokens(s)|, m2)
    ensures next <= |ts|
    ensures ParseInfix(ts, q, lhs, m1) == ParseInfix(ts, next, Combine(s[0].op, lhs, s[0].rhs), m1)
    ensures Occurs(ts, next, StepsTokens(s[1..])) && StepsOk(s[1..], m2)
    ensures next + |StepsTokens(s[1..])| == q + |StepsTokens(s)|
    ensures StepsSize(s[1..]) < StepsSize(s)
  {
    next := StepLayout(ts, q, s, m2);
    ParsesPrinted(ts, q + 1, s[0].rhs, RhsMin(s[0].op));
    InfixTakes(ts, q, lhs, m1, s[0].op, s[0].rhs, next);
  }

  /** The infix loop applies an operator stronger than its power and goes on after it. */
  lemma {:induction false} InfixApplies(ts: seq<Token>, q: nat, lhs: Expr, m: nat, op: Infix, r: Expr, next: nat)
    requires q < |ts| && InfixOf(ts[q]) == Some(op) && Power(op) > m
    requires ApplyInfix(ts, q, lhs, op) == Ok(r, next)
    ensures ParseInfix(ts, q, lhs, m) == ParseInfix(ts, next, r, m)
  {
  }

  /**
   * A printed tree that binds tighter than `m2`, followed by a token no
   * stronger than `m2`, is read whole by a parse at a lower power `m1`,
   * whose infix loop then continues after it.
   */
  lemma {:induction false} ExprResumes(ts: seq<Token>, p: nat, e: Expr, m1: nat, m2: nat)
    requires WellBracketed(e) && Level(e) > m2 && m1 <= m2
    requires Occurs(ts, p, Print(e)) && FollowOk(ts, p + |Print(e)|, m2)
    ensures ParseExpr(ts, p, m1) == ParseInfix(ts, p + |Print(e)|, e, m1)
  {
    var end := p + |Print(e)|;
    SpineRebuilds(e);
    SpineStepsOk(e, m2);
    SpineResumes(ts, p, Base(e), Steps(e), m1, m2, end);
  }

  lemma {:induction false} SpineResumes(ts: seq<Token>, p: nat, b: Expr, s: seq<Step>, m1: nat, m2: nat, end: nat)
    requires WellBracketed(b) && !IsBinaryNode(b) && StepsOk(s, m2) && (s == [] ==> Level(b) > m2) && m1 <= m2
    requires Occurs(ts, p, Print(b) + StepsTokens(s)) && end == p + |Print(b) + StepsTokens(s)|
    requires FollowOk(ts, end, m2)
    ensures ParseExpr(ts, p, m1) == ParseInfix(ts, end, Fold(b, s), m1)
  {
    var q := BaseThenSteps(ts, p, b, s, m1, m2);
    assert end == q + |StepsTokens(s)|;
    ResumesTo(ts, q, b, s, m1, m2, end);
  }

  /** The bottom operand of a spine is read first, and the infix loop starts after it. */
  lemma {:induction false} BaseThenSteps(ts: seq<Token>, p: nat, b: Expr, s: seq<Step>, m1: nat, m2: nat) returns (q: nat)
    requires WellBracketed(b) && !IsBinaryNode(b) && StepsOk(s, m2) && (s == [] ==> Level(b) > m2)
    requires Occurs(ts, p, Print(b) + StepsTokens(s))
    requires FollowOk(ts, p + |Print(b) + StepsTokens(s)|, m2)
    ensures q == p + |Print(b)| && Occurs(ts, q, StepsTokens(s)) && FollowOk(ts, q + |StepsTokens(s)|, m2)
    ensures ParseExpr(ts, p, m1) == ParseInfix(ts, q, b, m1)
  {
    q := BaseLayout(ts, p, b, s, m2);
    ParsesBase(ts, p, b);
    ParseExprThenInfix(ts, p, m1, b, q);
  }

  lemma {:induction false} BaseLayout(ts: seq<Token>, p: nat, b: Expr, s: seq<Step>, m2: nat) returns (q: nat)
    requires WellBracketed(b) && !IsBinaryNode(b) && StepsOk(s, m2) && (s == [] ==> Level(b) > m2)
    requires Occurs(ts, p, Print(b) + StepsTokens(s))
    requires FollowOk(ts, p + |Print(b) + StepsTokens(s)|, m2)
    ensures q == p + |Print(b)| && Occurs(ts, q, StepsTokens(s)) && FollowOk(ts, q + |StepsTokens(s)|, m2)
    ensures Occurs(ts, p, Print(b)) && FollowOk(ts, q, Level(b) - 1)
  {
    OccursSplit(ts, p, Print(b), StepsTokens(s));
    q := p + |Print(b)|;
    BaseFollow(ts, q, b, s, m2);
  }

  // ---- range ----

  function OptTokens(e: Option<Expr>): seq<Token> {
    if e.Some? then Print(e.value) else []
  }

  function RangeOp(inclusive: bool): Token {
    Sym(if inclusive then DotDotEq else DotDot)
  }

  function RangeTokens(start: Option<Expr>, inclusive: bool, end: Option<Expr>): seq<Token> {
    OptTokens(start) + [RangeOp(inclusive)] + OptTokens(end)
  }

  /** Each bound present binds tighter than `range`. */
  predicate BoundOk(e: Option<Expr>) {
    e.Some? ==> WellBracketed(e.value) && Level(e.value) > RANGE
  }

  /** The end of a range, when present, is read to the end of the tokens. */
  lemma {:induction false} RangeEndReads(ts: seq<Token>, k: nat, start: Option<Expr>, inclusive: bool, end: Option<Expr>)
    requires BoundOk(end)
    requires k < |ts| && Occurs(ts, k + 1, OptTokens(end)) && k + 1 + |OptTokens(end)| == |ts|
    ensures ParseRangeEnd(ts, k, start, inclusive) == Ok(Range(start, inclusive, end), |ts|)
  {
    if end.Some? {
      PrintStartsOperand(end.value);
      OccursAt(ts, k + 1, Print(end.value), 0);
      ParsesPrinted(ts, k + 1, end.value, RANGE);
    }
  }

  /** With a start, the range operator is met by the infix loop after the start. */
  lemma {:induction false} RangeAfterStart(ts: seq<Token>, st: Expr, inclusive: bool, end: Option<Expr>)
    requires BoundOk(Some(st)) && BoundOk(end)
    requires Occurs(ts, 0, Print(st)) && |Print(st)| < |ts| && ts[|Print(st)|] == RangeOp(inclusive)
    requires Occurs(ts, |Print(st)| + 1, OptTokens(end)) && |Print(st)| + 1 + |OptTokens(end)| == |ts|
    ensures ParseExpr(ts, 0, MIN) == Ok(Range(Some(st), inclusive, end), |ts|)
  {
    var k := |Print(st)|;
    ExprResumes(ts, 0, st, MIN, RANGE);
    RangeEndReads(ts, k, Some(st), inclusive, end);
    RangeApplies(ts, k, st, inclusive, Range(Some(st), inclusive, end));
  }

  /** Where the start, the operator and the end of a printed range stand. */
  lemma {:induction false} RangePieces(ts: seq<Token>, st: Expr, inclusive: bool, end: Option<Expr>)
    requires ts == RangeTokens(Some(st), inclusive, end)
    ensures Occurs(ts, 0, Print(st)) && |Print(st)| < |ts| && ts[|Print(st)|] == RangeOp(inclusive)
    ensures Occurs(ts, |Print(st)| + 1, OptTokens(end)) && |Print(st)| + 1 + |OptTokens(end)| == |ts|
  {
    assert ts == Print(st) + [RangeOp(inclusive)] + OptTokens(end) + [] + [];
    Pieces(ts, Print(st), [RangeOp(inclusive)], OptTokens(end), [], []);
    OccursAt(ts, |Print(st)|, [RangeOp(inclusive)], 0);
  }

  lemma {:induction false} RangeApplies(ts: seq<Token>, k: nat, st: Expr, inclusive: bool, r: Expr)
    requires k < |ts| && ts[k] == RangeOp(inclusive)
    requires ParseRangeEnd(ts, k, Some(st), inclusive) == Ok(r, |ts|)
    ensures ParseInfix(ts, k, st, MIN) == ParseInfix(ts, |ts|, r, MIN)
  {
    InfixApplies(ts, k, st, MIN, RangeInfix(inclusive), r, |ts|);
  }

  /** Without a start, the range operator is read as a prefix form. */
  lemma {:induction false} RangeWithoutStart(ts: seq<Token>, inclusive: bool, end: Option<Expr>)
    requires BoundOk(end)
    requires ts == RangeTokens(None, inclusive, end)
    ensures ParsePrefix(ts, 0) == Ok(Range(None, inclusive, end), |ts|)
  {
    assert ts == [RangeOp(inclusive)] + OptTokens(end);
    OccursSplit(ts, 0, [RangeOp(inclusive)], OptTokens(end));
    RangeEndReads(ts, 0, None, inclusive, end);
  }

  /**
   * A printed `range` is read back with both of its optional bounds,
   * whichever are present, and with its kind (`..` or `..=`).
   */
  lemma {:induction false} RangeReadsBack(start: Option<Expr>, inclusive: bool, end: Option<Expr>)
    requires BoundOk(start) && BoundOk(end)
    ensures ParseSource(RangeTokens(start, inclusive, end)) == Success([Range(start, inclusive, end)])
  {
    var ts := RangeTokens(start, inclusive, end);
    if start.Some? {
      RangePieces(ts, start.value, inclusive, end);
      RangeAfterStart(ts, start.value, inclusive, end);
      TopLevelLast(ts, 0, Range(start, inclusive, end), |ts|);
    } else {
      RangeWithoutStart(ts, inclusive, end);
      OperandStatement(ts, Range(start, inclusive, end));
    }
  }

  /** `a..b..c`: a second `..` takes the first range as its start. */
  lemma {:induction false} RangeChainsLeft(a: Name, b: Name, c: Name)
    ensures ParseSource([Word(a), Sym(DotDot), Word(b), Sym(DotDot), Word(c)])
         == Success([Range(Some(Range(Some(NameRef(a)), false, Some(NameRef(b)))), false, Some(NameRef(c)))])
  {
    var ts := [Word(a), Sym(DotDot), Word(b), Sym(DotDot), Word(c)];
    var first := Range(Some(NameRef(a)), false, Some(NameRef(b)));
    var whole := Range(Some(first), false, Some(NameRef(c)));
    ReadsName(ts, 0);
    ParseExprThenInfix(ts, 0, MIN, NameRef(a), 1);
    assert ParseExpr(ts, 2, RANGE) == Ok(NameRef(b), 3) by {
      ReadsName(ts, 2);
      ParseExprThenInfix(ts, 2, RANGE, NameRef(b), 3);
    }
    assert ParseExpr(ts, 4, RANGE) == Ok(NameRef(c), 5) by {
      ReadsName(ts, 4);
      ParseExprThenInfix(ts, 4, RANGE, NameRef(c), 5);
    }
    assert ParseInfix(ts, 1, NameRef(a), MIN) == ParseInfix(ts, 3, first, MIN) by {
      assert ParseRangeEnd(ts, 1, Some(NameRef(a)), false) == Ok(first, 3);
    }
    assert ParseInfix(ts, 3, first, MIN) == Ok(whole, 5) by {
      assert ParseRangeEnd(ts, 3, Some(first), false) == Ok(whole, 5);
    }
    TopLevelLast(ts, 0, whole, 5);
  }

  // ---- A signed number literal after an operand ----

  /**
   * A number literal with a minus sign right after an operand subtracts its
   * magnitude, and operators that bind tighter than `+` after it apply to
   * the magnitude first.
   */
  lemma {:induction false} SignedLiteralSubtracts(lhs: Expr, l: Literal, s: seq<Step>)
    requires WellBracketed(lhs) && Level(lhs) > BINOP_ADD
    requires IsSignedNumber(l) && StepsOk(s, BINOP_ADD)
    ensures ParseSource(Print(lhs) + [Lit(l)] + StepsTokens(s))
         == Success([Binary(Sub, lhs, Fold(Literal(Magnitude(l)), s))])
  {
    var ts := Print(lhs) + [Lit(l)] + StepsTokens(s);
    SignedLayout(ts, lhs, l, s);
    SignedParts(ts, |Print(lhs)|, lhs, l, s);
  }

  lemma {:induction false} SignedLayout(ts: seq<Token>, lhs: Expr, l: Literal, s: seq<Step>)
    requires ts == Print(lhs) + [Lit(l)] + StepsTokens(s)
    ensures var k := |Print(lhs)|;
      && Occurs(ts, 0, Print(lhs)) && k < |ts| && ts[k] == Lit(l)
      && Occurs(ts, k + 1, StepsTokens(s)) && k + 1 + |StepsTokens(s)| == |ts|
  {
    assert ts == Print(lhs) + [Lit(l)] + StepsTokens(s) + [] + [];
    Pieces(ts, Print(lhs), [Lit(l)], StepsTokens(s), [], []);
    OccursAt(ts, |Print(lhs)|, [Lit(l)], 0);
  }

  lemma {:induction false} SignedParts(ts: seq<Token>, k: nat, lhs: Expr, l: Literal, s: seq<Step>)
    requires WellBracketed(lhs) && Level(lhs) > BINOP_ADD
    requires IsSignedNumber(l) && StepsOk(s, BINOP_ADD)
    requires k == |Print(lhs)| && Occurs(ts, 0, Print(lhs)) && k < |ts| && ts[k] == Lit(l)
    requires Occurs(ts, k + 1, StepsTokens(s)) && k + 1 + |StepsTokens(s)| == |ts|
    ensures ParseSource(ts) == Success([Binary(Sub, lhs, Fold(Literal(Magnitude(l)), s))])
  {
    SignedExpr(ts, k, lhs, l, s);
    WholeSource(ts, Binary(Sub, lhs, Fold(Literal(Magnitude(l)), s)));
  }

  lemma {:induction false} SignedExpr(ts: seq<Token>, k: nat, lhs: Expr, l: Literal, s: seq<Step>)
    requires WellBracketed(lhs) && Level(lhs) > BINOP_ADD
    requires IsSignedNumber(l) && StepsOk(s, BINOP_ADD)
    requires k == |Print(lhs)| && Occurs(ts, 0, Print(lhs)) && k < |ts| && ts[k] == Lit(l)
    requires Occurs(ts, k + 1, StepsTokens(s)) && k + 1 + |StepsTokens(s)| == |ts|
    ensures ParseExpr(ts, 0, MIN) == Ok(Binary(Sub, lhs, Fold(Literal(Magnitude(l)), s)), |ts|)
  {
    var rhs := Fold(Literal(Magnitude(l)), s);
    SignedFollows(ts, k, l);
    ExprResumes(ts, 0, lhs, MIN, BINOP_ADD);
    InfixSteps(ts, k + 1, Literal(Magnitude(l)), s, BINOP_ADD);
    SignedApplies(ts, k, lhs, l, rhs);
    InfixStops(ts, |ts|, Binary(Sub, lhs, rhs), MIN);
  }

  /** A signed number ends anything read at `binop_add` or above. */
  lemma {:induction false} SignedFollows(ts: seq<Token>, k: nat, l: Literal)
    requires k < |ts| && ts[k] == Lit(l) && IsSignedNumber(l)
    ensures FollowOk(ts, k, BINOP_ADD)
  {
    assert InfixOf(ts[k]) == Some(SignedLiteral(l));
  }

  lemma {:induction false} SignedApplies(ts: seq<Token>, k: nat, lhs: Expr, l: Literal, rhs: Expr)
    requires k < |ts| && ts[k] == Lit(l) && IsSignedNumber(l)
    requires ParseInfix(ts, k + 1, Literal(Magnitude(l)), BINOP_ADD) == Ok(rhs, |ts|)
    ensures ParseInfix(ts, k, lhs, MIN) == ParseInfix(ts, |ts|, Binary(Sub, lhs, rhs), MIN)
  {
    InfixApplies(ts, k, lhs, MIN, SignedLiteral(l), Binary(Sub, lhs, rhs), |ts|);
  }

  /** `a -1`: the signed literal is read as subtracting one. */
  lemma {:induction false} NameMinusOne(a: Name)
    ensures ParseSource([Word(a), Lit(IntLit(true, "1"))]) == Success([Binary(Sub, NameRef(a), Literal(IntLit(false, "1")))])
  {
    SignedLiteralSubtracts(NameRef(a), IntLit(true, "1"), []);
    assert Print(NameRef(a)) + [Lit(IntLit(true, "1"))] + StepsTokens([]) == [Word(a), Lit(IntLit(true, "1"))];
  }

  // ---- Suffix chains: dot, index, call and postop ----

  /** One suffix an operand can take at `postop` level. */
  datatype Suffix = Member(name: Name) | Post(op: PostOp) | Subscript(idx: Expr) | Invoke(args: seq<Arg>, trailing: bool)

  function SuffixTokens(x: Suffix): seq<Token> {
    match x
    case Member(n) => [Sym(Dot), Word(n)]
    case Post(PostAddrOf) => [Sym(DotAmp)]
    case Post(PostAddrOfMut) => [Sym(DotAmp), Kw(Mut)]
    case Post(Deref) => [Sym(DotStar)]
    case Post(Try) => [Sym(Question)]
    case Subscript(i) => [Sym(LBracket)] + Print(i) + [Sym(RBracket)]
    case Invoke(args, trailing) => [Sym(LParen)] + ListTokens(ArgItems(args), Comma, RParen, trailing)
  }

  function ChainTokens(ss: seq<Suffix>): seq<Token> {
    if ss == [] then [] else SuffixTokens(ss[0]) + ChainTokens(ss[1..])
  }

  /** The node a suffix builds around its operand. */
  function Attach(lhs: Expr, x: Suffix): Expr {
    match x
    case Member(n) => Field(lhs, n)
    case Post(op) => Postfix(op, lhs)
    case Subscript(i) => Index(lhs, i)
    case Invoke(args, _) => Call(lhs, args)
  }

  /** The suffixes applied from the first to the last, each wrapping what came before. */
  function Chain(lhs: Expr, ss: seq<Suffix>): Expr
    decreases |ss|
  {
    if ss == [] then lhs else Chain(Attach(lhs, ss[0]), ss[1..])
  }

  /** The index of `[i]` and the arguments of a call are each read back whole. */
  predicate SuffixOk(x: Suffix) {
    match x
    case Subscript(i) => WellBracketed(i)
    case Invoke(args, _) => ArgsOk(args)
    case _ => true
  }

  predicate SuffixesOk(ss: seq<Suffix>) {
    forall i :: 0 <= i < |ss| ==> SuffixOk(ss[i])
  }

  /** A chain starts with a `postop`-level operator token. */
  lemma {:induction false} ChainStart(ss: seq<Suffix>)
    requires ss != []
    ensures |ChainTokens(ss)| > 0
    ensures var t := ChainTokens(ss)[0];
      t == Sym(Dot) || t == Sym(DotAmp) || t == Sym(DotStar) || t == Sym(Question) || t == Sym(LBracket) || t == Sym(LParen)
  {
    assert ChainTokens(ss) == SuffixTokens(ss[0]) + ChainTokens(ss[1..]);
  }

  /** The infix loop takes one suffix and builds its node. */
  lemma {:induction false} SuffixStep(ts: seq<Token>, q: nat, lhs: Expr, x: Suffix, m: nat)
    requires m < POSTOP && SuffixOk(x)
    requires Occurs(ts, q, SuffixTokens(x))
    requires q + |SuffixTokens(x)| < |ts| ==> !ts[q + |SuffixTokens(x)|].Kw?
    ensures ParseInfix(ts, q, lhs, m) == ParseInfix(ts, q + |SuffixTokens(x)|, Attach(lhs, x), m)
  {
    if x.Invoke? {
      InvokeStep(ts, q, lhs, x.args, x.trailing, m);
    } else {
      OperatorStep(ts, q, lhs, x, m);
    }
  }

  /** A suffix other than a call: `.x`, a postop or `[i]`. */
  lemma {:induction false} OperatorStep(ts: seq<Token>, q: nat, lhs: Expr, x: Suffix, m: nat)
    requires m < POSTOP && !x.Invoke? && (x.Subscript? ==> WellBracketed(x.idx))
    requires Occurs(ts, q, SuffixTokens(x))
    requires q + |SuffixTokens(x)| < |ts| ==> !ts[q + |SuffixTokens(x)|].Kw?
    ensures ParseInfix(ts, q, lhs, m) == ParseInfix(ts, q + |SuffixTokens(x)|, Attach(lhs, x), m)
  {
    match x
    case Member(n) =>
      OccursAt(ts, q, SuffixTokens(x), 0);
      OccursAt(ts, q, SuffixTokens(x), 1);
      MemberApplies(ts, q, lhs, n, m);
    case Post(op) =>
      PostStep(ts, q, lhs, op, m);
    case Subscript(i) =>
      SubscriptStep(ts, q, lhs, i, m);
  }

  /** `(` after an operand reads the whole argument list and calls the operand. */
  lemma {:induction false} InvokeStep(ts: seq<Token>, q: nat, lhs: Expr, args: seq<Arg>, trailing: bool, m: nat)
    requires m < POSTOP && ArgsOk(args) && Occurs(ts, q, SuffixTokens(Invoke(args, trailing)))
    ensures ParseInfix(ts, q, lhs, m) == ParseInfix(ts, q + |SuffixTokens(Invoke(args, trailing))|, Call(lhs, args), m)
  {
    var list := ListTokens(ArgItems(args), Comma, RParen, trailing);
    InvokeLayout(ts, q, args, trailing);
    ArgItemsOk(args);
    ParsesSep(ts, q + 1, ArgItems(args), Args, Comma, RParen, trailing);
    CallStep(ts, q, lhs, m, ArgItems(args), q + 1 + |list|);
    ItemsRoundTrip([], args, [], []);
  }

  lemma {:induction false} InvokeLayout(ts: seq<Token>, q: nat, args: seq<Arg>, trailing: bool)
    requires Occurs(ts, q, SuffixTokens(Invoke(args, trailing)))
    ensures var list := ListTokens(ArgItems(args), Comma, RParen, trailing);
      && q < |ts| && ts[q] == Sym(LParen) && Occurs(ts, q + 1, list)
      && |SuffixTokens(Invoke(args, trailing))| == 1 + |list|
  {
    var list := ListTokens(ArgItems(args), Comma, RParen, trailing);
    assert SuffixTokens(Invoke(args, trailing)) == [Sym(LParen)] + list;
    OccursSplit(ts, q, [Sym(LParen)], list);
    OccursAt(ts, q, [Sym(LParen)], 0);
  }

  lemma {:induction false} ArgItemsOk(args: seq<Arg>)
    requires ArgsOk(args)
    ensures ItemsOk(ArgItems(args), Args)
  {
  }

  lemma {:induction false} PostStep(ts: seq<Token>, q: nat, lhs: Expr, op: PostOp, m: nat)
    requires m < POSTOP && Occurs(ts, q, SuffixTokens(Post(op)))
    requires q + |SuffixTokens(Post(op))| < |ts| ==> !ts[q + |SuffixTokens(Post(op))|].Kw?
    ensures ParseInfix(ts, q, lhs, m) == ParseInfix(ts, q + |SuffixTokens(Post(op))|, Postfix(op, lhs), m)
  {
    PostLayout(ts, q, op);
    if op == PostAddrOfMut {
      PostApplies(ts, q, lhs, m, PostAddrOf, Postfix(op, lhs), q + 2);
    } else {
      PostApplies(ts, q, lhs, m, op, Postfix(op, lhs), q + 1);
    }
  }

  lemma {:induction false} PostLayout(ts: seq<Token>, q: nat, op: PostOp)
    requires Occurs(ts, q, SuffixTokens(Post(op)))
    ensures |SuffixTokens(Post(op))| == (if op == PostAddrOfMut then 2 else 1)
    ensures q < |ts| && ts[q] == SuffixTokens(Post(if op == PostAddrOfMut then PostAddrOf else op))[0]
    ensures op == PostAddrOfMut ==> q + 1 < |ts| && ts[q + 1] == Kw(Mut)
  {
    var xs := SuffixTokens(Post(op));
    OccursAt(ts, q, xs, 0);
    if op == PostAddrOfMut {
      OccursAt(ts, q, xs, 1);
    }
  }

  /** A postfix operator token applies to the operand before it. */
  lemma {:induction false} PostApplies(ts: seq<Token>, q: nat, lhs: Expr, m: nat, op: PostOp, r: Expr, next: nat)
    requires m < POSTOP && op != PostAddrOfMut && q < |ts| && ts[q] == SuffixTokens(Post(op))[0]
    requires r == (if op == PostAddrOf && IsKw(ts, q + 1, Mut) then Postfix(PostAddrOfMut, lhs) else Postfix(op, lhs))
    requires next == (if op == PostAddrOf && IsKw(ts, q + 1, Mut) then q + 2 else q + 1)
    ensures ParseInfix(ts, q, lhs, m) == ParseInfix(ts, next, r, m)
  {
    assert InfixOf(ts[q]) == Some(PostfixInfix(op)) by {
      match op
      case PostAddrOf =>
      case Deref =>
      case Try =>
    }
    InfixApplies(ts, q, lhs, m, PostfixInfix(op), r, next);
  }

  lemma {:induction false} MemberApplies(ts: seq<Token>, q: nat, lhs: Expr, n: Name, m: nat)
    requires m < POSTOP && q + 1 < |ts| && ts[q] == Sym(Dot) && ts[q + 1] == Word(n)
    ensures ParseInfix(ts, q, lhs, m) == ParseInfix(ts, q + 2, Field(lhs, n), m)
  {
    InfixApplies(ts, q, lhs, m, FieldInfix, Field(lhs, n), q + 2);
  }

  lemma {:induction false} SubscriptStep(ts: seq<Token>, q: nat, lhs: Expr, i: Expr, m: nat)
    requires m < POSTOP && WellBracketed(i) && Occurs(ts, q, SuffixTokens(Subscript(i)))
    ensures ParseInfix(ts, q, lhs, m) == ParseInfix(ts, q + |SuffixTokens(Subscript(i))|, Index(lhs, i), m)
  {
    SubscriptTokens(i);
    var close := BracketLayout(ts, q, Sym(LBracket), Print(i), Sym(RBracket));
    SubscriptRead(ts, q, lhs, i, m, close);
  }

  lemma {:induction false} SubscriptTokens(i: Expr)
    ensures SuffixTokens(Subscript(i)) == [Sym(LBracket)] + Print(i) + [Sym(RBracket)]
  {
  }

  lemma {:induction false} SubscriptRead(ts: seq<Token>, q: nat, lhs: Expr, i: Expr, m: nat, close: nat)
    requires m < POSTOP && WellBracketed(i)
    requires close == q + 1 + |Print(i)| && close < |ts| && ts[q] == Sym(LBracket) && ts[close] == Sym(RBracket)
    requires Occurs(ts, q + 1, Print(i))
    ensures ParseInfix(ts, q, lhs, m) == ParseInfix(ts, close + 1, Index(lhs, i), m)
  {
    LevelAtLeastAssign(i);
    CloserFollows(ts, close, MIN);
    ParsesPrinted(ts, q + 1, i, MIN);
    IndexApplies(ts, q, lhs, i, m, close);
  }

  lemma {:induction false} IndexApplies(ts: seq<Token>, q: nat, lhs: Expr, i: Expr, m: nat, close: nat)
    requires m < POSTOP && q < close < |ts| && ts[q] == Sym(LBracket) && ts[close] == Sym(RBracket)
    requires ParseExpr(ts, q + 1, MIN) == Ok(i, close)
    ensures ParseInfix(ts, q, lhs, m) == ParseInfix(ts, close + 1, Index(lhs, i), m)
  {
    assert InfixOf(ts[q]) == Some(IndexInfix);
    InfixApplies(ts, q, lhs, m, IndexInfix, Index(lhs, i), close + 1);
  }

  /** The infix loop below `postop` level takes a whole chain of suffixes, then goes on after it. */
  lemma {:induction false} SuffixLoop(ts: seq<Token>, q: nat, lhs: Expr, ss: seq<Suffix>, m: nat, end: nat)
    requires m < POSTOP && SuffixesOk(ss) && Occurs(ts, q, ChainTokens(ss))
    requires end == q + |ChainTokens(ss)| && (end < |ts| ==> !ts[end].Kw?)
    ensures ParseInfix(ts, q, lhs, m) == ParseInfix(ts, end, Chain(lhs, ss), m)
    decreases |ss|
  {
    if ss == [] {
      assert ChainTokens(ss) == [] && Chain(lhs, ss) == lhs;
    } else {
      var next := ChainSplit(ts, q, ss);
      SuffixLoop(ts, next, Attach(lhs, ss[0]), ss[1..], m, end);
      ChainStep(ts, q, lhs, ss, m, next, end);
    }
  }

  /** The first suffix of a chain, then the rest as the loop reads it. */
  lemma {:induction false} ChainStep(ts: seq<Token>, q: nat, lhs: Expr, ss: seq<Suffix>, m: nat, next: nat, end: nat)
    requires ss != [] && m < POSTOP && SuffixOk(ss[0])
    requires next == q + |SuffixTokens(ss[0])| && Occurs(ts, q, SuffixTokens(ss[0]))
    requires (next < |ts| ==> !ts[next].Kw?) && end <= |ts|
    requires ParseInfix(ts, next, Attach(lhs, ss[0]), m) == ParseInfix(ts, end, Chain(Attach(lhs, ss[0]), ss[1..]), m)
    ensures ParseInfix(ts, q, lhs, m) == ParseInfix(ts, end, Chain(lhs, ss), m)
  {
    SuffixStep(ts, q, lhs, ss[0], m);
  }

  /** A chain splits into its first suffix and the rest, which starts with no keyword. */
  lemma {:induction false} ChainSplit(ts: seq<Token>, q: nat, ss: seq<Suffix>) returns (next: nat)
    requires ss != [] && SuffixesOk(ss) && Occurs(ts, q, ChainTokens(ss))
    requires q + |ChainTokens(ss)| < |ts| ==> !ts[q + |ChainTokens(ss)|].Kw?
    ensures next == q + |SuffixTokens(ss[0])| && Occurs(ts, q, SuffixTokens(ss[0]))
    ensures next < |ts| ==> !ts[next].Kw?
    ensures SuffixOk(ss[0]) && SuffixesOk(ss[1..]) && Occurs(ts, next, ChainTokens(ss[1..]))
    ensures next + |ChainTokens(ss[1..])| == q + |ChainTokens(ss)|
  {
    var head, rest := SuffixTokens(ss[0]), ChainTokens(ss[1..]);
    next := q + |head|;
    SuffixesTail(ss);
    assert ChainTokens(ss) == head + rest;
    OccursSplit(ts, q, head, rest);
    if ss[1..] != [] {
      ChainStart(ss[1..]);
      OccursAt(ts, next, rest, 0);
    } else {
      assert rest == [];
    }
  }

  lemma {:induction false} SuffixesTail(ss: seq<Suffix>)
    requires ss != [] && SuffixesOk(ss)
    ensures SuffixOk(ss[0]) && SuffixesOk(ss[1..])
  {
    forall i | 0 <= i < |ss[1..]| ensures SuffixOk(ss[1..][i]) {
      assert ss[1..][i] == ss[i + 1];
    }
  }

  /** Nothing that starts a suffix chain is read into the operand before it. */
  lemma {:induction false} ChainFollows(ts: seq<Token>, j: nat, ss: seq<Suffix>)
    requires ss != [] && Occurs(ts, j, ChainTokens(ss))
    ensures FollowOk(ts, j, TIGHT - 1)
  {
    ChainStart(ss);
    OccursAt(ts, j, ChainTokens(ss), 0);
  }

  /**
   * An atom followed by its suffix chain is read at power `m` as the nested
   * suffix nodes, and the infix loop goes on after the chain. A keyword right
   * after the chain is excluded, because `mut` after `.&` would join it.
   */
  lemma {:induction false} ChainReads(ts: seq<Token>, p: nat, base: Expr, ss: seq<Suffix>, m: nat, end: nat)
    requires WellBracketed(base) && Level(base) == TIGHT && SuffixesOk(ss) && m < POSTOP
    requires Occurs(ts, p, Print(base) + ChainTokens(ss)) && end == p + |Print(base) + ChainTokens(ss)|
    requires FollowOk(ts, end, TIGHT - 1) && (end < |ts| ==> !ts[end].Kw?)
    ensures ParseExpr(ts, p, m) == ParseInfix(ts, end, Chain(base, ss), m)
  {
    var j := ChainBase(ts, p, base, ss, end);
    ParseExprThenInfix(ts, p, m, base, j);
    SuffixLoop(ts, j, base, ss, m, end);
  }

  /** The atom in front of a chain is read by itself, and the chain starts right after it. */
  lemma {:induction false} ChainBase(ts: seq<Token>, p: nat, base: Expr, ss: seq<Suffix>, end: nat) returns (j: nat)
    requires WellBracketed(base) && Level(base) == TIGHT
    requires Occurs(ts, p, Print(base) + ChainTokens(ss)) && end == p + |Print(base) + ChainTokens(ss)|
    requires FollowOk(ts, end, TIGHT - 1)
    ensures j == p + |Print(base)| && j <= |ts| && ParsePrefix(ts, p) == Ok(base, j)
    ensures Occurs(ts, j, ChainTokens(ss)) && end == j + |ChainTokens(ss)|
  {
    j := ChainLayout(ts, p, Print(base), ss, end);
    ParsesBase(ts, p, base);
  }

  /** Where an operand and the suffix chain after it stand. */
  lemma {:induction false} ChainLayout(ts: seq<Token>, p: nat, b: seq<Token>, ss: seq<Suffix>, end: nat) returns (j: nat)
    requires Occurs(ts, p, b + ChainTokens(ss)) && end == p + |b + ChainTokens(ss)|
    requires FollowOk(ts, end, TIGHT - 1)
    ensures j == p + |b| && Occurs(ts, p, b) && FollowOk(ts, j, TIGHT - 1)
    ensures Occurs(ts, j, ChainTokens(ss)) && end == j + |ChainTokens(ss)|
  {
    j := p + |b|;
    OccursSplit(ts, p, b, ChainTokens(ss));
    if ss != [] {
      ChainFollows(ts, j, ss);
    } else {
      assert ChainTokens(ss) == [];
    }
  }

  /**
   * A name, literal or parenthesis followed by `.x`, `[i]`, `(args)`, `.&`,
   * `.& mut`, `.*` and `?` in any order, then by any run of binary operators
   * and assignments, is read back with the first suffix innermost and the
   * whole chain as the leftmost operand.
   */
  lemma {:induction false} SuffixesReadBack(base: Expr, ss: seq<Suffix>, s: seq<Step>)
    requires WellBracketed(base) && Level(base) == TIGHT && SuffixesOk(ss) && StepsOk(s, MIN)
    ensures ParseSource(Print(base) + ChainTokens(ss) + StepsTokens(s)) == Success([Fold(Chain(base, ss), s)])
  {
    var chain := Print(base) + ChainTokens(ss);
    var ts := chain + StepsTokens(s);
    assert Occurs(ts, 0, ts);
    OccursSplit(ts, 0, chain, StepsTokens(s));
    assert FollowOk(ts, |chain|, TIGHT - 1) && (|chain| < |ts| ==> !ts[|chain|].Kw?) by {
      if s != [] {
        OccursAt(ts, |chain|, StepsTokens(s), 0);
        OpTokenReadsBack(s[0].op);
        PowerFacts(s[0].op);
      }
    }
    ChainReads(ts, 0, base, ss, MIN, |chain|);
    InfixSteps(ts, |chain|, Chain(base, ss), s, MIN);
    PrintStartsOperand(base);
    WholeSource(ts, Fold(Chain(base, ss), s));
  }

  /** `a.b(x) + c` calls the method and adds `c` to the result. */
  lemma {:induction false} MethodCallThenAdd(a: Name, b: Name, x: Name, c: Name)
    ensures ParseSource([Word(a), Sym(Dot), Word(b), Sym(LParen), Word(x), Sym(RParen), Sym(Plus), Word(c)])
         == Success([Binary(Add, Call(Field(NameRef(a), b), [Positional(NameRef(x))]), NameRef(c))])
  {
    var args := [Positional(NameRef(x))];
    var ss := [Member(b), Invoke(args, false)];
    var s := [Step(BinaryInfix(Add), NameRef(c))];
    assert SuffixesOk(ss) by { assert SuffixOk(ss[1]); }
    SuffixesReadBack(NameRef(a), ss, s);
    MethodCallTokens(a, b, x, c);
    assert Chain(NameRef(a), ss) == Call(Field(NameRef(a), b), args) by {
      assert ss[1..][1..] == [];
      assert Chain(Field(NameRef(a), b), ss[1..]) == Chain(Call(Field(NameRef(a), b), args), []);
    }
  }

  lemma {:induction false} MethodCallTokens(a: Name, b: Name, x: Name, c: Name)
    ensures Print(NameRef(a)) + ChainTokens([Member(b), Invoke([Positional(NameRef(x))], false)])
              + StepsTokens([Step(BinaryInfix(Add), NameRef(c))])
         == [Word(a), Sym(Dot), Word(b), Sym(LParen), Word(x), Sym(RParen), Sym(Plus), Word(c)]
  {
    var ss := [Member(b), Invoke([Positional(NameRef(x))], false)];
    var items := ArgItems(ss[1].args);
    assert items == [ArgItem(Positional(NameRef(x)))];
    assert ItemTokens(items[0]) == [Word(x)];
    assert ListTokens(items, Comma, RParen, false) == [Word(x), Sym(RParen)];
    assert ChainTokens(ss[1..]) == [Sym(LParen), Word(x), Sym(RParen)] by { assert ss[1..][1..] == []; }
  }

  /** A `preop` in front of a suffix chain applies to the whole chain: the suffixes bind tighter. */
  lemma {:induction false} PrefixOverSuffixes(op: PreOp, base: Expr, ss: seq<Suffix>)
    requires WellBracketed(base) && Level(base) == TIGHT && SuffixesOk(ss)
    ensures ParseSource(PrefixTokens(op) + Print(base) + ChainTokens(ss)) == Success([Prefix(op, Chain(base, ss))])
  {
    var ts := PrefixTokens(op) + Print(base) + ChainTokens(ss);
    JoinAssoc(PrefixTokens(op), Print(base), ChainTokens(ss));
    PrefixChainReads(ts, op, base, ss);
    OperandStatement(ts, Prefix(op, Chain(base, ss)));
  }

  lemma {:induction false} PrefixChainReads(ts: seq<Token>, op: PreOp, base: Expr, ss: seq<Suffix>)
    requires WellBracketed(base) && Level(base) == TIGHT && SuffixesOk(ss)
    requires ts == PrefixTokens(op) + (Print(base) + ChainTokens(ss))
    ensures ParsePrefix(ts, 0) == Ok(Prefix(op, Chain(base, ss)), |ts|)
  {
    var k := |PrefixTokens(op)|;
    assert Occurs(ts, 0, ts);
    OccursSplit(ts, 0, PrefixTokens(op), Print(base) + ChainTokens(ss));
    ChainReads(ts, k, base, ss, PREOP, |ts|);
    InfixStops(ts, |ts|, Chain(base, ss), PREOP);
    PrintStartsOperand(base);
    OccursAt(ts, k, Print(base) + ChainTokens(ss), 0);
    ReadsPrefix(ts, 0, op, Chain(base, ss), |ts|);
  }

  /** `-a.b` negates the field. */
  lemma {:induction false} NegOfField(a: Name, b: Name)
    ensures ParseSource([Sym(Minus), Word(a), Sym(Dot), Word(b)]) == Success([Prefix(Neg, Field(NameRef(a), b))])
  {
    PrefixOverSuffixes(Neg, NameRef(a), [Member(b)]);
    assert ChainTokens([Member(b)]) == [Sym(Dot), Word(b)];
    assert PrefixTokens(Neg) + Print(NameRef(a)) + ChainTokens([Member(b)]) == [Sym(Minus), Word(a), Sym(Dot), Word(b)];
  }

  /** `!a?` negates the result of `?`. */
  lemma {:induction false} NotOfTry(a: Name)
    ensures ParseSource([Sym(Bang), Word(a), Sym(Question)]) == Success([Prefix(Not, Postfix(Try, NameRef(a)))])
  {
    PrefixOverSuffixes(Not, NameRef(a), [Post(Try)]);
    assert ChainTokens([Post(Try)]) == [Sym(Question)];
    assert PrefixTokens(Not) + Print(NameRef(a)) + ChainTokens([Post(Try)]) == [Sym(Bang), Word(a), Sym(Question)];
  }

  /** `!-a` and `- -a`: a preop takes another preop as its operand. */
  lemma {:induction false} NestedPreops(a: Name)
    ensures ParseSource([Sym(Bang), Sym(Minus), Word(a)]) == Success([Prefix(Not, Prefix(Neg, NameRef(a)))])
    ensures ParseSource([Sym(Minus), Sym(Minus), Word(a)]) == Success([Prefix(Neg, Prefix(Neg, NameRef(a)))])
  {
    var neg := Prefix(Neg, NameRef(a));
    assert Print(neg) == PrefixTokens(Neg) + [Word(a)] == [Sym(Minus), Word(a)];
    assert Print(Prefix(Not, neg)) == PrefixTokens(Not) + Print(neg) == [Sym(Bang), Sym(Minus), Word(a)];
    assert Print(Prefix(Neg, neg)) == PrefixTokens(Neg) + Print(neg) == [Sym(Minus), Sym(Minus), Word(a)];
    SourceReadsPrinted(Prefix(Not, neg));
    SourceReadsPrinted(Prefix(Neg, neg));
  }
}

=== FILE: parser.dfy ===
/**
 * A precedence-climbing parser over the token list for the `rules` of
 * grammar.js.  Every function reads the tokens from position `pos` on and
 * reports the position after what it consumed; the termination measure is
 * the number of tokens left, `|ts| - pos`.
 *
 * Where the grammar leaves a choice to tree-sitter's conflict handling, the
 * parser makes one fixed choice: a token that can continue the current
 * expression as an operator always does, and a new expression starts next
 * to it only where no operator continues.
 */
module Parser {

  import opened Wrappers
  import opened Tokens
  import opened Ast
  import opened Precedence

  /** A parse result: a value and the position after it, or the position of an error. */
  datatype Parsed<+T> = Ok(value: T, next: nat) | Fail(at: nat)

  /** A parse that started at `pos` consumed at least one token, or failed at or after `pos`. */
  predicate Advances<T>(r: Parsed<T>, ts: seq<Token>, pos: nat) {
    && (r.Ok? ==> pos < r.next <= |ts|)
    && (r.Fail? ==> pos <= r.at <= |ts|)
  }

  predicate IsSym(ts: seq<Token>, i: nat, p: Punct) {
    i < |ts| && ts[i] == Sym(p)
  }

  predicate IsKw(ts: seq<Token>, i: nat, k: Keyword) {
    i < |ts| && ts[i] == Kw(k)
  }

  /** `:`, `:=` and `::` after a name start a `var_decl`. */
  predicate IsDeclMarker(t: Token) {
    t == Sym(Colon) || t == Sym(ColonEq) || t == Sym(ColonColon)
  }

  // ---- Lists built with `sep` ----

  /** What the elements of a separated list are. */
  datatype ListKind = Exprs | Args | Decls | Variants

  datatype Item = ExprItem(expr: Expr) | ArgItem(arg: Arg) | DeclItem(decl: VarDecl) | VariantItem(variant: Variant)

  predicate HasKind(it: Item, k: ListKind) {
    match k
    case Exprs => it.ExprItem?
    case Args => it.ArgItem?
    case Decls => it.DeclItem?
    case Variants => it.VariantItem?
  }

  predicate AllOfKind(items: seq<Item>, k: ListKind) {
    forall i :: 0 <= i < |items| ==> HasKind(items[i], k)
  }

  function ExprsOf(items: seq<Item>): seq<Expr>
    requires AllOfKind(items, Exprs)
  {
    if items == [] then [] else [items[0].expr] + ExprsOf(items[1..])
  }

  function ArgsOf(items: seq<Item>): seq<Arg>
    requires AllOfKind(items, Args)
  {
    if items == [] then [] else [items[0].arg] + ArgsOf(items[1..])
  }

  function DeclsOf(items: seq<Item>): seq<VarDecl>
    requires AllOfKind(items, Decls)
  {
    if items == [] then [] else [items[0].decl] + DeclsOf(items[1..])
  }

  function VariantsOf(items: seq<Item>): seq<Variant>
    requires AllOfKind(items, Variants)
  {
    if items == [] then [] else [items[0].variant] + VariantsOf(items[1..])
  }

  function ModifierOf(t: Token): Option<Modifier> {
    match t
    case Kw(Pub) => Some(PubMod)
    case Kw(Mut) => Some(MutMod)
    case Kw(Rec) => Some(RecMod)
    case _ => None
  }

  /** `repeat(choice("pub", "mut", "rec"))`: the modifiers from `pos` on and the position after them. */
  function ParseModifiers(ts: seq<Token>, pos: nat): (r: (seq<Modifier>, nat))
    requires pos <= |ts|
    decreases |ts| - pos
    ensures pos <= r.1 <= |ts| && |r.0| == r.1 - pos
    ensures forall i :: pos <= i < r.1 ==> ModifierOf(ts[i]) == Some(r.0[i - pos])
    ensures r.1 == |ts| || ModifierOf(ts[r.1]).None?
  {
    if pos < |ts| && ModifierOf(ts[pos]).Some? then
      var (ms, j) := ParseModifiers(ts, pos + 1);
      ([ModifierOf(ts[pos]).value] + ms, j)
    else ([], pos)
  }

  /** The node of a keyword form `defer e`, `return e`, `break e`, `continue e` or `unsafe e`. */
  function KeywordForm(k: Keyword, e: Expr): Expr
    requires k in {Keyword.Defer, Keyword.Return, Keyword.Break, Keyword.Continue, Keyword.Unsafe}
  {
    match k
    case Defer => Expr.Defer(e)
    case Return => Expr.Return(e)
    case Break => Expr.Break(e)
    case Continue => Expr.Continue(e)
    case Unsafe => Expr.Unsafe(e)
  }

  // ---- The expression parser ----

  /**
   * `_expr` parsed with minimum binding power `minp`: a prefix form, then
   * every operator whose power exceeds `minp`.
   */
  function ParseExpr(ts: seq<Token>, pos: nat, minp: nat): (r: Parsed<Expr>)
    requires pos <= |ts|
    decreases |ts| - pos, 4
    ensures Advances(r, ts, pos)
  {
    match ParsePrefix(ts, pos)
    case Fail(at) => Fail(at)
    case Ok(lhs, next) => ParseInfix(ts, next, lhs, minp)
  }

  /** Extends `lhs` with the operators from `pos` on whose power exceeds `minp`. */
  function ParseInfix(ts: seq<Token>, pos: nat, lhs: Expr, minp: nat): (r: Parsed<Expr>)
    requires pos <= |ts|
    decreases |ts| - pos, 2
    ensures r.Ok? ==> pos <= r.next <= |ts|
    ensures r.Fail? ==> pos <= r.at <= |ts|
  {
    if pos == |ts| then Ok(lhs, pos)
    else match InfixOf(ts[pos])
      case None => Ok(lhs, pos)
      case Some(op) =>
        if Power(op) <= minp then Ok(lhs, pos)
        else match ApplyInfix(ts, pos, lhs, op)
          case Fail(at) => Fail(at)
          case Ok(e, next) => ParseInfix(ts, next, e, minp)
  }

  /** One operator at `pos` applied to the operand `lhs`, with its right-hand side. */
  function ApplyInfix(ts: seq<Token>, pos: nat, lhs: Expr, op: Infix): (r: Parsed<Expr>)
    requires pos < |ts| && InfixOf(ts[pos]) == Some(op)
    decreases |ts| - pos, 1
    ensures Advances(r, ts, pos)
  {
    match op
    case BinaryInfix(o) =>
      (match ParseExpr(ts, pos + 1, Power(op))
       case Fail(at) => Fail(at)
       case Ok(rhs, next) => Ok(Binary(o, lhs, rhs), next))
    case SignedLiteral(l) =>
      (match ParseInfix(ts, pos + 1, Literal(Magnitude(l)), BINOP_ADD)
       case Fail(at) => Fail(at)
       case Ok(rhs, next) => Ok(Binary(Sub, lhs, rhs), next))
    case AssignInfix =>
      (match ParseExpr(ts, pos + 1, ASSIGN - 1)
       case Fail(at) => Fail(at)
       case Ok(rhs, next) => Ok(Assign(lhs, rhs), next))
    case CompoundInfix(a) =>
      (match ParseExpr(ts, pos + 1, ASSIGN - 1)
       case Fail(at) => Fail(at)
       case Ok(rhs, next) => Ok(BinopAssign(a, lhs, rhs), next))
    case RangeInfix(inclusive) => ParseRangeEnd(ts, pos, Some(lhs), inclusive)
    case FieldInfix =>
      if pos + 1 < |ts| && ts[pos + 1].Word? then Ok(Field(lhs, ts[pos + 1].name), pos + 2)
      else Fail(pos + 1)
    case IndexInfix =>
      (match ParseExpr(ts, pos + 1, MIN)
       case Fail(at) => Fail(at)
       case Ok(idx, next) => if IsSym(ts, next, RBracket) then Ok(Index(lhs, idx), next + 1) else Fail(next))
    case CallInfix =>
      (match ParseSep(ts, pos + 1, Args, Comma, RParen)
       case Fail(at) => Fail(at)
       case Ok(items, next) => Ok(Call(lhs, ArgsOf(items)), next))
    case InitInfix(kind) => ParseInitializer(ts, pos, Some(lhs), kind)
    case PostfixInfix(po) =>
      if po == PostAddrOf && IsKw(ts, pos + 1, Mut) then Ok(Postfix(PostAddrOfMut, lhs), pos + 2)
      else Ok(Postfix(po, lhs), pos + 1)
  }

  /** The optional end of a `range` whose `..` or `..=` is at `pos`. */
  function ParseRangeEnd(ts: seq<Token>, pos: nat, start: Option<Expr>, inclusive: bool): (r: Parsed<Expr>)
    requires pos < |ts|
    decreases |ts| - pos, 0
    ensures Advances(r, ts, pos)
  {
    if pos + 1 < |ts| && StartsExpr(ts[pos + 1]) then
      match ParseExpr(ts, pos + 1, RANGE)
      case Fail(at) => Fail(at)
      case Ok(end, next) => Ok(Range(start, inclusive, Some(end)), next)
    else Ok(Range(start, inclusive, None), pos + 1)
  }

  /** `.( args )`, `.{ args }` or `.[ exprs ]` whose opening token is at `pos`. */
  function ParseInitializer(ts: seq<Token>, pos: nat, ty: Option<Expr>, kind: InitKind): (r: Parsed<Expr>)
    requires pos < |ts|
    decreases |ts| - pos, 0
    ensures Advances(r, ts, pos)
  {
    match kind
    case ByPosition =>
      (match ParseSep(ts, pos + 1, Args, Comma, RParen)
       case Fail(at) => Fail(at)
       case Ok(items, next) => Ok(PosInitializer(ty, ArgsOf(items)), next))
    case ByName =>
      (match ParseSep(ts, pos + 1, Args, Comma, RBrace)
       case Fail(at) => Fail(at)
       case Ok(items, next) => Ok(NamedInitializer(ty, ArgsOf(items)), next))
    case ByArray =>
      (match ParseSep(ts, pos + 1, Exprs, Comma, RBracket)
       case Fail(at) => Fail(at)
       case Ok(items, next) => Ok(ArrayInitializer(ty, ExprsOf(items)), next))
  }

  /** The forms that need no left operand, dispatched on their first token. */
  function ParsePrefix(ts: seq<Token>, pos: nat): (r: Parsed<Expr>)
    requires pos <= |ts|
    decreases |ts| - pos, 3
    ensures Advances(r, ts, pos)
  {
    if pos == |ts| then Fail(pos)
    else match ts[pos]
      case Word(_) => ParseNameLed(ts, pos)
      case Lit(l) => Ok(Literal(l), pos + 1)
      case Kw(_) => ParseKeywordLed(ts, pos)
      case Sym(_) => ParseSymbolLed(ts, pos)
      case LineComment(_) => Fail(pos)
  }

  /** A name: a one-parameter `fn`, the start of a `var_decl`, or an `_ident`. */
  function ParseNameLed(ts: seq<Token>, pos: nat): (r: Parsed<Expr>)
    requires pos < |ts| && ts[pos].Word?
    decreases |ts| - pos, 2
    ensures Advances(r, ts, pos)
  {
    if IsSym(ts, pos + 1, Arrow) then ParseFnTail(ts, pos + 2, OneParam(ts[pos].name))
    else if pos + 1 < |ts| && IsDeclMarker(ts[pos + 1]) then
      match ParseDecl(ts, pos)
      case Fail(at) => Fail(at)
      case Ok(d, next) => Ok(Decl(d), next)
    else Ok(NameRef(ts[pos].name), pos + 1)
  }

  function ParseKeywordLed(ts: seq<Token>, pos: nat): (r: Parsed<Expr>)
    requires pos < |ts| && ts[pos].Kw?
    decreases |ts| - pos, 2
    ensures Advances(r, ts, pos)
  {
    match ts[pos].keyword
    case Pub | Mut | Rec =>
      (match ParseDecl(ts, pos)
       case Fail(at) => Fail(at)
       case Ok(d, next) => Ok(Decl(d), next))
    case Nil => Ok(NilLit, pos + 1)
    case Struct =>
      if !IsSym(ts, pos + 1, LBrace) then Fail(pos + 1)
      else (match ParseSep(ts, pos + 2, Decls, Comma, RBrace)
        case Fail(at) => Fail(at)
        case Ok(items, next) => Ok(StructDef(DeclsOf(items)), next))
    case Union =>
      if !IsSym(ts, pos + 1, LBrace) then Fail(pos + 1)
      else (match ParseSep(ts, pos + 2, Decls, Comma, RBrace)
        case Fail(at) => Fail(at)
        case Ok(items, next) => Ok(UnionDef(DeclsOf(items)), next))
    case Enum =>
      if !IsSym(ts, pos + 1, LBrace) then Fail(pos + 1)
      else (match ParseSep(ts, pos + 2, Variants, Comma, RBrace)
        case Fail(at) => Fail(at)
        case Ok(items, next) => Ok(EnumDef(VariantsOf(items)), next))
    case Extern =>
      if pos + 2 < |ts| && ts[pos + 1].Word? && ts[pos + 2] == Sym(Colon) then
        match ParseExpr(ts, pos + 3, MIN)
        case Fail(at) => Fail(at)
        case Ok(ty, next) => Ok(ExternDecl(ts[pos + 1].name, ty), next)
      else Fail(pos + 1)
    case If => ParseIf(ts, pos + 1)
    case While =>
      (match ParseExpr(ts, pos + 1, MIN)
       case Fail(at) => Fail(at)
       case Ok(cond, j) =>
         var k := if IsKw(ts, j, Do) then j + 1 else j;
         match ParseExpr(ts, k, MIN)
         case Fail(at) => Fail(at)
         case Ok(body, next) => Ok(Expr.While(cond, body), next))
    case Defer | Return | Break | Continue | Unsafe =>
      (match ParseExpr(ts, pos + 1, MIN)
       case Fail(at) => Fail(at)
       case Ok(e, next) => Ok(KeywordForm(ts[pos].keyword, e), next))
    case Do | Else | Match | For => Fail(pos)
  }

  function ParseSymbolLed(ts: seq<Token>, pos: nat): (r: Parsed<Expr>)
    requires pos < |ts| && ts[pos].Sym?
    decreases |ts| - pos, 2
    ensures Advances(r, ts, pos)
  {
    match ts[pos].punct
    case Star =>
      var m := IsKw(ts, pos + 1, Mut);
      (match ParseExpr(ts, if m then pos + 2 else pos + 1, PREOP)
       case Fail(at) => Fail(at)
       case Ok(e, next) => Ok(PtrTy(m, e), next))
    case LBracket =>
      if IsSym(ts, pos + 1, RBracket) then
        var m := IsKw(ts, pos + 2, Mut);
        match ParseExpr(ts, if m then pos + 3 else pos + 2, PREOP)
        case Fail(at) => Fail(at)
        case Ok(e, next) => Ok(SliceTy(m, e), next)
      else
        (match ParseExpr(ts, pos + 1, MIN)
         case Fail(at) => Fail(at)
         case Ok(count, j) =>
           if !IsSym(ts, j, RBracket) then Fail(j)
           else match ParseExpr(ts, j + 1, PREOP)
             case Fail(at) => Fail(at)
             case Ok(e, next) => Ok(ArrayTy(count, e), next))
    case Question =>
      (match ParseExpr(ts, pos + 1, PREOP)
       case Fail(at) => Fail(at)
       case Ok(e, next) => Ok(OptionTy(e), next))
    case Amp =>
      var m := IsKw(ts, pos + 1, Mut);
      (match ParseExpr(ts, if m then pos + 2 else pos + 1, PREOP)
       case Fail(at) => Fail(at)
       case Ok(e, next) => Ok(Prefix(if m then AddrOfMut else AddrOf, e), next))
    case Bang =>
      (match ParseExpr(ts, pos + 1, PREOP)
       case Fail(at) => Fail(at)
       case Ok(e, next) => Ok(Prefix(Not, e), next))
    case Minus =>
      (match ParseExpr(ts, pos + 1, PREOP)
       case Fail(at) => Fail(at)
       case Ok(e, next) => Ok(Prefix(Neg, e), next))
    case Arrow => ParseFnTail(ts, pos + 1, NoParams)
    case LParen => ParseParenOrFn(ts, pos)
    case LBrace =>
      (match ParseSep(ts, pos + 1, Exprs, Semi, RBrace)
       case Fail(at) => Fail(at)
       case Ok(items, next) => Ok(Block(ExprsOf(items)), next))
    case DotLParen => ParseInitializer(ts, pos, None, ByPosition)
    case DotLBrace => ParseInitializer(ts, pos, None, ByName)
    case DotLBracket => ParseInitializer(ts, pos, None, ByArray)
    case DotDot => ParseRangeEnd(ts, pos, None, false)
    case DotDotEq => ParseRangeEnd(ts, pos, None, true)
    case _ => Fail(pos)
  }

  /**
   * `(` at `pos`: the parameter list of a `fn` when a declaration list and
   * `)` follow, and otherwise a `parenthesis`.  The list rule binds tighter
   * (`prec(3)`) than a declaration used as an expression, so a list that
   * reaches its `)` must be followed by `->`.
   */
  function ParseParenOrFn(ts: seq<Token>, pos: nat): (r: Parsed<Expr>)
    requires pos < |ts|
    decreases |ts| - pos, 1
    ensures Advances(r, ts, pos)
  {
    var params := ParseSep(ts, pos + 1, Decls, Comma, RParen);
    if params.Ok? then
      if IsSym(ts, params.next, Arrow) then ParseFnTail(ts, params.next + 1, ParamList(DeclsOf(params.value)))
      else Fail(params.next)
    else
      match ParseExpr(ts, pos + 1, MIN)
      case Fail(at) => Fail(at)
      case Ok(inner, next) => if IsSym(ts, next, RParen) then Ok(Paren(inner), next + 1) else Fail(next)
  }

  /**
   * What follows the `->` of a `fn`: an optional return type and the body.
   * When the first expression is followed by one more, the first is `ret_ty`.
   */
  function ParseFnTail(ts: seq<Token>, pos: nat, params: Params): (r: Parsed<Expr>)
    requires pos <= |ts|
    decreases |ts| - pos, 5
    ensures Advances(r, ts, pos)
  {
    match ParseExpr(ts, pos, FN - 1)
    case Fail(at) => Fail(at)
    case Ok(first, next) =>
      if next < |ts| && StartsExpr(ts[next]) then
        match ParseExpr(ts, next, FN - 1)
        case Fail(at) => Fail(at)
        case Ok(body, end) => Ok(Fn(params, Some(first), body), end)
      else Ok(Fn(params, None, first), next)
  }

  /** `if cond do? then (else e)?`, from the token after `if`. */
  function ParseIf(ts: seq<Token>, pos: nat): (r: Parsed<Expr>)
    requires pos <= |ts|
    decreases |ts| - pos, 5
    ensures Advances(r, ts, pos)
  {
    match ParseExpr(ts, pos, MIN)
    case Fail(at) => Fail(at)
    case Ok(cond, j) =>
      var k := if IsKw(ts, j, Do) then j + 1 else j;
      match ParseExpr(ts, k, MIN)
      case Fail(at) => Fail(at)
      case Ok(thenBranch, m) =>
        if IsKw(ts, m, Else) then
          match ParseExpr(ts, m + 1, MIN)
          case Fail(at) => Fail(at)
          case Ok(elseBranch, next) => Ok(Expr.If(cond, thenBranch, Some(elseBranch)), next)
        else Ok(Expr.If(cond, thenBranch, None), m)
  }

  /** `var_decl`: modifiers, a name, then one of the five shapes. */
  function ParseDecl(ts: seq<Token>, pos: nat): (r: Parsed<VarDecl>)
    requires pos <= |ts|
    decreases |ts| - pos, 1
    ensures Advances(r, ts, pos)
  {
    var (mods, j) := ParseModifiers(ts, pos);
    if j < |ts| && ts[j].Word? then
      var name := ts[j].name;
      if IsSym(ts, j + 1, Colon) then
        match ParseExpr(ts, j + 2, DECL_TY)
        case Fail(at) => Fail(at)
        case Ok(ty, k) =>
          if IsSym(ts, k, Punct.Eq) || IsSym(ts, k, Colon) then
            match ParseExpr(ts, k + 1, DECL_INIT)
            case Fail(at) => Fail(at)
            case Ok(d, next) =>
              Ok(VarDecl(mods, name, if ts[k] == Sym(Punct.Eq) then TypedVar(ty, d) else TypedConst(ty, d)), next)
          else Ok(VarDecl(mods, name, Typed(ty)), k)
      else if IsSym(ts, j + 1, ColonEq) || IsSym(ts, j + 1, ColonColon) then
        match ParseExpr(ts, j + 2, VAR_DECL)
        case Fail(at) => Fail(at)
        case Ok(d, next) =>
          Ok(VarDecl(mods, name, if ts[j + 1] == Sym(ColonEq) then InferredVar(d) else InferredConst(d)), next)
      else Fail(j + 1)
    else Fail(j)
  }

  /** One element of a separated list. */
  function ParseItem(ts: seq<Token>, pos: nat, k: ListKind): (r: Parsed<Item>)
    requires pos <= |ts|
    decreases |ts| - pos, 5
    ensures Advances(r, ts, pos)
    ensures r.Ok? ==> HasKind(r.value, k)
  {
    match k
    case Exprs =>
      (match ParseExpr(ts, pos, MIN)
       case Fail(at) => Fail(at)
       case Ok(e, next) => Ok(ExprItem(e), next))
    case Args =>
      if pos + 1 < |ts| && ts[pos].Word? && ts[pos + 1] == Sym(Punct.Eq) then
        match ParseExpr(ts, pos + 2, NAMED_ARG)
        case Fail(at) => Fail(at)
        case Ok(v, next) => Ok(ArgItem(Named(ts[pos].name, v)), next)
      else
        (match ParseExpr(ts, pos, MIN)
         case Fail(at) => Fail(at)
         case Ok(v, next) => Ok(ArgItem(Positional(v)), next))
    case Decls =>
      (match ParseDecl(ts, pos)
       case Fail(at) => Fail(at)
       case Ok(d, next) => Ok(DeclItem(d), next))
    case Variants =>
      if pos < |ts| && ts[pos].Word? then
        if IsSym(ts, pos + 1, LParen) then
          match ParseExpr(ts, pos + 2, MIN)
          case Fail(at) => Fail(at)
          case Ok(ty, next) =>
            if IsSym(ts, next, RParen) then Ok(VariantItem(Variant(ts[pos].name, Some(ty))), next + 1)
            else Fail(next)
        else Ok(VariantItem(Variant(ts[pos].name, None)), pos + 1)
      else Fail(pos)
  }

  /**
   * `sep(s, r)` followed by its closing token: nothing, or one or more
   * elements separated by `s`, with an optional trailing `s`.
   */
  function ParseSep(ts: seq<Token>, pos: nat, k: ListKind, s: Punct, close: Punct): (r: Parsed<seq<Item>>)
    requires pos <= |ts|
    decreases |ts| - pos, 7
    ensures Advances(r, ts, pos)
    ensures r.Ok? ==> AllOfKind(r.value, k)
  {
    if IsSym(ts, pos, close) then Ok([], pos + 1)
    else ParseSep1(ts, pos, k, s, close)
  }

  /** `sep1(s, r)` followed by its closing token. */
  function ParseSep1(ts: seq<Token>, pos: nat, k: ListKind, s: Punct, close: Punct): (r: Parsed<seq<Item>>)
    requires pos <= |ts|
    decreases |ts| - pos, 6
    ensures Advances(r, ts, pos)
    ensures r.Ok? ==> |r.value| >= 1 && AllOfKind(r.value, k)
  {
    match ParseItem(ts, pos, k)
    case Fail(at) => Fail(at)
    case Ok(it, j) =>
      if IsSym(ts, j, close) then Ok([it], j + 1)
      else if !IsSym(ts, j, s) then Fail(j)
      else if IsSym(ts, j + 1, close) then Ok([it], j + 2)
      else match ParseSep1(ts, j + 1, k, s, close)
        case Fail(at) => Fail(at)
        case Ok(items, next) => Ok([it] + items, next)
  }

  // ---- source_file ----

  /** The position after the run of `;` that starts at `pos`. */
  function SkipSemis(ts: seq<Token>, pos: nat): (j: nat)
    requires pos <= |ts|
    decreases |ts| - pos
    ensures pos <= j <= |ts|
    ensures forall i :: pos <= i < j ==> ts[i] == Sym(Semi)
    ensures j == |ts| || ts[j] != Sym(Semi)
  {
    if pos < |ts| && ts[pos] == Sym(Semi) then SkipSemis(ts, pos + 1) else pos
  }

  /**
   * `sep(repeat(";"), _expr)`: expressions separated by runs of `;` of any
   * length, including none, with an optional trailing run.
   */
  function ParseSource(ts: seq<Token>): (r: Result<seq<Expr>, nat>)
    ensures r.Failure? ==> r.error <= |ts|
  {
    if ts == [] then Success([]) else ParseTopLevel(ts, 0)
  }

  function ParseTopLevel(ts: seq<Token>, pos: nat): (r: Result<seq<Expr>, nat>)
    requires pos < |ts|
    decreases |ts| - pos
    ensures r.Success? ==> |r.value| >= 1
    ensures r.Failure? ==> pos <= r.error <= |ts|
  {
    match ParseExpr(ts, pos, MIN)
    case Fail(at) => Failure(at)
    case Ok(e, next) =>
      var j := SkipSemis(ts, next);
      if j == |ts| then Success([e])
      else match ParseTopLevel(ts, j)
        case Failure(at) => Failure(at)
        case Success(es) => Success([e] + es)
  }
}

=== FILE: parser_props.dfy ===
/**
 * Properties of the expression parser.  The centre piece is a printer for
 * the operator fragment of the language (names, literals, parentheses,
 * `preop`, `binop`, `assign` and `binop_assign`) and the theorem that the
 * parser reads every correctly bracketed tree back from its printed tokens.
 * The bracketing condition is exactly the PREC table of grammar.js: a
 * child needs no parentheses when it binds tighter than its parent, or
 * equally tight on the side the parent's associativity allows.
 */
module ParserProps {

  import opened Wrappers
  import opened Tokens
  import opened Ast
  import opened Precedence
  import opened Parser

  // ---- The operator fragment and its printer ----

  /** The operators written between two operands: `binop`, `assign` and `binop_assign`. */
  predicate IsBinaryShaped(op: Infix) {
    op.BinaryInfix? || op.AssignInfix? || op.CompoundInfix?
  }

  type ShapedOp = op: Infix | IsBinaryShaped(op) witness AssignInfix

  predicate IsBinaryNode(e: Expr) {
    e.Binary? || e.Assign? || e.BinopAssign?
  }

  function NodeOp(e: Expr): ShapedOp
    requires IsBinaryNode(e)
  {
    match e
    case Binary(o, _, _) => BinaryInfix(o)
    case Assign(_, _) => AssignInfix
    case BinopAssign(a, _, _) => CompoundInfix(a)
  }

  /** The node an operator builds from its two operands. */
  function Combine(op: ShapedOp, l: Expr, r: Expr): (e: Expr)
    ensures IsBinaryNode(e) && NodeOp(e) == op && e.lhs == l && e.rhs == r
  {
    match op
    case BinaryInfix(o) => Binary(o, l, r)
    case AssignInfix => Assign(l, r)
    case CompoundInfix(a) => BinopAssign(a, l, r)
  }

  /** The token that spells an operator. */
  function OpToken(op: ShapedOp): Token {
    match op
    case BinaryInfix(o) => Sym(BinOpPunct(o))
    case AssignInfix => Sym(Punct.Eq)
    case CompoundInfix(a) => Sym(AssignOpPunct(a))
  }

  /** Above every operator: names, literals and parenthesised expressions. */
  const TIGHT: nat := POSTOP + 1

  /** How tightly the top node of `e` binds. */
  function Level(e: Expr): (l: nat)
    ensures ASSIGN <= l <= TIGHT
  {
    if IsBinaryNode(e) then Power(NodeOp(e))
    else if e.Prefix? then PREOP
    else TIGHT
  }

  /** A left operand must bind tighter than this; equally tight is allowed for left-associative levels. */
  function LhsMin(op: ShapedOp): nat {
    if RightAssoc(op) then Power(op) else Power(op) - 1
  }

  /** A right operand must bind tighter than this; the minimum binding power of the right-hand side. */
  function RhsMin(op: ShapedOp): nat {
    if RightAssoc(op) then Power(op) - 1 else Power(op)
  }

  /**
   * What a preop (and a type prefix) may take as its operand: anything that
   * binds tighter than `preop`, or another preop, which the operand's own
   * prefix position reads first (`PreopLevel`).
   */
  predicate PreopOperand(x: Expr) {
    Level(x) >= PREOP
  }

  /**
   * A tree of the fragment whose every child either binds tighter than its
   * parent's operator demands or is wrapped in a `Paren` node.
   */
  predicate WellBracketed(e: Expr)
    decreases e
  {
    if IsBinaryNode(e) then
      && WellBracketed(e.lhs) && WellBracketed(e.rhs)
      && Level(e.lhs) > LhsMin(NodeOp(e)) && Level(e.rhs) > RhsMin(NodeOp(e))
    else match e
      case NameRef(_) => true
      case Literal(_) => true
      case Paren(inner) => WellBracketed(inner)
      case Prefix(_, x) => WellBracketed(x) && PreopOperand(x)
      case _ => false
  }

  function PrefixTokens(op: PreOp): seq<Token> {
    match op
    case AddrOf => [Sym(Amp)]
    case AddrOfMut => [Sym(Amp), Kw(Mut)]
    case Not => [Sym(Bang)]
    case Neg => [Sym(Minus)]
  }

  /** The tokens of a tree of the fragment, with no parentheses beyond its `Paren` nodes. */
  function Print(e: Expr): seq<Token>
    decreases e
  {
    if IsBinaryNode(e) then Print(e.lhs) + [OpToken(NodeOp(e))] + Print(e.rhs)
    else match e
      case NameRef(n) => [Word(n)]
      case Literal(l) => [Lit(l)]
      case Paren(inner) => [Sym(LParen)] + Print(inner) + [Sym(RParen)]
      case Prefix(op, x) => PrefixTokens(op) + Print(x)
      case _ => []
  }

  function Size(e: Expr): (n: nat)
    decreases e
    ensures n >= 1
  {
    if IsBinaryNode(e) then Size(e.lhs) + Size(e.rhs) + 1
    else match e
      case Paren(inner) => Size(inner) + 1
      case Prefix(_, x) => Size(x) + 1
      case _ => 1
  }

  // ---- Left spines ----

  /** An operator and its right operand, as the infix loop of the parser meets them. */
  datatype Step = Step(op: ShapedOp, rhs: Expr)

  /** Applies the steps to `lhs` from the first to the last, each result becoming the next left operand. */
  function Fold(lhs: Expr, s: seq<Step>): Expr
    decreases |s|
  {
    if s == [] then lhs else Fold(Combine(s[0].op, lhs, s[0].rhs), s[1..])
  }

  function StepsTokens(s: seq<Step>): seq<Token> {
    if s == [] then [] else [OpToken(s[0].op)] + Print(s[0].rhs) + StepsTokens(s[1..])
  }

  function StepsSize(s: seq<Step>): nat {
    if s == [] then 0 else Size(s[0].rhs) + 1 + StepsSize(s[1..])
  }

  /**
   * The steps can all be taken by an infix loop running at minimum power
   * `m`, and each right operand is parsed whole and stops before the next operator.
   */
  predicate StepsOk(s: seq<Step>, m: nat) {
    s == [] ||
    (&& Power(s[0].op) > m
     && WellBracketed(s[0].rhs) && Level(s[0].rhs) > RhsMin(s[0].op)
     && (|s| > 1 ==> Power(s[1].op) <= RhsMin(s[0].op))
     && StepsOk(s[1..], m))
  }

  /** The innermost operand at the bottom of the left spine. */
  function Base(e: Expr): Expr
    decreases e
  {
    if IsBinaryNode(e) then Base(e.lhs) else e
  }

  /** The steps that rebuild a tree from its `Base`, innermost first. */
  function Steps(e: Expr): seq<Step>
    decreases e
  {
    if IsBinaryNode(e) then Steps(e.lhs) + [Step(NodeOp(e), e.rhs)] else []
  }

  lemma {:induction false} FoldAppend(lhs: Expr, s: seq<Step>, x: Step)
    ensures Fold(lhs, s + [x]) == Combine(x.op, Fold(lhs, s), x.rhs)
    decreases |s|
  {
    if s != [] {
      assert (s + [x])[1..] == s[1..] + [x];
      FoldAppend(Combine(s[0].op, lhs, s[0].rhs), s[1..], x);
    }
  }

  lemma {:induction false} StepsAppend(s: seq<Step>, x: Step)
    ensures StepsTokens(s + [x]) == StepsTokens(s) + [OpToken(x.op)] + Print(x.rhs)
    ensures StepsSize(s + [x]) == StepsSize(s) + Size(x.rhs) + 1
    decreases |s|
  {
    if s == [] {
      assert s + [x] == [x];
    } else {
      assert (s + [x])[1..] == s[1..] + [x];
      StepsAppend(s[1..], x);
    }
  }

  lemma {:induction false} StepsOkAppend(s: seq<Step>, x: Step, m: nat)
    requires StepsOk(s, m)
    requires Power(x.op) > m && WellBracketed(x.rhs) && Level(x.rhs) > RhsMin(x.op)
    requires s != [] ==> Power(x.op) <= RhsMin(s[|s| - 1].op)
    ensures StepsOk(s + [x], m)
    decreases |s|
  {
    if s == [] {
      assert s + [x] == [x];
      assert [x][1..] == [];
    } else {
      assert (s + [x])[1..] == s[1..] + [x];
      StepsOkAppend(s[1..], x, m);
    }
  }

  /** The only right-associative level is `assign`, and it is below every `binop` level. */
  lemma {:induction false} PowerFacts(op: ShapedOp)
    ensures RightAssoc(op) <==> Power(op) == ASSIGN
    ensures !RightAssoc(op) ==> BINOP_OR <= Power(op) <= BINOP_MUL
  {
    if op.BinaryInfix? {
      assert BINOP_OR <= BinOpPower(op.op) <= BINOP_MUL;
    }
  }

  /**
   * Every tree is its `Base` folded with its `Steps`, and is printed and
   * measured as that operand followed by the steps.
   */
  lemma {:induction false} SpineRebuilds(e: Expr)
    ensures !IsBinaryNode(Base(e))
    ensures Fold(Base(e), Steps(e)) == e
    ensures Print(e) == Print(Base(e)) + StepsTokens(Steps(e))
    ensures Size(e) == Size(Base(e)) + StepsSize(Steps(e))
    ensures Steps(e) != [] <==> IsBinaryNode(e)
    ensures IsBinaryNode(e) ==> Steps(e)[|Steps(e)| - 1].op == NodeOp(e)
    decreases e
  {
    if IsBinaryNode(e) {
      var x := Step(NodeOp(e), e.rhs);
      SpineRebuilds(e.lhs);
      FoldAppend(Base(e.lhs), Steps(e.lhs), x);
      StepsAppend(Steps(e.lhs), x);
      assert Combine(NodeOp(e), e.lhs, e.rhs) == e;
    }
  }

  /**
   * In a well-bracketed tree that binds tighter than `m`, an infix loop at
   * `m` can take every step of the spine, and the base is well-bracketed.
   */
  lemma {:induction false} SpineStepsOk(e: Expr, m: nat)
    requires WellBracketed(e) && Level(e) > m
    ensures WellBracketed(Base(e)) && StepsOk(Steps(e), m)
    decreases e
  {
    if IsBinaryNode(e) {
      var op := NodeOp(e);
      PowerFacts(op);
      SpineStepsOk(e.lhs, m);
      SpineRebuilds(e.lhs);
      var s := Steps(e.lhs);
      if s != [] {
        PowerFacts(s[|s| - 1].op);
      }
      StepsOkAppend(s, Step(op, e.rhs), m);
    }
  }

  // ---- Reading printed trees back ----

  /** `xs` stands in `ts` at position `p`. */
  predicate Occurs(ts: seq<Token>, p: nat, xs: seq<Token>) {
    p + |xs| <= |ts| && forall i {:trigger At(ts, p, i)} :: 0 <= i < |xs| ==> At(ts, p, i) == xs[i]
  }

  /** The token `i` places after position `p`. */
  function At(ts: seq<Token>, p: nat, i: nat): (t: Token)
    requires p + i < |ts|
    ensures t == ts[p + i]
  {
    ts[p + i]
  }

  lemma {:induction false} OccursSplit(ts: seq<Token>, p: nat, a: seq<Token>, b: seq<Token>)
    requires Occurs(ts, p, a + b)
    ensures Occurs(ts, p, a) && Occurs(ts, p + |a|, b)
  {
    forall i | 0 <= i < |a| ensures At(ts, p, i) == a[i] {
      assert At(ts, p, i) == (a + b)[i];
    }
    forall i | 0 <= i < |b| ensures At(ts, p + |a|, i) == b[i] {
      assert At(ts, p, |a| + i) == (a + b)[|a| + i];
    }
  }

  lemma {:induction false} OccursSplit3(ts: seq<Token>, p: nat, a: seq<Token>, b: seq<Token>, c: seq<Token>)
    requires Occurs(ts, p, a + b + c)
    ensures Occurs(ts, p, a) && Occurs(ts, p + |a|, b) && Occurs(ts, p + |a| + |b|, c)
  {
    OccursSplit(ts, p, a + b, c);
    OccursSplit(ts, p, a, b);
  }

  /** A single token, then a body, then the rest. */
  lemma {:induction false} JoinAssoc(a: seq<Token>, b: seq<Token>, c: seq<Token>)
    ensures a + b + c == a + (b + c)
  {
  }

  lemma {:induction false} HeadOccurs(ts: seq<Token>, p: nat, t: Token, body: seq<Token>, rest: seq<Token>)
    requires Occurs(ts, p, [t] + body + rest)
    ensures p < |ts| && ts[p] == t && |[t] + body + rest| == 1 + |body| + |rest|
    ensures Occurs(ts, p + 1, body) && Occurs(ts, p + 1 + |body|, rest)
  {
    OccursSplit3(ts, p, [t], body, rest);
    OccursAt(ts, p, [t], 0);
  }

  /** Where the opening token, the body and the closing token of `[o] + b + [c]` stand. */
  lemma {:induction false} BracketLayout(ts: seq<Token>, p: nat, o: Token, b: seq<Token>, c: Token) returns (close: nat)
    requires Occurs(ts, p, [o] + b + [c])
    ensures close == p + 1 + |b| && close + 1 == p + |[o] + b + [c]|
    ensures close < |ts| && ts[p] == o && ts[close] == c && Occurs(ts, p + 1, b)
  {
    close := p + 1 + |b|;
    HeadOccurs(ts, p, o, b, [c]);
    OccursAt(ts, close, [c], 0);
  }

  lemma {:induction false} OccursAt(ts: seq<Token>, p: nat, xs: seq<Token>, k: nat)
    requires Occurs(ts, p, xs) && k < |xs|
    ensures ts[p + k] == xs[k]
  {
    assert At(ts, p, k) == xs[k];
  }

  /**
   * What may follow an expression parsed at minimum power `m` without
   * joining it: the end, or a token that does not continue it as an
   * operator stronger than `m` and, right after a name, does not turn that
   * name into a `fn` or a `var_decl`.
   */
  predicate FollowOk(ts: seq<Token>, q: nat, m: nat) {
    && q <= |ts|
    && (q < |ts| ==>
          && (0 < q && ts[q - 1].Word? ==> ts[q] != Sym(Arrow) && !IsDeclMarker(ts[q]))
          && (InfixOf(ts[q]).None? || Power(InfixOf(ts[q]).value) <= m))
  }

  /** The parser reads each operator token as the operator it spells. */
  lemma {:induction false} OpTokenReadsBack(op: ShapedOp)
    ensures InfixOf(OpToken(op)) == Some(op)
    ensures OpToken(op) != Sym(Arrow) && !IsDeclMarker(OpToken(op))
  {
    match op {
      case BinaryInfix(o) => BinOpTokenReadsBack(o);
      case AssignInfix =>
      case CompoundInfix(a) => AssignOpTokenReadsBack(a);
    }
  }

  lemma {:induction false} BinOpTokenReadsBack(o: BinOp)
    ensures InfixOf(Sym(BinOpPunct(o))) == Some(BinaryInfix(o))
    ensures Sym(BinOpPunct(o)) != Sym(Arrow) && !IsDeclMarker(Sym(BinOpPunct(o)))
  {
    var t := BinOpPunct(o);
    assert PunctInfix(t) == Some(BinaryInfix(o)) by {
      match o {
        case Mul => case Div => case Rem => case Add => case Sub => case Shl => case Shr =>
        case BitAnd => case BitXor => case Eq => case Ne => case Lt => case Le => case Gt =>
        case Ge => case And => case Or =>
      }
    }
    assert t != Arrow && t != Colon && t != ColonEq && t != ColonColon;
  }

  lemma {:induction false} AssignOpTokenReadsBack(a: AssignOp)
    ensures InfixOf(Sym(AssignOpPunct(a))) == Some(CompoundInfix(a))
    ensures Sym(AssignOpPunct(a)) != Sym(Arrow) && !IsDeclMarker(Sym(AssignOpPunct(a)))
  {
    var t := AssignOpPunct(a);
    assert PunctInfix(t) == Some(CompoundInfix(a)) by {
      match a {
        case MulAssign => case DivAssign => case RemAssign => case AddAssign =>
        case SubAssign => case ShlAssign => case ShrAssign => case BitAndAssign =>
        case BitXorAssign => case BitOrAssign => case AndAssign => case OrAssign =>
      }
    }
    assert t != Arrow && t != Colon && t != ColonEq && t != ColonColon;
  }

  /**
   * A printed tree is never empty; it starts with a name, a literal, `(`
   * or a prefix operator; and a name in front is followed by an operator.
   */
  lemma {:induction false} PrintStart(e: Expr)
    requires WellBracketed(e)
    ensures |Print(e)| >= 1
    ensures var t := Print(e)[0];
      t.Word? || t.Lit? || t in {Sym(LParen), Sym(Amp), Sym(Bang), Sym(Minus)}
    ensures Print(e)[0].Word? && |Print(e)| > 1 ==> InfixOf(Print(e)[1]).Some?
    ensures Print(e)[0].Word? ==> Base(e).NameRef?
    decreases e
  {
    if IsBinaryNode(e) {
      PrintStart(e.lhs);
      BinaryPrintStart(e);
    } else {
      AtomPrintStart(e);
    }
  }

  lemma {:induction false} BinaryPrintStart(e: Expr)
    requires IsBinaryNode(e)
    requires |Print(e.lhs)| >= 1
    requires var t := Print(e.lhs)[0];
      t.Word? || t.Lit? || t in {Sym(LParen), Sym(Amp), Sym(Bang), Sym(Minus)}
    requires Print(e.lhs)[0].Word? && |Print(e.lhs)| > 1 ==> InfixOf(Print(e.lhs)[1]).Some?
    requires Print(e.lhs)[0].Word? ==> Base(e.lhs).NameRef?
    ensures |Print(e)| >= 1
    ensures var t := Print(e)[0];
      t.Word? || t.Lit? || t in {Sym(LParen), Sym(Amp), Sym(Bang), Sym(Minus)}
    ensures Print(e)[0].Word? && |Print(e)| > 1 ==> InfixOf(Print(e)[1]).Some?
    ensures Print(e)[0].Word? ==> Base(e).NameRef?
  {
    OpTokenReadsBack(NodeOp(e));
    assert Print(e) == Print(e.lhs) + [OpToken(NodeOp(e))] + Print(e.rhs);
    JoinStart(Print(e.lhs), OpToken(NodeOp(e)), Print(e.rhs));
  }

  /** The first two tokens of `l t r` when `l` is not empty. */
  lemma {:induction false} JoinStart(l: seq<Token>, t: Token, r: seq<Token>)
    requires |l| >= 1
    ensures |l + [t] + r| >= 2 && (l + [t] + r)[0] == l[0]
    ensures (l + [t] + r)[1] == if |l| == 1 then t else l[1]
  {
  }

  lemma {:induction false} AtomPrintStart(e: Expr)
    requires WellBracketed(e) && !IsBinaryNode(e)
    ensures |Print(e)| >= 1
    ensures var t := Print(e)[0];
      t.Word? || t.Lit? || t in {Sym(LParen), Sym(Amp), Sym(Bang), Sym(Minus)}
    ensures Print(e)[0].Word? && |Print(e)| > 1 ==> InfixOf(Print(e)[1]).Some?
    ensures Print(e)[0].Word? ==> Base(e).NameRef?
  {
    match e
    case NameRef(_) =>
    case Literal(_) =>
    case Paren(inner) =>
      assert Print(e)[0] == Sym(LParen);
    case Prefix(op, x) =>
      assert Print(e)[0] == PrefixTokens(op)[0];
  }

  // One unfolding of the parser at a time.

  lemma {:induction false} ParseExprThenInfix(ts: seq<Token>, p: nat, m: nat, b: Expr, q: nat)
    requires p <= |ts| && ParsePrefix(ts, p) == Ok(b, q)
    ensures ParseExpr(ts, p, m) == ParseInfix(ts, q, b, m)
  {
  }

  lemma {:induction false} InfixStops(ts: seq<Token>, q: nat, lhs: Expr, m: nat)
    requires FollowOk(ts, q, m)
    ensures ParseInfix(ts, q, lhs, m) == Ok(lhs, q)
  {
  }

  lemma {:induction false} InfixTakes(ts: seq<Token>, q: nat, lhs: Expr, m: nat, op: ShapedOp, r: Expr, next: nat)
    requires q < |ts| && InfixOf(ts[q]) == Some(op) && Power(op) > m
    requires ParseExpr(ts, q + 1, RhsMin(op)) == Ok(r, next)
    ensures ParseInfix(ts, q, lhs, m) == ParseInfix(ts, next, Combine(op, lhs, r), m)
  {
    PowerFacts(op);
    assert ApplyInfix(ts, q, lhs, op) == Ok(Combine(op, lhs, r), next);
  }

  lemma {:induction false} ModifiersNone(ts: seq<Token>, p: nat)
    requires p < |ts| && ModifierOf(ts[p]).None?
    ensures ParseModifiers(ts, p) == ([], p)
  {
  }

  /** A parameter list must start with a modifier or a name followed by `:`, `:=` or `::`. */
  lemma {:induction false} DeclFails(ts: seq<Token>, p: nat)
    requires p + 1 < |ts| && !ts[p].Kw?
    requires ts[p].Word? ==> !IsDeclMarker(ts[p + 1])
    ensures ParseDecl(ts, p).Fail?
  {
    ModifiersNone(ts, p);
  }

  lemma {:induction false} DeclListFailsAt(ts: seq<Token>, p: nat)
    requires p + 1 < |ts| && !ts[p].Kw? && ts[p] != Sym(RParen)
    requires ts[p].Word? ==> !IsDeclMarker(ts[p + 1])
    ensures ParseSep(ts, p, Decls, Comma, RParen).Fail?
  {
    DeclFails(ts, p);
    assert ParseItem(ts, p, Decls).Fail?;
    assert ParseSep1(ts, p, Decls, Comma, RParen).Fail?;
  }

  /**
   * Parsing at minimum power `m` reads a printed well-bracketed tree that
   * binds tighter than `m` back as that very tree, when what follows it
   * cannot join it.
   */
  lemma {:induction false} ParsesPrinted(ts: seq<Token>, p: nat, e: Expr, m: nat)
    requires WellBracketed(e) && Level(e) > m
    requires Occurs(ts, p, Print(e)) && FollowOk(ts, p + |Print(e)|, m)
    ensures ParseExpr(ts, p, m) == Ok(e, p + |Print(e)|)
    decreases Size(e), 3
  {
    SpineRebuilds(e);
    SpineStepsOk(e, m);
    ParsesSpine(ts, p, Base(e), Steps(e), m);
  }

  /** The prefix part reads the base of a spine, and the infix loop then takes its steps. */
  lemma {:induction false} ParsesSpine(ts: seq<Token>, p: nat, b: Expr, s: seq<Step>, m: nat)
    requires WellBracketed(b) && !IsBinaryNode(b) && StepsOk(s, m) && (s == [] ==> Level(b) > m)
    requires Occurs(ts, p, Print(b) + StepsTokens(s))
    requires FollowOk(ts, p + |Print(b) + StepsTokens(s)|, m)
    ensures ParseExpr(ts, p, m) == Ok(Fold(b, s), p + |Print(b) + StepsTokens(s)|)
    decreases Size(b) + StepsSize(s), 2
  {
    OccursSplit(ts, p, Print(b), StepsTokens(s));
    var q := p + |Print(b)|;
    BaseFollow(ts, q, b, s, m);
    ParsesBase(ts, p, b);
    ParseExprThenInfix(ts, p, m, b, q);
    InfixSteps(ts, q, b, s, m);
  }

  /** What follows the base of a spine, an operator or the follower of the whole tree, does not join it. */
  lemma {:induction false} BaseFollow(ts: seq<Token>, q: nat, b: Expr, s: seq<Step>, m: nat)
    requires !IsBinaryNode(b) && WellBracketed(b) && StepsOk(s, m)
    requires s == [] ==> Level(b) > m
    requires Occurs(ts, q, StepsTokens(s)) && FollowOk(ts, q + |StepsTokens(s)|, m)
    ensures FollowOk(ts, q, Level(b) - 1)
  {
    if s != [] {
      OccursAt(ts, q, StepsTokens(s), 0);
      OpTokenReadsBack(s[0].op);
      PowerFacts(s[0].op);
    }
  }

  /** The operand at the bottom of a spine is read by the prefix part of the parser. */
  lemma {:induction false} ParsesBase(ts: seq<Token>, p: nat, b: Expr)
    requires WellBracketed(b) && !IsBinaryNode(b)
    requires Occurs(ts, p, Print(b)) && FollowOk(ts, p + |Print(b)|, Level(b) - 1)
    ensures ParsePrefix(ts, p) == Ok(b, p + |Print(b)|)
    decreases Size(b), 1
  {
    match b
    case NameRef(n) =>
      OccursAt(ts, p, Print(b), 0);
      ReadsName(ts, p);
    case Literal(l) =>
      OccursAt(ts, p, Print(b), 0);
    case Paren(inner) =>
      ParsesParen(ts, p, inner);
    case Prefix(op, x) =>
      ParsesPrefixOp(ts, p, op, x);
  }

  lemma {:induction false} ParsesParen(ts: seq<Token>, p: nat, inner: Expr)
    requires WellBracketed(inner) && Occurs(ts, p, Print(Paren(inner)))
    ensures ParsePrefix(ts, p) == Ok(Paren(inner), p + |Print(Paren(inner))|)
    decreases Size(inner) + 1, 0
  {
    assert Print(Paren(inner)) == [Sym(LParen)] + Print(inner) + [Sym(RParen)];
    var close := ParenLayout(ts, p, Print(inner));
    ParsesPrinted(ts, p + 1, inner, MIN);
    ReadsParen(ts, p, inner, close);
  }

  /** Where the body and the closing `)` of a parenthesised sequence sit. */
  lemma {:induction false} ParenLayout(ts: seq<Token>, p: nat, body: seq<Token>) returns (close: nat)
    requires Occurs(ts, p, [Sym(LParen)] + body + [Sym(RParen)])
    ensures close == p + 1 + |body| && close < |ts|
    ensures ts[p] == Sym(LParen) && ts[close] == Sym(RParen) && FollowOk(ts, close, MIN)
    ensures Occurs(ts, p + 1, body) && Occurs(ts, p + 1, body + [Sym(RParen)])
  {
    close := p + 1 + |body|;
    assert [Sym(LParen)] + body + [Sym(RParen)] == [Sym(LParen)] + (body + [Sym(RParen)]);
    OccursSplit(ts, p, [Sym(LParen)], body + [Sym(RParen)]);
    OccursSplit(ts, p + 1, body, [Sym(RParen)]);
    OccursAt(ts, p, [Sym(LParen)], 0);
    OccursAt(ts, close, [Sym(RParen)], 0);
  }

  lemma {:induction false} ParsesPrefixOp(ts: seq<Token>, p: nat, op: PreOp, x: Expr)
    requires WellBracketed(x) && PreopOperand(x)
    requires Occurs(ts, p, Print(Prefix(op, x))) && FollowOk(ts, p + |Print(Prefix(op, x))|, PREOP - 1)
    ensures ParsePrefix(ts, p) == Ok(Prefix(op, x), p + |Print(Prefix(op, x))|)
    decreases Size(x) + 1, 0
  {
    var k := |PrefixTokens(op)|;
    PrefixParts(ts, p, op, x);
    if x.Prefix? {
      PrefixOperandReads(ts, p + k, x);
    } else {
      PreopLevel(x);
      ParsesPrinted(ts, p + k, x, PREOP);
    }
    ReadsPrefix(ts, p, op, x, p + k + |Print(x)|);
  }

  /** A follower that stops a weaker loop also stops a stronger one. */
  lemma {:induction false} FollowWeaker(ts: seq<Token>, q: nat, m: nat, m': nat)
    requires FollowOk(ts, q, m) && m <= m'
    ensures FollowOk(ts, q, m')
  {
  }

  /** No operator tree sits at the level of `preop`: only a preop does. */
  lemma {:induction false} PreopLevel(x: Expr)
    ensures Level(x) == PREOP <==> x.Prefix?
  {
    if IsBinaryNode(x) {
      PowerFacts(NodeOp(x));
    }
  }

  /** The operand of a preop that is itself a preop is read whole at the preop's power. */
  lemma {:induction false} PrefixOperandReads(ts: seq<Token>, p: nat, x: Expr)
    requires x.Prefix? && WellBracketed(x)
    requires Occurs(ts, p, Print(x)) && FollowOk(ts, p + |Print(x)|, PREOP - 1)
    ensures ParseExpr(ts, p, PREOP) == Ok(x, p + |Print(x)|)
    decreases Size(x), 1
  {
    var q := p + |Print(x)|;
    ParsesPrefixOp(ts, p, x.preop, x.operand);
    ParseExprThenInfix(ts, p, PREOP, x, q);
    FollowWeaker(ts, q, PREOP - 1, PREOP);
    InfixStops(ts, q, x, PREOP);
  }

  lemma {:induction false} PrefixParts(ts: seq<Token>, p: nat, op: PreOp, x: Expr)
    requires WellBracketed(x) && Occurs(ts, p, Print(Prefix(op, x)))
    ensures Occurs(ts, p, PrefixTokens(op)) && Occurs(ts, p + |PrefixTokens(op)|, Print(x))
    ensures p + |PrefixTokens(op)| < |ts| && !ts[p + |PrefixTokens(op)|].Kw?
    ensures |Print(Prefix(op, x))| == |PrefixTokens(op)| + |Print(x)|
  {
    OccursSplit(ts, p, PrefixTokens(op), Print(x));
    PrintStart(x);
    OccursAt(ts, p + |PrefixTokens(op)|, Print(x), 0);
  }

  lemma {:induction false} ReadsName(ts: seq<Token>, p: nat)
    requires p < |ts| && ts[p].Word? && FollowOk(ts, p + 1, TIGHT - 1)
    ensures ParsePrefix(ts, p) == Ok(NameRef(ts[p].name), p + 1)
  {
  }

  lemma {:induction false} ReadsParen(ts: seq<Token>, p: nat, inner: Expr, close: nat)
    requires p < close < |ts| && ts[p] == Sym(LParen) && ts[close] == Sym(RParen)
    requires WellBracketed(inner) && Occurs(ts, p + 1, Print(inner) + [Sym(RParen)])
    requires ParseExpr(ts, p + 1, MIN) == Ok(inner, close)
    ensures ParsePrefix(ts, p) == Ok(Paren(inner), close + 1)
  {
    DeclListFails(ts, p + 1, inner);
    assert ParseParenOrFn(ts, p) == Ok(Paren(inner), close + 1);
  }

  lemma {:induction false} ReadsPrefix(ts: seq<Token>, p: nat, op: PreOp, x: Expr, next: nat)
    requires Occurs(ts, p, PrefixTokens(op))
    requires p + |PrefixTokens(op)| < |ts| && !ts[p + |PrefixTokens(op)|].Kw?
    requires ParseExpr(ts, p + |PrefixTokens(op)|, PREOP) == Ok(x, next)
    ensures ParsePrefix(ts, p) == Ok(Prefix(op, x), next)
  {
    OccursAt(ts, p, PrefixTokens(op), 0);
    if op == AddrOfMut {
      OccursAt(ts, p, PrefixTokens(op), 1);
    }
  }

  /** Inside `(`, a printed tree is never taken for the parameter list of a `fn`. */
  lemma {:induction false} DeclListFails(ts: seq<Token>, p: nat, e: Expr)
    requires WellBracketed(e) && Occurs(ts, p, Print(e) + [Sym(RParen)])
    ensures ParseSep(ts, p, Decls, Comma, RParen).Fail?
  {
    PrintStart(e);
    OccursSplit(ts, p, Print(e), [Sym(RParen)]);
    OccursAt(ts, p, Print(e), 0);
    if |Print(e)| > 1 {
      OccursAt(ts, p, Print(e), 1);
    } else {
      OccursAt(ts, p + 1, [Sym(RParen)], 0);
    }
    DeclListFailsAt(ts, p);
  }

  /** The infix loop takes the steps of a spine one by one, building the tree from the bottom up. */
  lemma {:induction false} InfixSteps(ts: seq<Token>, q: nat, lhs: Expr, s: seq<Step>, m: nat)
    requires StepsOk(s, m)
    requires Occurs(ts, q, StepsTokens(s)) && FollowOk(ts, q + |StepsTokens(s)|, m)
    ensures ParseInfix(ts, q, lhs, m) == Ok(Fold(lhs, s), q + |StepsTokens(s)|)
    decreases StepsSize(s), 4
  {
    if s == [] {
      assert StepsTokens(s) == [];
      InfixStops(ts, q, lhs, m);
    } else {
      var next := InfixFirstStep(ts, q, lhs, s, m);
      InfixSteps(ts, next, Combine(s[0].op, lhs, s[0].rhs), s[1..], m);
    }
  }

  /** The loop takes the first step: the operator, then its right operand parsed whole. */
  lemma {:induction false} InfixFirstStep(ts: seq<Token>, q: nat, lhs: Expr, s: seq<Step>, m: nat)
    returns (next: nat)
    requires s != [] && StepsOk(s, m)
    requires Occurs(ts, q, StepsTokens(s)) && FollowOk(ts, q + |StepsTokens(s)|, m)
    ensures next <= |ts|
    ensures ParseInfix(ts, q, lhs, m) == ParseInfix(ts, next, Combine(s[0].op, lhs, s[0].rhs), m)
    ensures Occurs(ts, next, StepsTokens(s[1..])) && StepsOk(s[1..], m)
    ensures next + |StepsTokens(s[1..])| == q + |StepsTokens(s)|
    ensures StepsSize(s[1..]) < StepsSize(s)
    decreases StepsSize(s), 3
  {
    next := StepLayout(ts, q, s, m);
    ParsesPrinted(ts, q + 1, s[0].rhs, RhsMin(s[0].op));
    InfixTakes(ts, q, lhs, m, s[0].op, s[0].rhs, next);
  }

  /** Where the operator, the right operand and the remaining steps of a spine stand. */
  lemma {:induction false} StepLayout(ts: seq<Token>, q: nat, s: seq<Step>, m: nat) returns (next: nat)
    requires s != [] && StepsOk(s, m)
    requires Occurs(ts, q, StepsTokens(s)) && FollowOk(ts, q + |StepsTokens(s)|, m)
    ensures next == q + 1 + |Print(s[0].rhs)| && next <= |ts|
    ensures q < |ts| && InfixOf(ts[q]) == Some(s[0].op) && Power(s[0].op) > m
    ensures WellBracketed(s[0].rhs) && Level(s[0].rhs) > RhsMin(s[0].op)
    ensures Occurs(ts, q + 1, Print(s[0].rhs)) && FollowOk(ts, next, RhsMin(s[0].op))
    ensures Occurs(ts, next, StepsTokens(s[1..])) && StepsOk(s[1..], m)
    ensures next + |StepsTokens(s[1..])| == q + |StepsTokens(s)|
    ensures StepsSize(s[1..]) < StepsSize(s) && Size(s[0].rhs) < StepsSize(s)
  {
    next := q + 1 + |Print(s[0].rhs)|;
    StepsSplit(ts, q, s, m);
    assert next + |StepsTokens(s[1..])| == q + |StepsTokens(s)|;
    RhsFollow(ts, next, s[0], s[1..], m);
  }

  /** The tokens of the first step, and where the remaining steps stand. */
  lemma {:induction false} StepsSplit(ts: seq<Token>, q: nat, s: seq<Step>, m: nat)
    requires s != [] && StepsOk(s, m) && Occurs(ts, q, StepsTokens(s))
    ensures q < |ts| && InfixOf(ts[q]) == Some(s[0].op) && Power(s[0].op) > m
    ensures WellBracketed(s[0].rhs) && Level(s[0].rhs) > RhsMin(s[0].op)
    ensures Occurs(ts, q + 1, Print(s[0].rhs))
    ensures Occurs(ts, q + 1 + |Print(s[0].rhs)|, StepsTokens(s[1..]))
    ensures q + |StepsTokens(s)| == q + 1 + |Print(s[0].rhs)| + |StepsTokens(s[1..])|
    ensures StepsOk([s[0]] + s[1..], m) && StepsOk(s[1..], m)
    ensures StepsSize(s[1..]) < StepsSize(s) && Size(s[0].rhs) < StepsSize(s)
  {
    var x := s[0];
    StepsHead(s, m);
    OpTokenReadsBack(x.op);
    HeadOccurs(ts, q, OpToken(x.op), Print(x.rhs), StepsTokens(s[1..]));
  }

  lemma {:induction false} StepsHead(s: seq<Step>, m: nat)
    requires s != [] && StepsOk(s, m)
    ensures Power(s[0].op) > m && WellBracketed(s[0].rhs) && Level(s[0].rhs) > RhsMin(s[0].op)
    ensures StepsOk([s[0]] + s[1..], m) && StepsOk(s[1..], m)
    ensures StepsSize(s[1..]) < StepsSize(s) && Size(s[0].rhs) < StepsSize(s)
    ensures StepsTokens(s) == [OpToken(s[0].op)] + Print(s[0].rhs) + StepsTokens(s[1..])
  {
    assert [s[0]] + s[1..] == s;
  }

  /** What follows a right operand, the next operator or the follower of the whole tree, does not join it. */
  lemma {:induction false} RhsFollow(ts: seq<Token>, q: nat, x: Step, rest: seq<Step>, m: nat)
    requires StepsOk([x] + rest, m)
    requires Occurs(ts, q, StepsTokens(rest)) && FollowOk(ts, q + |StepsTokens(rest)|, m)
    ensures FollowOk(ts, q, RhsMin(x.op))
  {
    PowerFacts(x.op);
    assert ([x] + rest)[1..] == rest;
    if rest != [] {
      OccursAt(ts, q, StepsTokens(rest), 0);
      OpTokenReadsBack(rest[0].op);
    }
  }

  // ---- Consequences: grouping and whole source files ----

  /** An expression alone in a source file is read back as the only top-level item. */
  lemma {:induction false} SourceReadsPrinted(e: Expr)
    requires WellBracketed(e)
    ensures ParseSource(Print(e)) == Success([e])
  {
    var ts := Print(e);
    PrintStart(e);
    assert Occurs(ts, 0, Print(e));
    ParsesPrinted(ts, 0, e, MIN);
  }

  /**
   * Of two operators in `x o1 y o2 z`, the first groups first when it binds
   * tighter, or equally tight and it is not right-associative.
   */
  predicate BindsLeft(o1: ShapedOp, o2: ShapedOp) {
    Power(o1) > Power(o2) || (Power(o1) == Power(o2) && !RightAssoc(o1))
  }

  /** A name or a literal: an operand that needs no brackets anywhere. */
  predicate IsAtom(e: Expr) {
    e.NameRef? || e.Literal?
  }

  /** `x o1 y o2 z` for operands `x`, `y`, `z` groups as the PREC table and associativity say. */
  lemma {:induction false} Grouping(x: Expr, o1: ShapedOp, y: Expr, o2: ShapedOp, z: Expr)
    requires IsAtom(x) && IsAtom(y) && IsAtom(z)
    ensures var ts := Print(x) + [OpToken(o1)] + Print(y) + [OpToken(o2)] + Print(z);
      ParseSource(ts) == Success([
        if BindsLeft(o1, o2) then Combine(o2, Combine(o1, x, y), z)
        else Combine(o1, x, Combine(o2, y, z))])
  {
    if BindsLeft(o1, o2) {
      GroupsLeft(x, o1, y, o2, z);
      SourceReadsPrinted(Combine(o2, Combine(o1, x, y), z));
    } else {
      GroupsRight(x, o1, y, o2, z);
      SourceReadsPrinted(Combine(o1, x, Combine(o2, y, z)));
    }
  }

  /** A binary node prints as its operands around its operator, and is well bracketed when they bind tightly enough. */
  lemma {:induction false} CombineFacts(op: ShapedOp, l: Expr, r: Expr)
    ensures Print(Combine(op, l, r)) == Print(l) + [OpToken(op)] + Print(r)
    ensures Level(Combine(op, l, r)) == Power(op)
    ensures WellBracketed(Combine(op, l, r))
      <==> WellBracketed(l) && WellBracketed(r) && Level(l) > LhsMin(op) && Level(r) > RhsMin(op)
  {
  }

  lemma {:induction false} GroupsLeft(x: Expr, o1: ShapedOp, y: Expr, o2: ShapedOp, z: Expr)
    requires IsAtom(x) && IsAtom(y) && IsAtom(z) && BindsLeft(o1, o2)
    ensures Print(Combine(o2, Combine(o1, x, y), z)) == Print(x) + [OpToken(o1)] + Print(y) + [OpToken(o2)] + Print(z)
    ensures WellBracketed(Combine(o2, Combine(o1, x, y), z))
  {
    PowerFacts(o1);
    PowerFacts(o2);
    var l := Combine(o1, x, y);
    CombineFacts(o1, x, y);
    CombineFacts(o2, l, z);
  }

  lemma {:induction false} GroupsRight(x: Expr, o1: ShapedOp, y: Expr, o2: ShapedOp, z: Expr)
    requires IsAtom(x) && IsAtom(y) && IsAtom(z) && !BindsLeft(o1, o2)
    ensures Print(Combine(o1, x, Combine(o2, y, z))) == Print(x) + [OpToken(o1)] + Print(y) + [OpToken(o2)] + Print(z)
    ensures WellBracketed(Combine(o1, x, Combine(o2, y, z)))
  {
    PowerFacts(o1);
    PowerFacts(o2);
    var r := Combine(o2, y, z);
    CombineFacts(o2, y, z);
    CombineFacts(o1, x, r);
  }

  /** `1 + 2 * 3`-like: multiplication binds tighter than addition. */
  lemma {:induction false} MulInsideAdd(a: Name, b: Name, c: Name)
    ensures ParseSource([Word(a), Sym(Plus), Word(b), Sym(Star), Word(c)])
         == Success([Binary(Add, NameRef(a), Binary(Mul, NameRef(b), NameRef(c)))])
  {
    assert Print(NameRef(a)) + [OpToken(BinaryInfix(Add))] + Print(NameRef(b)) + [OpToken(BinaryInfix(Mul))] + Print(NameRef(c))
        == [Word(a), Sym(Plus), Word(b), Sym(Star), Word(c)];
    assert !BindsLeft(BinaryInfix(Add), BinaryInfix(Mul));
    Grouping(NameRef(a), BinaryInfix(Add), NameRef(b), BinaryInfix(Mul), NameRef(c));
  }

  /** `a - b - c` is `(a - b) - c`. */
  lemma {:induction false} SubGroupsLeft(a: Name, b: Name, c: Name)
    ensures ParseSource([Word(a), Sym(Minus), Word(b), Sym(Minus), Word(c)])
         == Success([Binary(Sub, Binary(Sub, NameRef(a), NameRef(b)), NameRef(c))])
  {
    assert Print(NameRef(a)) + [OpToken(BinaryInfix(Sub))] + Print(NameRef(b)) + [OpToken(BinaryInfix(Sub))] + Print(NameRef(c))
        == [Word(a), Sym(Minus), Word(b), Sym(Minus), Word(c)];
    assert BindsLeft(BinaryInfix(Sub), BinaryInfix(Sub));
    Grouping(NameRef(a), BinaryInfix(Sub), NameRef(b), BinaryInfix(Sub), NameRef(c));
  }

  /** `a = b = c` is `a = (b = c)`. */
  lemma {:induction false} AssignGroupsRight(a: Name, b: Name, c: Name)
    ensures ParseSource([Word(a), Sym(Punct.Eq), Word(b), Sym(Punct.Eq), Word(c)])
         == Success([Assign(NameRef(a), Assign(NameRef(b), NameRef(c)))])
  {
    assert Print(NameRef(a)) + [OpToken(AssignInfix)] + Print(NameRef(b)) + [OpToken(AssignInfix)] + Print(NameRef(c))
        == [Word(a), Sym(Punct.Eq), Word(b), Sym(Punct.Eq), Word(c)];
    assert !BindsLeft(AssignInfix, AssignInfix);
    Grouping(NameRef(a), AssignInfix, NameRef(b), AssignInfix, NameRef(c));
  }

  /** `a && b || c` is `(a && b) || c`. */
  lemma {:induction false} AndInsideOr(a: Name, b: Name, c: Name)
    ensures ParseSource([Word(a), Sym(AmpAmp), Word(b), Sym(PipePipe), Word(c)])
         == Success([Binary(Or, Binary(And, NameRef(a), NameRef(b)), NameRef(c))])
  {
    assert Print(NameRef(a)) + [OpToken(BinaryInfix(And))] + Print(NameRef(b)) + [OpToken(BinaryInfix(Or))] + Print(NameRef(c))
        == [Word(a), Sym(AmpAmp), Word(b), Sym(PipePipe), Word(c)];
    assert BindsLeft(BinaryInfix(And), BinaryInfix(Or));
    Grouping(NameRef(a), BinaryInfix(And), NameRef(b), BinaryInfix(Or), NameRef(c));
  }

  /** `a += b * c` is `a += (b * c)`. */
  lemma {:induction false} CompoundTakesWholeRhs(a: Name, b: Name, c: Name)
    ensures ParseSource([Word(a), Sym(PlusEq), Word(b), Sym(Star), Word(c)])
         == Success([BinopAssign(AddAssign, NameRef(a), Binary(Mul, NameRef(b), NameRef(c)))])
  {
    assert Print(NameRef(a)) + [OpToken(CompoundInfix(AddAssign))] + Print(NameRef(b)) + [OpToken(BinaryInfix(Mul))] + Print(NameRef(c))
        == [Word(a), Sym(PlusEq), Word(b), Sym(Star), Word(c)];
    assert !BindsLeft(CompoundInfix(AddAssign), BinaryInfix(Mul));
    Grouping(NameRef(a), CompoundInfix(AddAssign), NameRef(b), BinaryInfix(Mul), NameRef(c));
  }
}

=== FILE: precedence.dfy ===
/**
 * The PREC table of grammar.js and what each token means when it follows a
 * complete operand: which infix, postfix or initializer rule it starts, and
 * with which binding power and associativity.
 */
module Precedence {

  import opened Wrappers
  import opened Tokens
  import opened Ast

  const POSTOP: nat := 22
  const PREOP: nat := 21
  const INITIALIZER: nat := 20
  const BINOP_MUL: nat := 19
  const BINOP_ADD: nat := 18
  const BINOP_SHIFT: nat := 17
  const BINOP_BITAND: nat := 16
  const BINOP_BITXOR: nat := 15
  const BINOP_BITOR: nat := 14
  const BINOP_CMP: nat := 13
  const BINOP_AND: nat := 12
  const BINOP_OR: nat := 11
  const RANGE: nat := 10
  const DECL_TY: nat := 4
  const PIPE: nat := 4
  const ASSIGN: nat := 3
  const VAR_DECL: nat := 2
  const IF: nat := 1
  const MIN: nat := 0

  /** `fn` is `prec.right(2, ...)`, with a literal 2. */
  const FN: nat := 2
  /** The `: ty = e` and `: ty : e` shapes of `var_decl` carry `PREC.assign + 1`. */
  const DECL_INIT: nat := ASSIGN + 1
  /** The `name = value` shape of `arg` carries precedence 2. */
  const NAMED_ARG: nat := 2

  datatype InitKind = ByPosition | ByName | ByArray

  /** What a token means in operator position. */
  datatype Infix =
    | BinaryInfix(op: BinOp)
      /** A signed numeric literal after an operand is read as `-` and its magnitude. */
    | SignedLiteral(lit: Literal)
    | AssignInfix
    | CompoundInfix(assignOp: AssignOp)
    | RangeInfix(inclusive: bool)
    | FieldInfix
    | IndexInfix
    | CallInfix
    | InitInfix(kind: InitKind)
    | PostfixInfix(postop: PostOp)

  /** The level of each `binop` alternative in the PREC table. */
  function BinOpPower(o: BinOp): (p: nat)
    ensures BINOP_OR <= p <= BINOP_MUL
  {
    match o
    case Mul | Div | Rem => BINOP_MUL
    case Add | Sub => BINOP_ADD
    case Shl | Shr => BINOP_SHIFT
    case BitAnd => BINOP_BITAND
    case BitXor => BINOP_BITXOR
    case Eq | Ne | Lt | Le | Gt | Ge => BINOP_CMP
    case And => BINOP_AND
    case Or => BINOP_OR
  }

  /** Every infix level binds tighter than `fn`, `var_decl` and `if`, and no tighter than a postfix. */
  function Power(op: Infix): (p: nat)
    ensures ASSIGN <= p <= POSTOP
  {
    match op
    case BinaryInfix(o) => BinOpPower(o)
    case SignedLiteral(_) => BINOP_ADD
    case AssignInfix | CompoundInfix(_) => ASSIGN
    case RangeInfix(_) => RANGE
    case InitInfix(_) => INITIALIZER
    case FieldInfix | IndexInfix | CallInfix | PostfixInfix(_) => POSTOP
  }

  /** Only `assign` and `binop_assign` are `prec.right`; every other level groups to the left. */
  predicate RightAssoc(op: Infix) {
    op.AssignInfix? || op.CompoundInfix?
  }

  function BinOpPunct(o: BinOp): Punct {
    match o
    case Mul => Star
    case Div => Slash
    case Rem => Percent
    case Add => Plus
    case Sub => Minus
    case Shl => Tokens.Shl
    case Shr => Tokens.Shr
    case BitAnd => Amp
    case BitXor => Caret
    case Eq => EqEq
    case Ne => NotEq
    case Lt => Tokens.Lt
    case Le => Tokens.Le
    case Gt => Tokens.Gt
    case Ge => Tokens.Ge
    case And => AmpAmp
    case Or => PipePipe
  }

  function AssignOpPunct(a: AssignOp): Punct {
    match a
    case MulAssign => StarEq
    case DivAssign => SlashEq
    case RemAssign => PercentEq
    case AddAssign => PlusEq
    case SubAssign => MinusEq
    case ShlAssign => ShlEq
    case ShrAssign => ShrEq
    case BitAndAssign => AmpEq
    case BitXorAssign => CaretEq
    case BitOrAssign => PipeEq
    case AndAssign => AmpAmpEq
    case OrAssign => PipePipeEq
  }

  predicate IsSignedNumber(l: Literal) {
    (l.IntLit? && l.negative) || (l.FloatLit? && l.negative)
  }

  /** The literal without its minus sign. */
  function Magnitude(l: Literal): Literal {
    match l
    case IntLit(_, d) => IntLit(false, d)
    case FloatLit(_, w, f) => FloatLit(false, w, f)
    case _ => l
  }

  function PunctInfix(p: Punct): Option<Infix> {
    match p
    case Star => Some(BinaryInfix(Mul))
    case Slash => Some(BinaryInfix(Div))
    case Percent => Some(BinaryInfix(Rem))
    case Plus => Some(BinaryInfix(Add))
    case Minus => Some(BinaryInfix(Sub))
    case Shl => Some(BinaryInfix(Ast.Shl))
    case Shr => Some(BinaryInfix(Ast.Shr))
    case Amp => Some(BinaryInfix(BitAnd))
    case Caret => Some(BinaryInfix(BitXor))
    case EqEq => Some(BinaryInfix(Ast.Eq))
    case NotEq => Some(BinaryInfix(Ne))
    case Lt => Some(BinaryInfix(Ast.Lt))
    case Le => Some(BinaryInfix(Ast.Le))
    case Gt => Some(BinaryInfix(Ast.Gt))
    case Ge => Some(BinaryInfix(Ast.Ge))
    case AmpAmp => Some(BinaryInfix(And))
    case PipePipe => Some(BinaryInfix(Or))
    case DotDot => Some(RangeInfix(false))
    case DotDotEq => Some(RangeInfix(true))
    case Eq => Some(AssignInfix)
    case StarEq => Some(CompoundInfix(MulAssign))
    case SlashEq => Some(CompoundInfix(DivAssign))
    case PercentEq => Some(CompoundInfix(RemAssign))
    case PlusEq => Some(CompoundInfix(AddAssign))
    case MinusEq => Some(CompoundInfix(SubAssign))
    case ShlEq => Some(CompoundInfix(ShlAssign))
    case ShrEq => Some(CompoundInfix(ShrAssign))
    case AmpEq => Some(CompoundInfix(BitAndAssign))
    case CaretEq => Some(CompoundInfix(BitXorAssign))
    case PipeEq => Some(CompoundInfix(BitOrAssign))
    case AmpAmpEq => Some(CompoundInfix(AndAssign))
    case PipePipeEq => Some(CompoundInfix(OrAssign))
    case Dot => Some(FieldInfix)
    case LBracket => Some(IndexInfix)
    case LParen => Some(CallInfix)
    case DotLParen => Some(InitInfix(ByPosition))
    case DotLBrace => Some(InitInfix(ByName))
    case DotLBracket => Some(InitInfix(ByArray))
    case DotAmp => Some(PostfixInfix(PostAddrOf))
    case DotStar => Some(PostfixInfix(Deref))
    case Question => Some(PostfixInfix(Try))
    case _ => None
  }

  /** The rule a token continues when it follows a complete operand, if any. */
  function InfixOf(t: Token): Option<Infix> {
    match t
    case Sym(p) => PunctInfix(p)
    case Lit(l) => if IsSignedNumber(l) then Some(SignedLiteral(l)) else None
    case _ => None
  }

  /** The tokens that can begin an `_expr`. */
  predicate StartsExpr(t: Token) {
    match t
    case Word(_) => true
    case Lit(_) => true
    case Kw(k) => k != Do && k != Else
    case Sym(p) =>
      p in {Star, LBracket, Question, Arrow, LParen, LBrace, DotLParen, DotLBrace,
            DotLBracket, Amp, Bang, Minus, DotDot, DotDotEq}
    case LineComment(_) => false
  }
}

=== FILE: tokens.dfy ===
/**
 * The tokens of the language and their exact spelling in source text.
 * Every token the lexer emits is one of these, and `Spell` gives back the
 * characters it was read from.
 */
module Tokens {

  import opened Wrappers

  /** An `_ident`: either a `primitive_type` spelling or a plain `ident`. */
  datatype Name = Ident(text: string) | PrimitiveType(text: string)

  /** The reserved words of the grammar (string rules that match `_ident_like`). */
  datatype Keyword =
    | Pub | Mut | Rec | Extern | Struct | Union | Enum
    | If | Do | Else | Match | For | While
    | Defer | Return | Break | Continue | Unsafe | Nil

  /** Punctuation and operator symbols, each spelled by `PunctText`. */
  datatype Punct =
    | Semi | Comma | LParen | RParen | LBrace | RBrace | LBracket | RBracket
    | Arrow | Colon | ColonColon | ColonEq | Question | Bang | Dot
    | DotLParen | DotLBrace | DotLBracket | DotAmp | DotStar | DotDot | DotDotEq
    | Star | Slash | Percent | Plus | Minus | Shl | Shr | Amp | Caret
    | EqEq | NotEq | Lt | Le | Gt | Ge | AmpAmp | PipePipe
    | Eq | StarEq | SlashEq | PercentEq | PlusEq | MinusEq | ShlEq | ShrEq
    | AmpEq | CaretEq | PipeEq | AmpAmpEq | PipePipeEq

  /**
   * Literal values.  Numbers keep their digit text: `IntLit(true, "12")` is
   * the source text `-12`, `FloatLit(false, "1", "5")` is `1.5`.
   */
  datatype Literal =
    | CharLit(c: char)
    | StrLit(content: string)
    | BoolLit(b: bool)
    | IntLit(negative: bool, digits: string)
    | FloatLit(negative: bool, whole: string, fraction: string)

  datatype Token =
    | Word(name: Name)
    | Kw(keyword: Keyword)
    | Sym(punct: Punct)
    | Lit(literal: Literal)
      /** A `//` comment; `text` is everything after the two slashes up to the end of the line. */
    | LineComment(text: string)

  function KeywordText(k: Keyword): string {
    match k
    case Pub => "pub"
    case Mut => "mut"
    case Rec => "rec"
    case Extern => "extern"
    case Struct => "struct"
    case Union => "union"
    case Enum => "enum"
    case If => "if"
    case Do => "do"
    case Else => "else"
    case Match => "match"
    case For => "for"
    case While => "while"
    case Defer => "defer"
    case Return => "return"
    case Break => "break"
    case Continue => "continue"
    case Unsafe => "unsafe"
    case Nil => "nil"
  }

  function PunctText(p: Punct): string {
    match p
    case Semi => ";"
    case Comma => ","
    case LParen => "("
    case RParen => ")"
    case LBrace => "{"
    case RBrace => "}"
    case LBracket => "["
    case RBracket => "]"
    case Arrow => "->"
    case Colon => ":"
    case ColonColon => "::"
    case ColonEq => ":="
    case Question => "?"
    case Bang => "!"
    case Dot => "."
    case DotLParen => ".("
    case DotLBrace => ".{"
    case DotLBracket => ".["
    case DotAmp => ".&"
    case DotStar => ".*"
    case DotDot => ".."
    case DotDotEq => "..="
    case Star => "*"
    case Slash => "/"
    case Percent => "%"
    case Plus => "+"
    case Minus => "-"
    case Shl => "<<"
    case Shr => ">>"
    case Amp => "&"
    case Caret => "^"
    case EqEq => "=="
    case NotEq => "!="
    case Lt => "<"
    case Le => "<="
    case Gt => ">"
    case Ge => ">="
    case AmpAmp => "&&"
    case PipePipe => "||"
    case Eq => "="
    case StarEq => "*="
    case SlashEq => "/="
    case PercentEq => "%="
    case PlusEq => "+="
    case MinusEq => "-="
    case ShlEq => "<<="
    case ShrEq => ">>="
    case AmpEq => "&="
    case CaretEq => "^="
    case PipeEq => "|="
    case AmpAmpEq => "&&="
    case PipePipeEq => "||="
  }

  function Sign(negative: bool): string {
    if negative then "-" else ""
  }

  /** The source text a token is read from. */
  function Spell(t: Token): string {
    match t
    case Word(n) => n.text
    case Kw(k) => KeywordText(k)
    case Sym(p) => PunctText(p)
    case Lit(l) =>
      (match l
       case CharLit(c) => ['\'', c, '\'']
       case StrLit(s) => ['"'] + s + ['"']
       case BoolLit(b) => if b then "true" else "false"
       case IntLit(neg, d) => Sign(neg) + d
       case FloatLit(neg, w, f) => Sign(neg) + w + "." + f)
    case LineComment(text) => "//" + text
  }

  // Character classes.  The `\d`, `\w` and `\s` of the grammar's regular
  // expressions are taken in their ASCII meaning.

  predicate IsDigit(c: char) { '0' <= c <= '9' }

  predicate IsWordStart(c: char) { c == '_' || 'a' <= c <= 'z' || 'A' <= c <= 'Z' }

  predicate IsWordChar(c: char) { IsWordStart(c) || IsDigit(c) }

  predicate IsSpace(c: char) {
    c == ' ' || c == '\t' || c == '\n' || c == '\r' || c == '\U{000B}' || c == '\U{000C}'
  }

  predicate AllDigits(s: string) { forall i :: 0 <= i < |s| ==> IsDigit(s[i]) }

  /** `\d+` */
  predicate IsDigitRun(s: string) { |s| > 0 && AllDigits(s) }

  /** `[_a-zA-Z]\w*`, the grammar's `_ident_like`. */
  predicate IsWord(s: string) {
    |s| > 0 && IsWordStart(s[0]) && forall i :: 1 <= i < |s| ==> IsWordChar(s[i])
  }

  /** The spellings aliased to `primitive_type`: void, never, bool, f32, f64, `u\d+`, `i\d+`. */
  predicate IsPrimitiveTypeName(s: string) {
    || s == "void" || s == "never" || s == "bool" || s == "f32" || s == "f64"
    || (|s| >= 2 && (s[0] == 'u' || s[0] == 'i') && IsDigitRun(s[1..]))
  }

  ghost predicate IsKeywordText(s: string) {
    exists k :: KeywordText(k) == s
  }

  /**
   * What each token must look like to match its rule in the grammar: the
   * regular expressions of the literal rules, `_ident_like` with the
   * `primitive_type` and keyword split, and a comment that ends at a newline.
   */
  ghost predicate ValidToken(t: Token) {
    match t
    case Word(Ident(s)) => IsWord(s) && !IsPrimitiveTypeName(s) && !IsKeywordText(s) && s != "true" && s != "false"
    case Word(PrimitiveType(s)) => IsPrimitiveTypeName(s)
    case Kw(_) => true
    case Sym(_) => true
    case Lit(CharLit(c)) => c != '\n'
    case Lit(StrLit(s)) => '"' !in s
    case Lit(BoolLit(_)) => true
    case Lit(IntLit(_, d)) => IsDigitRun(d)
    case Lit(FloatLit(_, w, f)) => IsDigitRun(w) && IsDigitRun(f)
    case LineComment(text) => '\n' !in text
  }

  /**
   * The documentation payload of a `//` comment: `///x` and `//!x` carry the
   * doc text `x`; `////x` and every other comment carry none.
   */
  function DocPayload(text: string): (doc: Option<string>)
  {
    if |text| >= 2 && text[0] == '/' && text[1] == '/' then None
    else if |text| >= 1 && (text[0] == '!' || text[0] == '/') then Some(text[1..])
    else None
  }
}

=== FILE: type_props.dfy ===
/**
 * Properties of the type prefixes `ptr_ty`, `slice_ty`, `array_ty` and
 * `option_ty`, of `nil`, and of the `match`/`for` placeholders.  The
 * operand of a type prefix is parsed at the `preop` level, like the
 * operand of a prefix operator.
 */
module TypeProps {

  import opened Wrappers
  import opened Tokens
  import opened Ast
  import opened Precedence
  import opened Parser
  import opened ParserProps
  import opened FormProps
  import opened ListProps
  import opened ContainerProps
  import opened ControlProps

  function MutTokens(isMut: bool): seq<Token> {
    if isMut then [Kw(Mut)] else []
  }

  /**
   * A prefix of `k` tokens, ending in an optional `mut`, then an operand
   * a preop could take: the operand is read to the end and
   * `mut` is seen exactly when it was written.
   */
  lemma {:induction false} OperandAfterMut(ts: seq<Token>, k: nat, isMut: bool, e: Expr)
    requires WellBracketed(e) && PreopOperand(e) && 1 <= k
    requires Occurs(ts, k, Print(e)) && k + |Print(e)| == |ts|
    requires isMut ==> ts[k - 1] == Kw(Mut)
    ensures ParseExpr(ts, k, PREOP) == Ok(e, |ts|)
    ensures !ts[k].Kw?
  {
    if e.Prefix? {
      PrefixOperandReads(ts, k, e);
    } else {
      PreopLevel(e);
      ParsesPrinted(ts, k, e, PREOP);
    }
    PrintStartsOperand(e);
    OccursAt(ts, k, Print(e), 0);
  }

  /** `* mut? T`: a pointer type to exactly the operand, mutable exactly when `mut` is written. */
  lemma {:induction false} PtrTyReadsBack(isMut: bool, e: Expr)
    requires WellBracketed(e) && PreopOperand(e)
    ensures ParseSource([Sym(Star)] + MutTokens(isMut) + Print(e)) == Success([PtrTy(isMut, e)])
  {
    var ts := [Sym(Star)] + MutTokens(isMut) + Print(e);
    PtrTyOperand(ts, isMut, e);
    OperandStatement(ts, PtrTy(isMut, e));
  }

  lemma {:induction false} PtrTyOperand(ts: seq<Token>, isMut: bool, e: Expr)
    requires WellBracketed(e) && PreopOperand(e)
    requires ts == [Sym(Star)] + MutTokens(isMut) + Print(e)
    ensures ParsePrefix(ts, 0) == Ok(PtrTy(isMut, e), |ts|)
  {
    var k := 1 + |MutTokens(isMut)|;
    assert ts == [Sym(Star)] + MutTokens(isMut) + Print(e) + [] + [];
    Pieces(ts, [Sym(Star)], MutTokens(isMut), Print(e), [], []);
    if isMut {
      OccursAt(ts, 1, MutTokens(isMut), 0);
    }
    OperandAfterMut(ts, k, isMut, e);
    PointerRead(ts, isMut, e);
  }

  lemma {:induction false} PointerRead(ts: seq<Token>, isMut: bool, e: Expr)
    requires |ts| >= 2 && ts[0] == Sym(Star) && IsKw(ts, 1, Mut) == isMut
    requires ParseExpr(ts, if isMut then 2 else 1, PREOP) == Ok(e, |ts|)
    ensures ParsePrefix(ts, 0) == Ok(PtrTy(isMut, e), |ts|)
  {
  }

  /** `[ ] mut? T`: a slice type of exactly the operand. */
  lemma {:induction false} SliceTyReadsBack(isMut: bool, e: Expr)
    requires WellBracketed(e) && PreopOperand(e)
    ensures ParseSource([Sym(LBracket), Sym(RBracket)] + MutTokens(isMut) + Print(e)) == Success([SliceTy(isMut, e)])
  {
    var ts := [Sym(LBracket), Sym(RBracket)] + MutTokens(isMut) + Print(e);
    SliceTyOperand(ts, isMut, e);
    OperandStatement(ts, SliceTy(isMut, e));
  }

  lemma {:induction false} SliceTyOperand(ts: seq<Token>, isMut: bool, e: Expr)
    requires WellBracketed(e) && PreopOperand(e)
    requires ts == [Sym(LBracket), Sym(RBracket)] + MutTokens(isMut) + Print(e)
    ensures ParsePrefix(ts, 0) == Ok(SliceTy(isMut, e), |ts|)
  {
    var k := 2 + |MutTokens(isMut)|;
    assert ts == [Sym(LBracket), Sym(RBracket)] + MutTokens(isMut) + Print(e) + [] + [];
    Pieces(ts, [Sym(LBracket), Sym(RBracket)], MutTokens(isMut), Print(e), [], []);
    OccursAt(ts, 0, [Sym(LBracket), Sym(RBracket)], 1);
    if isMut {
      OccursAt(ts, 2, MutTokens(isMut), 0);
    }
    OperandAfterMut(ts, k, isMut, e);
    SliceRead(ts, isMut, e);
  }

  lemma {:induction false} SliceRead(ts: seq<Token>, isMut: bool, e: Expr)
    requires |ts| >= 3 && ts[0] == Sym(LBracket) && ts[1] == Sym(RBracket) && IsKw(ts, 2, Mut) == isMut
    requires ParseExpr(ts, if isMut then 3 else 2, PREOP) == Ok(e, |ts|)
    ensures ParsePrefix(ts, 0) == Ok(SliceTy(isMut, e), |ts|)
  {
  }

  /** `[ n ] T`: an array type whose count is any expression and whose element type is the operand. */
  lemma {:induction false} ArrayTyReadsBack(n: Expr, e: Expr)
    requires WellBracketed(n) && WellBracketed(e) && PreopOperand(e)
    ensures ParseSource([Sym(LBracket)] + Print(n) + [Sym(RBracket)] + Print(e)) == Success([ArrayTy(n, e)])
  {
    var ts := [Sym(LBracket)] + Print(n) + [Sym(RBracket)] + Print(e);
    ArrayTyOperand(ts, n, e);
    OperandStatement(ts, ArrayTy(n, e));
  }

  lemma {:induction false} ArrayTyOperand(ts: seq<Token>, n: Expr, e: Expr)
    requires WellBracketed(n) && WellBracketed(e) && PreopOperand(e)
    requires ts == [Sym(LBracket)] + Print(n) + [Sym(RBracket)] + Print(e)
    ensures ParsePrefix(ts, 0) == Ok(ArrayTy(n, e), |ts|)
  {
    var j := 1 + |Print(n)|;
    assert ts == [Sym(LBracket)] + Print(n) + [Sym(RBracket)] + Print(e) + [];
    Pieces(ts, [Sym(LBracket)], Print(n), [Sym(RBracket)], Print(e), []);
    OccursAt(ts, j, [Sym(RBracket)], 0);
    assert ParseExpr(ts, 1, MIN) == Ok(n, j) && !IsSym(ts, 1, RBracket) by {
      CloserFollows(ts, j, MIN);
      LevelAtLeastAssign(n);
      ParsesPrinted(ts, 1, n, MIN);
      PrintStartsOperand(n);
      OccursAt(ts, 1, Print(n), 0);
    }
    OperandAfterMut(ts, j + 1, false, e);
    ArrayRead(ts, n, j, e);
  }

  lemma {:induction false} ArrayRead(ts: seq<Token>, n: Expr, j: nat, e: Expr)
    requires 2 <= |ts| && ts[0] == Sym(LBracket) && !IsSym(ts, 1, RBracket)
    requires ParseExpr(ts, 1, MIN) == Ok(n, j) && IsSym(ts, j, RBracket)
    requires ParseExpr(ts, j + 1, PREOP) == Ok(e, |ts|)
    ensures ParsePrefix(ts, 0) == Ok(ArrayTy(n, e), |ts|)
  {
  }

  /** `? T`: in operand position `?` starts an option type, not the `?` postop. */
  lemma {:induction false} OptionTyReadsBack(e: Expr)
    requires WellBracketed(e) && PreopOperand(e)
    ensures ParseSource([Sym(Question)] + Print(e)) == Success([OptionTy(e)])
  {
    var ts := [Sym(Question)] + Print(e);
    OptionTyOperand(ts, e);
    OperandStatement(ts, OptionTy(e));
  }

  lemma {:induction false} OptionTyOperand(ts: seq<Token>, e: Expr)
    requires WellBracketed(e) && PreopOperand(e)
    requires ts == [Sym(Question)] + Print(e)
    ensures ParsePrefix(ts, 0) == Ok(OptionTy(e), |ts|)
  {
    assert ts == [Sym(Question)] + [] + Print(e) + [] + [];
    Pieces(ts, [Sym(Question)], [], Print(e), [], []);
    OperandAfterMut(ts, 1, false, e);
    OptionRead(ts, e);
  }

  lemma {:induction false} OptionRead(ts: seq<Token>, e: Expr)
    requires 1 <= |ts| && ts[0] == Sym(Question) && ParseExpr(ts, 1, PREOP) == Ok(e, |ts|)
    ensures ParsePrefix(ts, 0) == Ok(OptionTy(e), |ts|)
  {
  }

  /** `nil` alone is the nil expression. */
  lemma {:induction false} NilReadsBack()
    ensures ParseSource([Kw(Nil)]) == Success([NilLit])
  {
    OperandStatement([Kw(Nil)], NilLit);
  }

  /** `match` and `for` have no shape beyond a placeholder, so a source starting with either is rejected at its first token. */
  lemma {:induction false} PlaceholdersRejected(k: Keyword, rest: seq<Token>)
    requires k == Keyword.Match || k == Keyword.For
    ensures ParseSource([Kw(k)] + rest) == Failure(0)
  {
    var ts := [Kw(k)] + rest;
    assert ts[0] == Kw(k);
    assert ParsePrefix(ts, 0) == Fail(0);
  }
}

=== FILE: wrappers.dfy ===
/** Option and Result values shared by the lexer and the parser. */
module Wrappers {

  datatype Option<+T> = None | Some(value: T)

  /** A computation that either succeeds with a value or fails with an error. */
  datatype Result<+T, +E> = Success(value: T) | Failure(error: E)
}
